=== FILE: README.md ===
# Pomera AI Commander — a verified model of its core

This project models the sequential core of Pomera AI Commander in Dafny and proves
properties of the model. Pomera AI Commander is a Tk text-processing desktop
application. It also serves its tools to AI clients over the Model Context Protocol
(MCP), reading JSON-RPC messages on standard input. The modelled parts are:

- **The MCP stdio server** (`McpServer`). It routes each JSON-RPC line to zero or
  one response. A long-running tool call first streams progress notifications.
  Resources are read through a provider. Every tool execution is recorded in the
  metrics collector. The server is a state machine over an immutable `Server`
  record. The JSON parser, the tool registry and the resource provider are
  parameters (`Env`). How a tool run turns out is a parameter too (`Exec`: its
  result or exception, the number of 10-second polls it took, and its elapsed
  milliseconds).
- **The metrics collector** (`Metrics`). Per-tool counters, a FIFO window of the
  last 100 latencies, and nearest-rank percentiles. It also keeps collector totals
  and builds the `get_stats` summary.
- **The text tools** (`TextTools`). Title case, the Morse and binary translators,
  text repetition, the alphabetical line sorter, the strong-password generator and
  diff preprocessing.
- **Settings normalisation** (`Settings`). `_validate_settings` and the default
  settings, over a Python-like JSON value (`Json`).
- **The AI-tools helpers** (`AiTools`):
  - the `ENC:` API-key envelope, with the cipher as a parameter;
  - the AWS auth-method labels;
  - the Bedrock model filter and the inference-profile mapping;
  - stop-sequence splitting;
  - the header set of an AWS Signature Version 4 request, with hashes as parameters.
- **The research engine's response handling** (`Research`):
  - search-context formatting;
  - text extraction from OpenAI, Anthropic and OpenRouter replies;
  - the extended-thinking token guard;
  - style presets, the reasoning configuration and timeouts;
  - `ResearchResult.to_dict`.
- **The version bump script** (`BumpVersion`). `bump_version` and the version
  checks of `main`, including Python's `int()` parsing of each component.

Python's string and list builtins are modelled once:

- `Text`: `split`, `join`, `strip`, `split()`, `splitlines`, `lower`/`upper` and `str(int)`.
- `Sorting`: `sorted` as an insertion sort, and string order.
- `Wrappers`: `Result`/`Option`. A Python exception is `Raised(message)`.

Notes on the server model:

- The server's `initialized` flag is set by `initialized`, either as a request or as
  the notification `notifications/initialized`. It is not set by `initialize`
  (core/mcp/server_stdio.py:202-207, 223-224), and never by the `initialize`
  handler (229-239). Routing never depends on the flag.
- `HandleRequest` treats `params` as the code does. A missing or falsy `params` is
  replaced by `{}`. A `params` value that is not a dict makes `.get` raise
  `AttributeError` inside the handler.

## Model

| member | source | states |
|---|---|---|
| McpServer.NewServer | core/mcp/server_stdio.py:56-69 | A new server is uninitialised and has no resources. It advertises tools but not prompts or logging. It advertises resources exactly when a provider is given. |
| McpServer.AddResource | core/mcp/server_stdio.py:71-74 | The resource is appended and resources become advertised. Nothing else changes. |
| McpServer.SetResources | core/mcp/server_stdio.py:76-79 | The list is replaced. Resources are advertised iff the new list is non-empty. Nothing else changes. |
| McpServer.HandleNotification | core/mcp/server_stdio.py:221-227 | Only `notifications/initialized` changes the state: it sets the initialized flag. Every other notification, `notifications/cancelled` included, leaves the server as it was. |
| McpServer.HandleInitialize | core/mcp/server_stdio.py:229-239 | The reply carries the server info and capabilities under the request id. It raises exactly when `params`, or a present `clientInfo`, is not a dict. |
| McpServer.IsLongRunning | core/mcp/server_stdio.py:296-307 | A call is long-running iff the tool is `pomera_ai_tools` and `action` (default `generate`) is `research` or `deepreasoning`. Other tools never raise here. |
| McpServer.Payload | core/mcp/server_stdio.py:283-286 | The payload estimate of a tool result is 0 when no block has text, and at least the text length of every block. |
| McpServer.PayloadAppend | core/mcp/server_stdio.py:286 | The estimate is a sum: the payload of two runs of blocks adds up. |
| McpServer.CallOf | core/mcp/server_stdio.py:271-292 | The metrics record of a run: success iff no exception. A failure carries the exception message and payload 0. A success carries the summed text length of the result. |
| McpServer.KeepalivePercent | core/mcp/server_stdio.py:363-367 | The keepalive percentage is 10 per tick, capped at 95. It always stays below 100. |
| McpServer.ProgressTrace | core/mcp/server_stdio.py:350-398 | A run polled k times emits k+2 notifications with the same token and total 100. They are 0 (starting), then `KeepalivePercent(1..k)` (running), then 100 (complete). |
| McpServer.ProgressMonotone | core/mcp/server_stdio.py:351-398 | Progress never decreases along the trace. It reaches 100 only in the last notification. |
| McpServer.ExecuteWithProgress | core/mcp/server_stdio.py:309-406 | The long-running path emits the progress trace and records metrics exactly once. It then answers the request id with the tool result, or with an internal error carrying the exception message. |
| McpServer.ExecuteInline | core/mcp/server_stdio.py:270-294 | The inline path records metrics exactly once, success or not. It then answers with the result, or lets the exception escape. |
| McpServer.ProgressToken | core/mcp/server_stdio.py:266-267 | The token is `_meta.progressToken` when present, else `progress-<id>`. It raises iff `_meta` is present but not a dict. |
| McpServer.HandleToolsCall | core/mcp/server_stdio.py:247-268 | A missing or falsy name gives invalid-params, and an unregistered name gives tool-not-found. In both cases no metrics record is made and the state is unchanged. Otherwise the call runs on the long-running or the inline path. |
| McpServer.FindResource | core/mcp/server_stdio.py:420-425 | Finds the first listed resource whose uri equals the requested one. It finds one iff the list has a match. |
| McpServer.HandleResourcesRead | core/mcp/server_stdio.py:413-443 | A missing uri gives invalid-params, and an unknown uri gives resource-not-found. No provider, or a provider that raised, gives internal-error. Otherwise the reply is one content entry with the uri, the resource's mimeType and the provider's text. |
| McpServer.HandleRequest | core/mcp/server_stdio.py:198-219 | Routes the request by method: initialize, `initialized` (empty result, and sets the flag), ping (empty result), tools/list, tools/call, resources/list and resources/read. An unknown method gives method-not-found with the same id. Only tools/call emits progress or touches metrics. |
| McpServer.HandleMessage | core/mcp/server_stdio.py:178-219 | A parse failure is answered with a null id and the parser's code and message. A notification gets no reply. A request is routed, with falsy params replaced by `{}`. |
| McpServer.Finish | core/mcp/server_stdio.py:152-163 | The lines written for one handled message: what it emitted, then at most one response. |
| McpServer.ProcessLine | core/mcp/server_stdio.py:139-163 | One iteration of `run_sync` as written. A blank line writes nothing and changes nothing. An escaping exception is answered with a null id. |
| McpServer.RequestId | core/mcp/server_stdio.py:139-163 | The id the corrected loop gives an escaping error: the request's id once the line parses, null otherwise. McpServer.RequestAnsweredOnce carries the contract. |
| McpServer.ProcessLineCorrected | core/mcp/server_stdio.py:139-163 | The same iteration, but an escaping exception is answered under the request's id. |
| McpServer.RequestAnsweredOnce | core/mcp/server_stdio.py:139-219 | A request line gets exactly one response, carrying its id, with only progress notifications before it. A notification gets nothing. An unparsable line gets one error with a null id. |
| McpServer.Run | core/mcp/server_stdio.py:130-166 | The corrected read loop, over lines until end of stream. Only the metrics and the initialized flag can change: server info, capabilities and resources stay as they were, and the collector stays consistent. |
| McpServer.RunAnswersEachRequestOnce | core/mcp/server_stdio.py:139-163 | The number of responses written equals the number of lines read before end of stream that call for one. Blank lines and notifications get none. |
| McpServer.AsWrittenDropsRequestId | core/mcp/server_stdio.py:160-163 | As written, a failing inline tool call is answered with a null id. The corrected loop answers it under the request's id. |
| McpServer.NullIdExample | core/mcp/server_stdio.py:274-279 | A concrete request: id 7 calls a registered tool that raises "boom". It meets the conditions of the null-id finding. |
| McpServer.Code | core/mcp/server_stdio.py:191 | The wire code of each error. Parser errors keep the parser's code. The standard errors use codes from -32603 to -32601. The domain errors have no code in this model. |
| Metrics.Push | core/mcp/metrics.py:54-56 | Appending to the window keeps at most 100 entries, evicting the oldest. |
| Metrics.Record | core/mcp/metrics.py:42-56 | One execution: the call count rises by one, and the elapsed time and payload are added. The minimum and maximum enclose the new latency. Errors and the last error change only on failure. The window gets the latency. |
| Metrics.RecordKeepsValid | core/mcp/metrics.py:42-56 | Recording keeps a record well formed. The window stays within capacity and min ≤ max. |
| Metrics.Replay | core/mcp/metrics.py:42-56 | A fresh record after n recorded calls is valid and counts n calls. |
| Metrics.PushWindow | core/mcp/metrics.py:54-56 | Pushing onto the window of a history gives the window of the extended history. |
| Metrics.ReplayFailures | core/mcp/metrics.py:50-52 | The error count equals the number of failed calls. The last error is the message of the most recent failure. |
| Metrics.ReplayWindow | core/mcp/metrics.py:39-40 | The window holds exactly the last min(n, 100) latencies, in order. |
| Metrics.ReplayExtremes | core/mcp/metrics.py:45-47 | Every recorded latency lies between the reported minimum and maximum. The minimum is one of them. |
| Metrics.ErrorRate | core/mcp/metrics.py:66 | The rate is "0%" iff there were no calls. Otherwise it is errors/calls × 100. |
| Metrics.PercentileIndices | core/mcp/metrics.py:76-79 | For n ≥ 1 the three nearest-rank indices lie in [0, n) and are ordered. |
| Metrics.WindowPercentiles | core/mcp/metrics.py:74-79 | Each percentile is the latency at its nearest rank, stated without sorting. For p50 at index i = int(n/2), fewer than or exactly i window latencies lie below it, and more than i lie at or below it. p95 and p99 are the same at their capped indices. They are ordered and each is a latency of the window. |
| Metrics.WindowStats | core/mcp/metrics.py:74-79 | The percentile block is present iff the window is non-empty. When present it meets the nearest-rank statement. |
| Metrics.SortedAtRank | core/mcp/metrics.py:75-79 | Index i of an ascending rearrangement of the window holds the window's value at rank i. |
| Metrics.CountsPermutation | core/mcp/metrics.py:75 | The counts below and at-or-below a value do not depend on order. This is why sorting keeps ranks. |
| Metrics.RankUnique | core/mcp/metrics.py:77-79 | Only one value can sit at a given rank of the window. |
| Metrics.NearestRanksDetermine | core/mcp/metrics.py:74-79 | Any triple meeting the nearest-rank statement is exactly the computed percentiles. So the rank contract determines them. |
| Metrics.Mean | core/mcp/metrics.py:60-61 | The average times the call count equals the total. With no calls it is 0. |
| Metrics.RankPicks | core/mcp/metrics.py:75-79 | Ordered ranks picked from an ascending rearrangement give ordered members of the original window. |
| Metrics.ToDict | core/mcp/metrics.py:58-84 | With zero calls both averages are 0, the rate is "0%" and min is 0, not infinity. Otherwise `avg_ms` × calls = total time and `avg_payload_bytes` × calls = total payload. Percentiles are present iff the window is non-empty, each at its nearest rank. `last_error` is present iff it is a non-empty string. |
| Metrics.IndexOf | core/mcp/metrics.py:107 | Finds the entry of a tool name, or shows there is none. |
| Metrics.SumsAfterUpdate | core/mcp/metrics.py:106-110 | Replacing one entry changes the per-tool sums by exactly that entry's difference. |
| Metrics.CollectorRecord | core/mcp/metrics.py:102-110 | Totals rise by one call and, on failure, one error, so they stay equal to the per-tool sums. The named tool's entry is updated, or created at the end. Every other entry is unchanged. |
| Metrics.Reset | core/mcp/metrics.py:153-159 | After a reset there are no tools and both totals are zero. |
| Metrics.FirstMax | core/mcp/metrics.py:135-137 | Like Python's `max` with a key, it returns the first position holding the greatest key. |
| Metrics.GetStats | core/mcp/metrics.py:116-151 | The totals are reported as kept. The overall error rate is "0%" iff there are no calls, and otherwise errors / calls × 100. The slowest tool is null iff no tool was recorded. The most-errors tool is present iff some tool has errors, and both are first maxima. `per_tool` is a permutation of the rows, ordered by call count, descending. |
| Metrics.ResetGivesIdleStats | core/mcp/metrics.py:153-159 | After a reset the summary shows no calls, "0%", no slowest or most-errors tool, and no rows. |
| Metrics.TwoCallExample | core/mcp/metrics.py:42-84 | Recording a 10 ms success and then a failed 30 ms call "boom" reports 2 calls, 1 error, avg 20, min 10, max 30, rate 50% and last error "boom". |
| Metrics.TwoCallStats | core/mcp/metrics.py:58-84 | Any record of two calls totalling 40 ms, min 10, max 30, with one failure "boom", reports the same summary. |
| TextTools.Capitalize | promera_ai.py:74 | `str.capitalize`: same length, first character upper-cased, the rest lower-cased. |
| TextTools.ExclusionSet | promera_ai.py:69 | The exclusion set holds exactly the lower-cased lines of the exclusions field. |
| TextTools.TitleWords | promera_ai.py:72-76 | One output word per input word. The first word and each non-excluded word are capitalised, and the others lower-cased. |
| TextTools.TitleCaseWords | promera_ai.py:67-77 | Title case keeps the number of space-separated words. Each word becomes the capitalised or lowered form of its input word, the first one always capitalised. |
| TextTools.MorseCode | promera_ai.py:463-470 | Every code in the table is non-empty, made of `.`, `-` and `/`, and maps back to its character in the reversed table. |
| TextTools.MorseLetterInverse | promera_ai.py:471 | The reversed table has exactly the entries of the forward table, which is therefore injective. |
| TextTools.MorseEncode | promera_ai.py:82-83 | Splitting the encoding at single spaces gives one code per input character, with `""` for unknown characters. |
| TextTools.MorseRoundTrip | promera_ai.py:80-85 | Decoding the encoding of any text gives its upper-cased characters that have a code, in order. |
| TextTools.MorseRoundTripTotal | promera_ai.py:80-85 | When every character has a code, decoding the encoding gives `text.upper()`. |
| TextTools.Bits | promera_ai.py:97 | The binary digits of n are non-empty and denote n. |
| TextTools.Binary8Value | promera_ai.py:93-97 | `int(format(n, '08b'), 2) == n`. |
| TextTools.EncodeBinary | promera_ai.py:96-97 | The encoding of a text consists only of spaces and binary digits. |
| TextTools.EncodeBinaryWords | promera_ai.py:96-97 | The encoding has one space-separated word per code point: binary digits, zero-padded to at least eight, that denote that code point. |
| TextTools.DecodeNumerals | promera_ai.py:92-95 | Decoding succeeds iff every numeral is below 0x110000, and then yields the value of each numeral in order. At the first numeral of 0x110000 or more, `chr` raises: `ValueError` below 2^31, and the C-int `OverflowError` from 2^31 on. |
| TextTools.BinaryTranslator | promera_ai.py:88-97 | Text that is not binary is encoded into text that is, one word of at least eight binary digits per code point, denoting it. Binary text whose numerals are all valid decodes to one character per numeral, each of that numeral's value. At the first invalid numeral the caught `ValueError` gives the error string, while a numeral of 2^31 or more raises `OverflowError`, which escapes. Empty text gives empty text. |
| TextTools.TitleCase | promera_ai.py:67-77 | Computes the title case. TextTools.TitleCaseWords carries its contract: same number of space-separated words, the first capitalised, later ones lowered iff excluded. |
| TextTools.MorseTranslator | promera_ai.py:80-85 | Computes both directions. TextTools.MorseRoundTrip carries its contract: decoding an encoding gives the upper-cased characters that have a code. |
| TextTools.AlphabeticalSorter | promera_ai.py:134-143 | Joins the sorted lines. TextTools.SortedLines carries its contract: a case-insensitively sorted rearrangement of the lines, deduplicated with unique_only. |
| TextTools.BinaryRoundTrip | promera_ai.py:88-97 | Translating a non-binary text twice gives it back. |
| TextTools.RepeatingText | promera_ai.py:127-131 | A negative count gives the error string, and zero gives `""`. |
| TextTools.RepeatingTextLength | promera_ai.py:131 | The output holds `times` copies and `times - 1` separators. |
| TextTools.RepeatingTextSplits | promera_ai.py:131 | Splitting the output at a separator absent from the text gives back `times` copies. |
| TextTools.CaseInsensitiveOrders | promera_ai.py:142 | Comparing by `str.lower`, ascending and descending, are total preorders. |
| TextTools.Dedupe | promera_ai.py:141 | `dict.fromkeys` keeps every distinct line exactly once. |
| TextTools.SortedLines | promera_ai.py:134-143 | The result is a rearrangement of the (optionally stripped) lines, or with unique_only of their distinct values. It is sorted case-insensitively, ascending or descending. With unique_only it has no duplicates and keeps every distinct line. |
| TextTools.SameElements | promera_ai.py:141-142 | A rearrangement keeps the set of lines and the absence of duplicates. |
| TextTools.Draw | promera_ai.py:168-169 | The random draw has the requested length, over letters, digits and punctuation. |
| TextTools.Overwrite | promera_ai.py:172-177 | The required characters overwrite the first positions, as far as the password reaches. |
| TextTools.Shuffle | promera_ai.py:178 | Fisher–Yates with caller-supplied swap positions returns a permutation. |
| TextTools.StrongPassword | promera_ai.py:163-181 | Length ≤ 0 gives the error string. Otherwise the output has exactly `length` characters, each from the alphabet or the required characters. When the required characters fit, every one of them is in the output multiset. |
| TextTools.CompareKey | promera_ai.py:2013-2015 | With ignore_whitespace, the key is the line's words joined by single spaces. |
| TextTools.PreprocessForDiff | promera_ai.py:2008-2017 | One entry per line, with `raw` unchanged. `cmp` is lower-cased for ignore_case, whitespace-normalised for ignore_whitespace, and unchanged otherwise. |
| Settings.Blanks | promera_ai.py:345 | `[""] * n`: n empty strings. |
| Settings.ToMap | promera_ai.py:368-411 | A dict built from key-value pairs has every listed key, and each key holds a value listed for it. |
| Settings.RestoreOne | promera_ai.py:350-355 | One step of the model-list loop succeeds iff `tool_settings` is a dict and the tool's entry is absent, a dict, or already has the list. It leaves the named tool with a model list and every other tool unchanged. A document whose entry had the list is returned as it was. |
| Settings.ModelNames | promera_ai.py:350-351 | Exactly the default tools carrying `MODELS_LIST`, in order. |
| Settings.RestoreModels | promera_ai.py:349-355 | The restoration loop succeeds iff every touched entry is acceptable. Then every default tool with a model list has one, and other entries are untouched. |
| Settings.RestoreStep | promera_ai.py:350-355 | The loop's outcome over `name` followed by the rest, as one step plus the rest. |
| Settings.FillDefaults | promera_ai.py:340-342 | The three required keys become present, missing ones with their defaults. Every existing key keeps its value. A non-dict document is returned as it was. |
| Settings.FixAllTabs | promera_ai.py:344-347 | It raises unless both tab values have a length. Each tab list then has TAB_COUNT (7) entries: kept when it had 7, blank otherwise. |
| Settings.FixedHasTabCount | promera_ai.py:344-347 | A fixed tab list has exactly TAB_COUNT entries. |
| Settings.DictsEntriesOk | promera_ai.py:350-355 | Defaults whose tools are all dicts are acceptable to the restoration. |
| Settings.DefaultToolsWellFormed | promera_ai.py:368-411 | Every default tool's settings are a dict, and at least one carries a model list. |
| Settings.ValidateWith | promera_ai.py:336-355 | Normalises a settings document against given defaults. Settings.ValidateWithSpec carries its contract. |
| Settings.ValidateSettings | promera_ai.py:336-355 | `_validate_settings` with the application's own defaults. Settings.ValidateSettingsSpec carries its contract. |
| Settings.ValidateWithSpec | promera_ai.py:336-355 | For any well-formed defaults, normalisation succeeds iff the document is acceptable. The result is normalised, adds exactly the required keys, fixes the tab lists, and leaves other keys and tool entries unchanged. |
| Settings.FillFixShape | promera_ai.py:340-347 | After key filling and both tab checks, the tool settings are the user's or the defaults. The keys are the original plus the required ones, and other keys are unchanged. |
| Settings.ValidateSettingsSpec | promera_ai.py:336-355 | The same characterisation for the application's own defaults. |
| Settings.ValidateWithIdempotent | promera_ai.py:336-355 | Normalising an already normalised document changes nothing. |
| Settings.ValidateSettingsIdempotent | promera_ai.py:336-355 | `_validate_settings` applied to its own output changes nothing. |
| AiTools.Encrypt | tools/ai_tools.py:56-73 | An empty key, the placeholder, an already-prefixed key, unavailable crypto or no Fernet all give the input back. Otherwise the result is `ENC:`-prefixed iff sealing succeeded, and else the input. |
| AiTools.Decrypt | tools/ai_tools.py:75-95 | A changed result requires a prefixed key that is not passed through, a Fernet, and base64 then unseal succeeding and yielding the result. Any failure returns the input. |
| AiTools.EncryptIdempotent | tools/ai_tools.py:61-63 | Encrypting twice equals encrypting once. |
| AiTools.DecryptEncrypt | tools/ai_tools.py:56-95 | With a cipher that undoes itself and base64 that round-trips, decrypting an encrypted key gives it back. |
| AiTools.StoredMethod | tools/ai_tools.py:928-938 | Each display label maps to its stored method. An unknown label maps to `api_key`. |
| AiTools.MethodLabel | tools/ai_tools.py:319-327 | A stored method has a label iff it is one of the four methods. |
| AiTools.AuthRoundTrip | tools/ai_tools.py:319-327 | Label then stored value is the identity on stored methods, and stored value then label is the identity on labels. |
| AiTools.OnAuthChange | tools/ai_tools.py:921-944 | Other providers change nothing. For AWS Bedrock it fails iff the entry exists and is not a dict. Otherwise it stores the method under `AUTH_METHOD`, creating the entry when missing, and leaves every other field and entry unchanged. |
| AiTools.TextModels | tools/ai_tools.py:838-856 | Every id in the refreshed list belongs to a summary whose id is non-empty and free of the id keywords, and whose name is free of the name keywords. Every such summary's id is in the list. |
| AiTools.TextModelsIndices | tools/ai_tools.py:840-856 | The list is the ids at the text models' positions, in scan order, one entry per text model. |
| AiTools.TextModelsAppend | tools/ai_tools.py:840-856 | Scanning two lists of summaries one after the other appends their lists. |
| AiTools.OfferedModelsAccepted | tools/ai_tools.py:848-856 | Every model the refresh offers passes the request-path check. |
| AiTools.InferenceProfile | tools/ai_tools.py:1205-1214 | The five listed Claude ids map to their `us.` forms. Every other id is unchanged. |
| AiTools.InferenceProfileIdempotent | tools/ai_tools.py:1205-1214 | A profile id is not mapped again. |
| AiTools.StopSequences | tools/ai_tools.py:1294-1296 | There are no stop sequences iff the field strips to `""`. k commas give k+1 pieces, each stripped and comma-free. |
| AiTools.StopSequencesRoundTrip | tools/ai_tools.py:1294-1296 | Stop sequences joined by commas are read back as the same sequences. |
| AiTools.AddStopSequences | tools/ai_tools.py:1311-1313 | A blank field leaves the payload unchanged. Otherwise the key holds k+1 entries for k commas. Every other key is unchanged. |
| AiTools.SignedNames | tools/ai_tools.py:963-968 | Two signed headers, or three with a session token. |
| AiTools.SignedHeadersMatchCanonical | tools/ai_tools.py:963-968 | The signed-headers list names exactly the canonical header lines, in order. `x-amz-security-token` is among them iff a token is given. |
| AiTools.SignHeaders | tools/ai_tools.py:947-1006 | The header set has Content-Type, X-Amz-Date, Authorization and X-Amz-Content-Sha256. It has X-Amz-Security-Token iff a non-empty token is given, and then carries it. X-Amz-Date is the request date and the content hash is the payload's SHA-256. Authorization starts with `AWS4-HMAC-SHA256 Credential=<access key>/`. |
| Research.Snippet | core/ai_research_engine.py:180 | The snippet falls back to the content, then to `""`. |
| Research.Section | core/ai_research_engine.py:181 | The n-th section starts with `### [n] `. |
| Research.Sections | core/ai_research_engine.py:177-181 | One section per hit, numbered from 1 in order. |
| Research.FormatSearchContext | core/ai_research_engine.py:171-183 | The result is `""` iff there are no hits. Otherwise it starts with the header. |
| Research.FormatOne | core/ai_research_engine.py:176-183 | One hit gives the header and section 1. |
| Research.FormatAppend | core/ai_research_engine.py:176-183 | Another hit appends one section, numbered one past the previous ones. |
| Research.ExtractOpenAi | core/ai_research_engine.py:425-440 | It returns the text of the first `output_text` entry in scan order. Failing that it returns `item.content`, and otherwise the fixed error string. |
| Research.Texts | core/ai_research_engine.py:739-740 | Every character of the response text comes from a `text` block. |
| Research.Thoughts | core/ai_research_engine.py:737-738 | One thinking trace per `thinking` block. |
| Research.OtherBlocksIgnored | core/ai_research_engine.py:736-740 | Dropping blocks of other types changes neither the text nor the traces. |
| Research.ExtractAnthropic | core/ai_research_engine.py:731-742 | The loop returns the in-order concatenation of text blocks and the in-order list of thinking blocks. |
| Research.ExtractOpenRouter | core/ai_research_engine.py:1010-1026 | It returns the first choice's content if non-empty, else `message.content`, else the fixed error string. |
| Research.GuardMaxTokens | core/ai_research_engine.py:593-597 | The guarded max_tokens exceeds the budget. It is unchanged iff it already did, and budget + 16000 otherwise. |
| Research.ResearchPayloadAsWritten | core/ai_research_engine.py:581-597 | As written, only the two-stage payload is guarded. The single-mode payload keeps max_tokens unchanged. |
| Research.SingleModeUnguarded | core/ai_research_engine.py:650-661 | Single mode with max_tokens 10000 and budget 32000 builds a payload with max_tokens ≤ budget. |
| Research.ResearchPayload | core/ai_research_engine.py:593-597 | With the guard applied in both modes, every payload has max_tokens above the budget, and a valid max_tokens is kept. |
| Research.DeepReasoningPayload | core/ai_research_engine.py:1068-1074 | Deep reasoning always sends max_tokens above the budget, and keeps a valid max_tokens. |
| Research.SystemPrompt | core/ai_research_engine.py:36-50 | A known style gives its preset. An unknown one falls back to the analytical preset. The result is always one of the four presets. |
| Research.ReasoningConfig | core/ai_research_engine.py:812-814 | The config always carries the effort. It carries max_tokens iff a truthy reasoning_max_tokens is given and the model name contains "claude" case-insensitively. |
| Research.SingleModeTimeout | core/ai_research_engine.py:380 | The timeout is 300 seconds iff the effort is high or xhigh, and 120 otherwise. |
| Research.ToDict | core/ai_research_engine.py:102-119 | The five required keys are always present. thinking, search_results, usage and warnings are present iff non-empty. |
| Research.ToDictRoundTrip | core/ai_research_engine.py:102-119 | Reading the dict back gives the result with its empty optional parts dropped. |
| BumpVersion.ParseInt | bump_version.py:51 | `int(x)` on one component. BumpVersion.ParseIntSpec carries its contract. |
| BumpVersion.ParseIntSpec | bump_version.py:51 | `int(x)` succeeds iff the stripped, unsigned text is a numeral with single underscores between digits and at most 4300 digits. A numeral of more than 4300 digits raises the digit-limit error. A text that is not a numeral raises `invalid literal`, however long its digit runs. |
| BumpVersion.InvalidLiteral | bump_version.py:51 | The `invalid literal for int() with base 10: ` message ends with the repr of the whole argument, cut to 200 characters. |
| BumpVersion.InvalidLiteralNames | bump_version.py:51 | When the repr has at most 200 characters, reading the quoted part of the message back gives the argument. |
| BumpVersion.InvalidLiteralExamples | bump_version.py:51 | `int("a'b")` quotes its argument in double quotes. A plain 300-character argument gives a 240-character message. |
| Text.Repr | bump_version.py:51 | `repr` of a string is quoted at both ends with the quote `repr` picks, and is no shorter than the string plus its quotes. |
| Text.ReprRoundTrip | bump_version.py:51 | Reading a string's repr back as a literal gives the string. |
| Text.ReprPlain | bump_version.py:51 | Text without quotes, backslashes or control characters is written unchanged between single quotes. |
| BumpVersion.Str | bump_version.py:65 | `str(i)` succeeds iff i has at most 4300 digits, and then spells i in decimal. Otherwise it raises the digit-limit error. |
| BumpVersion.IntRoundTrip | bump_version.py:51-65 | `int(str(i)) == i` for every integer that `str` accepts, the negative ones included. |
| BumpVersion.Parse | bump_version.py:51 | `[int(x) for x in current.split(".")]`. BumpVersion.MapRaising carries its contract. |
| BumpVersion.Format | bump_version.py:65 | The join succeeds iff every component has at most 4300 digits. Otherwise it raises the `str` digit-limit error. |
| BumpVersion.StrRaisesLimit | bump_version.py:65 | `str` over a list raises nothing but the digit-limit error. |
| BumpVersion.BumpVersion | bump_version.py:49-65 | `bump_version`. BumpVersion.BumpVersionParses and BumpVersion.BumpSpec carry its contract. |
| BumpVersion.MapRaising | bump_version.py:51 | The comprehension succeeds iff every element parses, and then holds the parsed values in order. |
| BumpVersion.FormatParse | bump_version.py:51-65 | When formatting succeeds, parsing the result gives the same components back. |
| BumpVersion.Pad | bump_version.py:52-53 | Fewer than three components are zero-padded to three. Longer lists are kept. |
| BumpVersion.BumpSpec | bump_version.py:55-63 | major gives (M+1).0.0, minor gives M.(m+1).0 and patch gives M.m.(p+1), with later components unchanged. An unknown type changes nothing. A valid type gives a strictly greater version in list order. |
| BumpVersion.BumpVersionParses | bump_version.py:49-65 | For a parsable version, bumping succeeds iff every bumped, padded component has at most 4300 digits. The returned string then spells out those components. |
| BumpVersion.BumpVersionRaises | bump_version.py:51 | A version with a component that is not an integer raises. |
| BumpVersion.RemoveDots | bump_version.py:142 | `replace(".", "")` leaves no dot and only characters of the input. |
| BumpVersion.CliVersion | bump_version.py:134-146 | A bump flag raises iff the current version does not parse or a bumped component has more than 4300 digits. Otherwise it gives a version that parses to the bumped, padded components for that flag. Any other argument is accepted literally iff it is non-empty digits once dots are removed, and otherwise is a usage error. |
| BumpVersion.InteractiveVersion | bump_version.py:148-169 | The three bump previews succeed iff the current version parses and no bumped component of patch, minor or major has more than 4300 digits. Choices 1, 2 and 3 give a version that parses to the patch, minor and major bump of the padded components, and 4 gives the custom entry. A direct entry other than 1-4 is accepted iff it matches `d+.d+.d+`. |
| BumpVersion.Choose | bump_version.py:148-169 | The answer is read only when all three previews succeed. Choices 1, 2 and 3 take the patch, minor and major preview, and 4 takes the custom entry. An entry other than 1-4 is taken literally iff it matches `d+.d+.d+`. |
| BumpVersion.TripleParses | bump_version.py:165 | A version accepted interactively parses iff none of its three components has more than 4300 digits. It then has three non-negative integer components. |
| BumpVersion.DigitsParse | bump_version.py:51 | A digit string parses iff it has at most 4300 digits, and then to a natural number. |
| BumpVersion.ParseDigits | bump_version.py:51 | A digit string of at most 4300 digits parses to its value. |
| BumpVersion.ParseNegativeDigits | bump_version.py:51 | A minus sign followed by at most 4300 digits parses to the negated value. |
| Text.Strip | promera_ai.py:138 | `str.strip`: the result neither starts nor ends with whitespace, keeps only characters of the input, and is empty for all-whitespace text. |
| Text.JoinSplit | promera_ai.py:70-77 | Joining the pieces of a split with the separator restores the text. |
| Text.SplitJoin | promera_ai.py:70-77 | Splitting a join of separator-free pieces gives the pieces back. |
| Text.SplitCount | tools/ai_tools.py:1296 | k separators give k+1 pieces. |
| Text.NormalizedSpace | promera_ai.py:2015 | `re.sub(r"\s+", " ", s).strip()` is the words of s joined by single spaces. |
| Text.SplitLinesJoin | promera_ai.py:136 | `splitlines` of break-free lines joined by newlines gives the lines back, when the last line is non-empty. |
| Text.NatToStringRoundTrip | bump_version.py:65 | `str(n)` read back as digits is n. |
| Text.LowerIdempotent | promera_ai.py:69-76 | Lower-casing twice equals lower-casing once. |
| Sorting.Sort | core/mcp/metrics.py:75 | The result is a permutation of the input, sorted whenever the order is a total preorder. |
| Sorting.LexLeTotalPreorder | promera_ai.py:142 | Python's string order is a total preorder. |
| Sorting.DistinctPermutation | promera_ai.py:141-142 | A rearrangement of a duplicate-free list is duplicate-free. |
| Json.Get | core/mcp/server_stdio.py:252-253 | `.get` works only on a dict. It returns the value when the key is present, and the default otherwise. |

## Left out

- I/O: standard input and output, settings files, HTTP requests, and the git call in
  `main` are outside the model. Reads become parameters (an `Input` sequence, the
  parsed JSON document) and writes become returned values.
- Threads: the background worker and `join(timeout)` in `_execute_with_progress` are
  replaced by an outcome and a tick count given as parameters. The async `run` loop
  is not modelled. It does the same work as `run_sync`.
- Time: elapsed milliseconds, the 10-second polling interval, the clock in
  `sign_aws_request`, uptime and calls-per-minute are parameters or are left out.
- `tools/list` and `resources/list` descriptors are passed through unchanged. The
  parser in `protocol.py` is not part of this model, so its wire format is not
  modelled.
- Metrics.ToDict: rounding is not modelled. `avg_ms`, `min_ms`, `max_ms` and the
  percentiles are rounded to one decimal, and `avg_payload_bytes` to a whole number
  (`round(avg_payload)`, metrics.py:70). The error rate is formatted with `.1f%`
  (metrics.py:66). The model states the exact quotients. Latencies are whole
  milliseconds (`nat`), not floats.
- Metrics.GetStats: the overall error rate is stated as the exact percentage, not
  its `.1f%` text (metrics.py:145).
- Metrics.PercentileIndices: `int(n*0.95)` is modelled as `n*95/100`. These are equal
  for the window sizes that occur (n ≤ 100).
- Sorting.Sort: stability is not stated. The sorted lines and `per_tool` are proved a
  sorted permutation, not the stable order Python's sort gives among equal keys.
- TextTools.SortedLines: the order among lines equal when lower-cased is not stated,
  as for Sorting.Sort.
- TextTools.AlphabeticalSorter: the order among lines equal when lower-cased is not
  stated, as for Sorting.Sort.
- Metrics.GetStats: the order of `per_tool` entries with equal call counts is not
  stated, as for Sorting.Sort.
- Case mapping and digits are ASCII only throughout the model. Unicode case folding
  and Unicode `\d` are not modelled. Whitespace is Python's `str.isspace` set. The
  members below rest on this.
- Text.Strip: whitespace is the `str.isspace` set. Case mapping and digits in the
  Text module are ASCII only, as above.
- TextTools.Capitalize: ASCII case mapping only, as above.
- TextTools.TitleCase: ASCII case mapping only, as above.
- TextTools.MorseTranslator: ASCII upper-casing only, as above.
- TextTools.AlphabeticalSorter: ASCII lower-casing of the sort key only, as above.
- TextTools.PreprocessForDiff: ASCII lower-casing only, as above.
- BumpVersion.ParseInt: only ASCII digits are read as digits, as above.
- TextTools.StrongPassword: the random choices are parameters (`pick`, `swap`).
  Only length and the multiset of characters are stated.
- TextTools.BinaryTranslator: a text is a sequence of code points. A numeral from
  0x110000 up to 2^31 - 1 gives the caught `ValueError` and so the error string. A
  numeral of 2^31 or more raises `OverflowError`, which the `except` does not catch.
  This is CPython 3.12's `chr`, which converts its argument to a C `int` first. Only
  the message is kept, not the exception class.
- `sentence_case`, `word_frequency`, `extract_emails`, `number_sorter`,
  `base64_processor`, find/replace and the URL parser are not modelled. They rest on
  the regex engine, floating point or standard-library codecs.
- The difflib opcodes of the diff viewer are not modelled. Only the line
  preprocessing is.
- Settings: the default `export_path` is a parameter. JSON numbers are reals, so
  the int/float distinction is lost. A `KeyError` message is the key in quotes.
- AiTools.Encrypt: Fernet is a deterministic parameter, though real Fernet tokens
  carry a random IV and a timestamp. PBKDF2 key derivation is not modelled.
- AiTools.SignHeaders: SHA-256 and HMAC are parameters. URL parsing is replaced by
  host and path parameters. The `except` fallback returning `{}` is not modelled.
- AiTools.TextModels: `.lower()` is ASCII only. Summaries whose fields are not
  strings are not modelled.
- `_add_param_if_valid` and the rest of payload building, other than stop
  sequences and the inference profile, are not modelled.
- Research: replies are typed records. JSON items of unexpected types, which the
  source's `try/except` turns into the error string, are not modelled.
- Research.SingleModeTimeout: only the OpenAI and OpenRouter single-mode timeouts
  are modelled. The fixed 600 s of Anthropic single mode and the absent timeout of
  deep reasoning are constants in the source.
- BumpVersion.InteractiveVersion: option 4 accepts any custom version without a
  check, as the source does. `get_current_version` reads a file, so the current
  version is a parameter.
- BumpVersion.IntRoundTrip: Python's `int()` is modelled for ASCII digits with
  underscores between digits. Unicode digits are not modelled. The 4300-digit limit
  of `int()` and `str()` is the default of `sys.get_int_max_str_digits()` since
  Python 3.11. A changed limit or the `PYTHONINTMAXSTRDIGITS` setting is not modelled.
- Text.Repr: non-ASCII characters are written as they are. `repr` escapes the
  non-printable ones as `\x`, `\u` or `\U`, and Unicode printability is not modelled.
- McpServer.IdText: an integer id is spelled without the digit limit. The id arrives
  already parsed, and Python's JSON reader refuses integers of more than 4300 digits
  before the server sees them.

## Findings

| source | as written | input that shows it | evidently intended | confidence | as-written member | corrected member |
|---|---|---|---|---|---|---|
| core/mcp/server_stdio.py:160-163 with 274-279 | An exception from an inline tool call escapes `_handle_tools_call`. `run_sync` answers it with `internal_error(None, …)`, so the response has a null id. | Request id 7 `tools/call` of a registered tool that raises "boom". The response is an internal error with id null. | The error response carries the request's id, as the long-running path does (line 403). Section 5 of JSON-RPC 2.0 allows a null id only when the id could not be read. | not executed | McpServer.ProcessLine, McpServer.AsWrittenDropsRequestId, McpServer.NullIdExample | McpServer.ProcessLineCorrected, McpServer.RequestAnsweredOnce |
| core/ai_research_engine.py:650-661 vs 593-597 | The single-mode `research_anthropic` payload sends `max_tokens` without the `max_tokens > thinking_budget` guard that stage 2 and deep reasoning apply. | research_mode "single", max_tokens 10000, thinking_budget 32000 gives a payload with max_tokens ≤ budget. | The guard of lines 593-597 applies in single mode too, so the request meets the requirement the comment at line 1068 states. | not executed | Research.ResearchPayloadAsWritten, Research.SingleModeUnguarded | Research.ResearchPayload |

=== FILE: ai_tools.dfy ===
/** Credential and request-shaping helpers of the AI tools widget: the
    `ENC:` envelope around stored API keys, the AWS authentication-method
    labels, the Bedrock text-model filter, the inference-profile lookup,
    stop-sequence fields and the header set of an AWS Signature Version 4
    request. Cipher, base64 and hash functions are parameters. */
module AiTools {
  import opened Wrappers
  import opened Json
  import Text
  import Sorting
  import Settings

  // ---------------------------------------------------------------------
  // ENC: envelope
  // ---------------------------------------------------------------------

  const Prefix := "ENC:"
  const Placeholder := "putinyourkey"

  /** A Fernet instance: `encrypt(key.encode())` and
      `decrypt(token).decode()`, with `None` where the call raises. */
  datatype Fernet = Fernet(seal: string -> Option<seq<bv8>>, unseal: seq<bv8> -> Option<string>)

  /** `base64.urlsafe_b64encode(..).decode()` and its inverse, `None` on bad input. */
  datatype Base64 = Base64(encode: seq<bv8> -> string, decode: string -> Option<seq<bv8>>)

  /** What the two functions see of the machine: whether the cryptography
      package imported, and the key derived from the machine id (`None`
      when derivation failed). */
  datatype Crypto = Crypto(available: bool, fernet: Option<Fernet>, b64: Base64)

  /** The cipher undoes itself and base64 round-trips (section 5 of RFC 4648). */
  ghost predicate Sound(c: Crypto) {
    (forall t :: c.b64.decode(c.b64.encode(t)) == Some(t))
    && (c.fernet.Some? ==>
          forall k, t :: c.fernet.value.seal(k) == Some(t) ==> c.fernet.value.unseal(t) == Some(k))
  }

  /** Keys that are stored as they are: empty, the placeholder, or the
      cryptography package missing. */
  predicate PassThrough(c: Crypto, k: string) {
    k == "" || k == Placeholder || !c.available
  }

  /** `encrypt_api_key`. */
  function Encrypt(c: Crypto, k: string): (r: string)
    ensures r == k || (Text.StartsWith(r, Prefix) && !Text.StartsWith(k, Prefix))
    ensures PassThrough(c, k) || Text.StartsWith(k, Prefix) || c.fernet.None? ==> r == k
    ensures c.fernet.Some? && !PassThrough(c, k) && !Text.StartsWith(k, Prefix) ==>
      (r == k <==> c.fernet.value.seal(k).None?)
  {
    if PassThrough(c, k) then k
    else if Text.StartsWith(k, Prefix) then k
    else match c.fernet
      case None => k
      case Some(f) =>
        match f.seal(k)
        case None => k
        case Some(token) => Prefix + c.b64.encode(token)
  }

  /** `decrypt_api_key`: any failure returns the input. */
  function Decrypt(c: Crypto, k: string): (r: string)
    ensures r != k ==> Text.StartsWith(k, Prefix) && !PassThrough(c, k) && c.fernet.Some?
    ensures r != k ==> exists t :: c.b64.decode(k[|Prefix|..]) == Some(t) && c.fernet.value.unseal(t) == Some(r)
  {
    if PassThrough(c, k) then k
    else if !Text.StartsWith(k, Prefix) then k
    else match c.fernet
      case None => k
      case Some(f) =>
        match c.b64.decode(k[|Prefix|..])
        case None => k
        case Some(token) =>
          match f.unseal(token)
          case None => k
          case Some(plain) => plain
  }

  /** Encrypting an encrypted key changes nothing. */
  lemma EncryptIdempotent(c: Crypto, k: string)
    ensures Encrypt(c, Encrypt(c, k)) == Encrypt(c, k)
  {
  }

  /** A key that was not already in the envelope comes back out of it. */
  lemma DecryptEncrypt(c: Crypto, k: string)
    requires Sound(c) && !Text.StartsWith(k, Prefix)
    ensures Decrypt(c, Encrypt(c, k)) == k
  {
    var e := Encrypt(c, k);
    if e != k {
      var f := c.fernet.value;
      var token := f.seal(k).value;
      assert e == Prefix + c.b64.encode(token);
      assert e[|Prefix|..] == c.b64.encode(token);
      assert e[..|Prefix|] == Prefix;
      assert e[0] == 'E' && Placeholder[0] == 'p';
    }
  }

  // ---------------------------------------------------------------------
  // AWS authentication method
  // ---------------------------------------------------------------------

  const ApiKeyLabel := "API Key (Bearer Token)"
  const IamLabel := "IAM (Explicit Credentials)"
  const SessionLabel := "Session Token (Temporary Credentials)"
  const RoleLabel := "IAM (Implied Credentials)"

  /** The combobox values, in display order. */
  const AuthLabels := [ApiKeyLabel, IamLabel, SessionLabel, RoleLabel]
  /** The stored setting for each label, in the same order. */
  const AuthMethods := ["api_key", "iam", "sessionToken", "iam_role"]

  /** The display-to-stored conversion of `on_aws_auth_change`. */
  function StoredMethod(display: string): (r: string)
    ensures r in AuthMethods
    ensures forall i :: 0 <= i < |AuthLabels| && display == AuthLabels[i] ==> r == AuthMethods[i]
    ensures display !in AuthLabels ==> r == "api_key"
  {
    if display == ApiKeyLabel then "api_key"
    else if display == IamLabel then "iam"
    else if display == SessionLabel then "sessionToken"
    else if display == RoleLabel then "iam_role"
    else "api_key"
  }

  /** The display the combobox is set to for a stored method; an unknown
      stored value leaves the combobox unset. */
  function MethodLabel(stored: string): (r: Option<string>)
    ensures r.Some? <==> stored in AuthMethods
    ensures r.Some? ==> r.value in AuthLabels
  {
    if stored == "api_key" then Some(ApiKeyLabel)
    else if stored == "iam" then Some(IamLabel)
    else if stored == "sessionToken" then Some(SessionLabel)
    else if stored == "iam_role" then Some(RoleLabel)
    else None
  }

  /** Showing a stored method and reading it back gives the same method,
      and showing the method read from a display gives the same display. */
  lemma AuthRoundTrip(stored: string, display: string)
    ensures stored in AuthMethods ==> StoredMethod(MethodLabel(stored).value) == stored
    ensures display in AuthLabels ==> MethodLabel(StoredMethod(display)) == Some(display)
  {
  }

  const Bedrock := "AWS Bedrock"
  const AuthKey := "AUTH_METHOD"

  /** `on_aws_auth_change` on the `tool_settings` dictionary. */
  function OnAuthChange(tools: map<string, Json>, provider: string, display: string): (r: Result<map<string, Json>>)
    ensures provider != Bedrock ==> r == Ok(tools)
    ensures provider == Bedrock ==> (r.Ok? <==> provider !in tools || tools[provider].JObj?)
    ensures provider == Bedrock && r.Ok? ==>
      && r.value.Keys == tools.Keys + {provider}
      && r.value[provider].JObj? && AuthKey in r.value[provider].fields
      && r.value[provider].fields[AuthKey] == JStr(StoredMethod(display))
      && (provider in tools ==> forall k :: k in tools[provider].fields && k != AuthKey ==>
            k in r.value[provider].fields && r.value[provider].fields[k] == tools[provider].fields[k])
      && (forall p :: p in tools && p != provider ==> p in r.value && r.value[p] == tools[p])
  {
    if provider != Bedrock then Ok(tools)
    else
      var entry := if provider in tools then tools[provider] else JObj(map[]);
      match Settings.SetItem(entry, AuthKey, JStr(StoredMethod(display)))
      case Ok(updated) => Ok(tools[provider := updated])
      case Raised(e) => Raised(e)
  }

  // ---------------------------------------------------------------------
  // Bedrock models
  // ---------------------------------------------------------------------

  /** Keywords that mark an embedding or image model id. */
  const IdKeywords := ["embed", "embedding", "image", "stable-diffusion",
                       "titan-image", "nova-canvas", "nova-reel", "nova-sonic"]
  /** Keywords that mark an embedding or image model name. */
  const NameKeywords := ["embed", "embedding", "image", "vision"]

  predicate Mentions(s: string, keywords: seq<string>) {
    exists i :: 0 <= i < |keywords| && Text.Contains(Text.Lower(s), keywords[i])
  }

  /** One entry of `modelSummaries`, with a missing field read as "". */
  datatype Summary = Summary(modelId: string, modelName: string)

  predicate TextModel(m: Summary) {
    m.modelId != "" && !Mentions(m.modelId, IdKeywords) && !Mentions(m.modelName, NameKeywords)
  }

  /** The model list the refresh stores: the ids of text models, in order. */
  function TextModels(summaries: seq<Summary>): (r: seq<string>)
    ensures |r| <= |summaries|
    ensures forall k :: 0 <= k < |r| ==> exists j :: 0 <= j < |summaries| && summaries[j].modelId == r[k] && TextModel(summaries[j])
    ensures forall j :: 0 <= j < |summaries| && TextModel(summaries[j]) ==> summaries[j].modelId in r
  {
    if |summaries| == 0 then []
    else
      var rest := TextModels(summaries[1..]);
      assert forall j :: 1 <= j < |summaries| ==> summaries[j] == summaries[1..][j - 1];
      if TextModel(summaries[0]) then [summaries[0].modelId] + rest else rest
  }

  /** `idx` holds, in increasing order, exactly the positions where `keep` holds. */
  predicate Positions(keep: seq<bool>, idx: seq<nat>) {
    && (forall k :: 0 <= k < |idx| ==> idx[k] < |keep|)
    && (forall k, l :: 0 <= k < l < |idx| ==> idx[k] < idx[l])
    && (forall j :: 0 <= j < |keep| ==> (keep[j] <==> j in idx))
  }

  function Shift(idx: seq<nat>): (r: seq<nat>)
    ensures |r| == |idx| && forall k :: 0 <= k < |idx| ==> r[k] == idx[k] + 1
  {
    seq(|idx|, k requires 0 <= k < |idx| => idx[k] + 1)
  }

  /** Positions in `keep[1..]` shift by one into `keep`, with 0 added when
      `keep[0]` holds. */
  lemma ConsPositions(keep: seq<bool>, rest: seq<nat>)
    requires |keep| > 0 && Positions(keep[1..], rest)
    ensures Positions(keep, (if keep[0] then [0] else []) + Shift(rest))
  {
    var shifted := Shift(rest);
    var idx := (if keep[0] then [0] else []) + shifted;
    forall j | 1 <= j < |keep|
      ensures keep[j] <==> j in shifted
    {
      assert keep[j] == keep[1..][j - 1];
      if j - 1 in rest {
        var k :| 0 <= k < |rest| && rest[k] == j - 1;
        assert shifted[k] == j;
      }
    }
    forall k, l | 0 <= k < l < |idx|
      ensures idx[k] < idx[l]
    {
      var m := if keep[0] then 1 else 0;
      if k >= m {
        assert idx[k] == rest[k - m] + 1 && idx[l] == rest[l - m] + 1;
      } else {
        assert idx[l] == rest[l - 1] + 1;
      }
    }
    assert 0 !in shifted;
  }

  /** Which summaries are text models. */
  function Kept(summaries: seq<Summary>): (r: seq<bool>)
    ensures |r| == |summaries|
    ensures forall j :: 0 <= j < |summaries| ==> r[j] == TextModel(summaries[j])
  {
    seq(|summaries|, j requires 0 <= j < |summaries| => TextModel(summaries[j]))
  }

  /** `idx` holds, in increasing order, exactly the positions of the text
      models among `summaries`, and `r` their ids at those positions. */
  predicate PicksTextModels(summaries: seq<Summary>, idx: seq<nat>, r: seq<string>) {
    && Positions(Kept(summaries), idx)
    && |idx| == |r|
    && (forall k :: 0 <= k < |idx| ==> idx[k] < |summaries| && r[k] == summaries[idx[k]].modelId)
  }

  /** The refreshed list keeps the scan order and one entry per text
      model: it is the ids at the text models' positions, in order. */
  lemma {:induction false} TextModelsIndices(summaries: seq<Summary>) returns (idx: seq<nat>)
    ensures PicksTextModels(summaries, idx, TextModels(summaries))
    decreases |summaries|
  {
    if |summaries| == 0 {
      idx := [];
    } else {
      var tail := summaries[1..];
      var rest := TextModelsIndices(tail);
      var keep := Kept(summaries);
      assert keep[1..] == Kept(tail);
      ConsPositions(keep, rest);
      idx := (if keep[0] then [0] else []) + Shift(rest);
      ConsIds(summaries, rest, TextModels(tail), idx);
    }
  }

  lemma ConsIds(summaries: seq<Summary>, rest: seq<nat>, r: seq<string>, idx: seq<nat>)
    requires |summaries| > 0 && |rest| == |r|
    requires forall k :: 0 <= k < |rest| ==> rest[k] < |summaries| - 1 && r[k] == summaries[1..][rest[k]].modelId
    requires idx == (if TextModel(summaries[0]) then [0] else []) + Shift(rest)
    ensures var out := if TextModel(summaries[0]) then [summaries[0].modelId] + r else r;
      |idx| == |out| && forall k :: 0 <= k < |idx| ==> idx[k] < |summaries| && out[k] == summaries[idx[k]].modelId
  {
    var head := TextModel(summaries[0]);
    var out := if head then [summaries[0].modelId] + r else r;
    forall k | 0 <= k < |idx|
      ensures idx[k] < |summaries| && out[k] == summaries[idx[k]].modelId
    {
      if !head || k > 0 {
        var m := if head then k - 1 else k;
        assert idx[k] == rest[m] + 1 && out[k] == r[m];
        assert summaries[idx[k]] == summaries[1..][rest[m]];
      }
    }
  }

  /** The list of a concatenation is the concatenation of the lists. */
  lemma {:induction false} TextModelsAppend(a: seq<Summary>, b: seq<Summary>)
    ensures TextModels(a + b) == TextModels(a) + TextModels(b)
    decreases |a|
  {
    if |a| == 0 {
      assert a + b == b;
    } else {
      assert (a + b)[1..] == a[1..] + b;
      TextModelsAppend(a[1..], b);
    }
  }

  /** The request path refuses a model id naming an embedding or image model. */
  predicate Rejected(modelId: string) {
    Mentions(modelId, IdKeywords)
  }

  /** Every model the refresh offers passes the request-path check. */
  lemma OfferedModelsAccepted(summaries: seq<Summary>)
    ensures forall m :: m in TextModels(summaries) ==> !Rejected(m) && m != ""
  {
    var r := TextModels(summaries);
    forall m | m in r
      ensures !Rejected(m) && m != ""
    {
      var k :| 0 <= k < |r| && r[k] == m;
      var j :| 0 <= j < |summaries| && summaries[j].modelId == r[k] && TextModel(summaries[j]);
    }
  }

  // ---------------------------------------------------------------------
  // Inference profiles
  // ---------------------------------------------------------------------

  /** Model ids that Bedrock serves only through a cross-region inference profile. */
  const Haiku35 := "anthropic.claude-3-5-haiku-20241022-v1:0"
  const Sonnet35 := "anthropic.claude-3-5-sonnet-20241022-v2:0"
  const Opus3 := "anthropic.claude-3-opus-20240229-v1:0"
  const Sonnet3 := "anthropic.claude-3-sonnet-20240229-v1:0"
  const Haiku3 := "anthropic.claude-3-haiku-20240307-v1:0"

  /** Model ids that Bedrock serves only through a cross-region inference profile. */
  const ProfileModels: set<string> := {Haiku35, Sonnet35, Opus3, Sonnet3, Haiku3}

  /** `inference_profile_mapping.get(model_id, model_id)`; each listed id
      maps to its `us.` profile. */
  function InferenceProfile(modelId: string): (r: string)
    ensures modelId in ProfileModels ==> r == "us." + modelId
    ensures modelId !in ProfileModels ==> r == modelId
  {
    if modelId == Haiku35 then "us." + Haiku35
    else if modelId == Sonnet35 then "us." + Sonnet35
    else if modelId == Opus3 then "us." + Opus3
    else if modelId == Sonnet3 then "us." + Sonnet3
    else if modelId == Haiku3 then "us." + Haiku3
    else modelId
  }

  /** A profile id is never itself mapped again. */
  lemma InferenceProfileIdempotent(modelId: string)
    ensures InferenceProfile(InferenceProfile(modelId)) == InferenceProfile(modelId)
  {
    var r := InferenceProfile(modelId);
    if modelId in ProfileModels {
      assert r[0] == 'u';
      assert Haiku35[0] == Sonnet35[0] == Opus3[0] == Sonnet3[0] == Haiku3[0] == 'a';
    }
  }

  // ---------------------------------------------------------------------
  // Stop sequences
  // ---------------------------------------------------------------------

  /** `[s.strip() for s in str(field).strip().split(',')]`, or `None` when
      the stripped field is empty and no key is added. */
  function StopSequences(field: string): (r: Option<seq<string>>)
    ensures r.None? <==> Text.Strip(field) == ""
    ensures r.Some? ==> |r.value| == multiset(field)[','] + 1
    ensures r.Some? ==> forall k :: 0 <= k < |r.value| ==> ',' !in r.value[k] && Text.Strip(r.value[k]) == r.value[k]
  {
    var t := Text.Strip(field);
    if t == "" then None
    else
      StrippedPieces(field);
      Some(Sorting.Map(Text.Split(t, ','), Text.Strip))
  }

  lemma StrippedPieces(field: string)
    ensures var r := Sorting.Map(Text.Split(Text.Strip(field), ','), Text.Strip);
      && |r| == multiset(field)[','] + 1
      && forall k :: 0 <= k < |r| ==> ',' !in r[k] && Text.Strip(r[k]) == r[k]
  {
    var t := Text.Strip(field);
    var pieces := Text.Split(t, ',');
    Text.SplitCount(t, ',');
    Text.StripKeepsCount(field, ',');
    Text.SplitPiecesLackSep(t, ',');
    var r := Sorting.Map(pieces, Text.Strip);
    forall k | 0 <= k < |r|
      ensures ',' !in r[k] && Text.Strip(r[k]) == r[k]
    {
      assert r[k] == Text.Strip(pieces[k]);
      Text.StripOfTrimmed(r[k]);
    }
  }

  /** Entering the sequences joined by commas gives them back. */
  lemma StopSequencesRoundTrip(stops: seq<string>)
    requires |stops| > 0
    requires forall k :: 0 <= k < |stops| ==> ',' !in stops[k]
    requires forall k :: 0 <= k < |stops| ==> |stops[k]| > 0 && !Text.IsSpace(stops[k][0]) && !Text.IsSpace(stops[k][|stops[k]| - 1])
    ensures StopSequences(Text.Join(stops, ",")) == Some(stops)
  {
    var field := Text.Join(stops, ",");
    Text.JoinEnds(stops, ",");
    Text.StripOfTrimmed(field);
    Text.SplitJoin(stops, ',');
    StripAllStripped(stops);
    assert StopSequences(field) == Some(Sorting.Map(Text.Split(field, ','), Text.Strip));
  }

  lemma StripAllStripped(xs: seq<string>)
    requires forall k :: 0 <= k < |xs| ==> |xs[k]| > 0 && !Text.IsSpace(xs[k][0]) && !Text.IsSpace(xs[k][|xs[k]| - 1])
    ensures Sorting.Map(xs, Text.Strip) == xs
  {
    forall k | 0 <= k < |xs|
      ensures Text.Strip(xs[k]) == xs[k]
    {
      Text.StripOfTrimmed(xs[k]);
    }
  }

  /** The payload after a stop-sequence field is read into `key`. */
  function AddStopSequences(payload: map<string, Json>, key: string, field: string): (r: map<string, Json>)
    ensures Text.Strip(field) == "" ==> r == payload
    ensures Text.Strip(field) != "" ==> key in r && r[key].JArr? && |r[key].items| == multiset(field)[','] + 1
    ensures forall k :: k in payload && k != key ==> k in r && r[k] == payload[k]
    ensures r.Keys <= payload.Keys + {key}
  {
    match StopSequences(field)
    case None => payload
    case Some(stops) => payload[key := Strs(stops)]
  }

  // ---------------------------------------------------------------------
  // AWS Signature Version 4 headers
  // ---------------------------------------------------------------------

  /** The hash and signing functions `sign_aws_request` calls. */
  datatype Signer = Signer(
    sha256Hex: string -> string,
    signature: (string, string, string, string, string) -> string)

  /** `if session_token:` — `None` and "" both mean no token. */
  predicate HasToken(token: Option<string>) {
    token.Some? && token.value != ""
  }

  const TokenHeader := "X-Amz-Security-Token"
  const BaseHeaders: set<string> := {"Content-Type", "X-Amz-Date", "Authorization", "X-Amz-Content-Sha256"}

  /** The names of the signed headers, in canonical order. */
  function SignedNames(token: Option<string>): (r: seq<string>)
    ensures |r| == if HasToken(token) then 3 else 2
  {
    ["host", "x-amz-date"] + (if HasToken(token) then ["x-amz-security-token"] else [])
  }

  function CanonicalHeaders(host: string, amzDate: string, token: Option<string>): string {
    "host:" + host + "\nx-amz-date:" + amzDate + "\n"
    + (if HasToken(token) then "x-amz-security-token:" + token.value + "\n" else "")
  }

  function SignedHeaders(token: Option<string>): string {
    "host;x-amz-date" + (if HasToken(token) then ";x-amz-security-token" else "")
  }

  /** `lines` are the header lines `name:value` for `names` in order,
      followed by the empty piece after the final newline. */
  predicate LinesNamed(lines: seq<string>, names: seq<string>) {
    && |lines| == |names| + 1 && lines[|names|] == ""
    && forall k :: 0 <= k < |names| ==> Text.StartsWith(lines[k], names[k] + ":")
  }

  /** The signed-headers list names exactly the canonical header lines, in order. */
  lemma SignedHeadersMatchCanonical(host: string, amzDate: string, token: Option<string>)
    requires '\n' !in host && '\n' !in amzDate && (token.Some? ==> '\n' !in token.value)
    ensures Text.Split(SignedHeaders(token), ';') == SignedNames(token)
    ensures LinesNamed(Text.Split(CanonicalHeaders(host, amzDate, token), '\n'), SignedNames(token))
  {
    SignedHeadersSplit(token);
    if HasToken(token) {
      CanonicalWithToken(host, amzDate, token);
    } else {
      CanonicalWithoutToken(host, amzDate, token);
    }
  }

  lemma CanonicalWithToken(host: string, amzDate: string, token: Option<string>)
    requires '\n' !in host && '\n' !in amzDate && HasToken(token) && '\n' !in token.value
    ensures LinesNamed(Text.Split(CanonicalHeaders(host, amzDate, token), '\n'), SignedNames(token))
  {
    var l0, l1, l2 := "host:" + host, "x-amz-date:" + amzDate, "x-amz-security-token:" + token.value;
    assert CanonicalHeaders(host, amzDate, token) == l0 + "\n" + l1 + "\n" + l2 + "\n" + "";
    SplitLines([l0, l1, l2, ""]);
    assert SignedNames(token) == ["host", "x-amz-date", "x-amz-security-token"];
    assert Text.StartsWith(l0, "host" + ":") && Text.StartsWith(l1, "x-amz-date" + ":");
    assert Text.StartsWith(l2, "x-amz-security-token" + ":");
  }

  lemma CanonicalWithoutToken(host: string, amzDate: string, token: Option<string>)
    requires '\n' !in host && '\n' !in amzDate && !HasToken(token)
    ensures LinesNamed(Text.Split(CanonicalHeaders(host, amzDate, token), '\n'), SignedNames(token))
  {
    var l0, l1 := "host:" + host, "x-amz-date:" + amzDate;
    assert CanonicalHeaders(host, amzDate, token) == l0 + "\n" + l1 + "\n" + "";
    SplitLines([l0, l1, ""]);
    assert SignedNames(token) == ["host", "x-amz-date"];
    assert Text.StartsWith(l0, "host" + ":") && Text.StartsWith(l1, "x-amz-date" + ":");
  }

  lemma SignedHeadersSplit(token: Option<string>)
    ensures Text.Split(SignedHeaders(token), ';') == SignedNames(token)
  {
    var names := SignedNames(token);
    if HasToken(token) {
      assert names == [names[0], names[1], names[2]];
      assert SignedHeaders(token) == names[0] + ";" + names[1] + ";" + names[2];
      Text.JoinThree(names[0], names[1], names[2], ";");
    } else {
      assert names == [names[0], names[1]];
      assert SignedHeaders(token) == names[0] + ";" + names[1];
      Text.JoinTwo(names[0], names[1], ";");
    }
    assert forall k :: 0 <= k < |names| ==> ';' !in names[k];
    Text.SplitJoin(names, ';');
  }

  /** Three or four newline-free lines joined by newlines split back apart. */
  lemma SplitLines(lines: seq<string>)
    requires |lines| == 3 || |lines| == 4
    requires forall k :: 0 <= k < |lines| ==> '\n' !in lines[k]
    ensures |lines| == 3 ==> Text.Split(lines[0] + "\n" + lines[1] + "\n" + lines[2], '\n') == lines
    ensures |lines| == 4 ==>
      Text.Split(lines[0] + "\n" + lines[1] + "\n" + lines[2] + "\n" + lines[3], '\n') == lines
  {
    Text.SplitJoin(lines, '\n');
    if |lines| == 3 {
      assert lines == [lines[0], lines[1], lines[2]];
      Text.JoinThree(lines[0], lines[1], lines[2], "\n");
    } else {
      assert lines == [lines[0], lines[1], lines[2], lines[3]];
      Text.JoinFour(lines[0], lines[1], lines[2], lines[3], "\n");
    }
  }

  /** The headers `sign_aws_request` returns. */
  function SignHeaders(s: Signer, verb: string, host: string, path: string, payload: string,
                       accessKey: string, secretKey: string, token: Option<string>,
                       amzDate: string, dateStamp: string, region: string, service: string): (r: map<string, string>)
    ensures r.Keys == BaseHeaders + (if HasToken(token) then {TokenHeader} else {})
    ensures HasToken(token) ==> r[TokenHeader] == token.value
    ensures r["X-Amz-Date"] == amzDate && r["X-Amz-Content-Sha256"] == s.sha256Hex(payload)
    ensures Text.StartsWith(r["Authorization"], "AWS4-HMAC-SHA256 Credential=" + accessKey + "/")
  {
    var payloadHash := s.sha256Hex(payload);
    var canonical := verb + "\n" + path + "\n" + "" + "\n" + CanonicalHeaders(host, amzDate, token)
                     + "\n" + SignedHeaders(token) + "\n" + payloadHash;
    var algorithm := "AWS4-HMAC-SHA256";
    var scope := dateStamp + "/" + region + "/" + service + "/aws4_request";
    var toSign := algorithm + "\n" + amzDate + "\n" + scope + "\n" + s.sha256Hex(canonical);
    var signature := s.signature(secretKey, dateStamp, region, service, toSign);
    var credential := "AWS4-HMAC-SHA256 Credential=" + accessKey + "/";
    var authorization := credential + (scope + ", SignedHeaders=" + SignedHeaders(token) + ", Signature=" + signature);
    assert authorization[..|credential|] == credential;
    var headers := map[
      "Content-Type" := "application/json",
      "X-Amz-Date" := amzDate,
      "Authorization" := authorization,
      "X-Amz-Content-Sha256" := payloadHash];
    if HasToken(token) then headers[TokenHeader := token.value] else headers
  }
}

=== FILE: bump_version.dfy ===
/** The release helper's version arithmetic (`bump_version` in
    bump_version.py) and the checks its command line applies before it
    accepts a version typed by the user. */
module BumpVersion {
  import opened Wrappers
  import Text
  import Sorting

  // ---------------------------------------------------------------------
  // int(x) and str(i) on a version component
  // ---------------------------------------------------------------------

  /** Python's default `sys.get_int_max_str_digits()` (3.11 and later):
      decimal conversion refuses more digits than this in either direction. */
  const MaxStrDigits: nat := 4300

  /** The `ValueError` of `int()` on a numeral of `digits` digits past the limit. */
  function ToIntLimitError(digits: nat): string {
    "Exceeds the limit (4300 digits) for integer string conversion: value has "
    + Text.NatToString(digits) + " digits; use sys.set_int_max_str_digits() to increase the limit"
  }

  /** The `ValueError` of `str()` on an integer of more than 4300 digits. */
  const ToStrLimitError: string :=
    "Exceeds the limit (4300 digits) for integer string conversion; use sys.set_int_max_str_digits() to increase the limit"

  /** The digit string Python's `int()` accepts after the sign: ASCII digits
      with single underscores between them. */
  predicate IsNumeral(b: string) {
    && |b| > 0
    && (forall i :: 0 <= i < |b| ==> Text.IsDigit(b[i]) || b[i] == '_')
    && b[0] != '_' && b[|b| - 1] != '_'
    && (forall i :: 0 <= i < |b| - 1 ==> !(b[i] == '_' && b[i + 1] == '_'))
  }

  function DropUnderscores(b: string): (r: string)
    ensures forall c :: c in r ==> c in b && c != '_'
    decreases |b|
  {
    if |b| == 0 then ""
    else (if b[0] == '_' then "" else [b[0]]) + DropUnderscores(b[1..])
  }

  lemma {:induction false} NoUnderscoresKept(b: string)
    requires forall c :: c in b ==> c != '_'
    ensures DropUnderscores(b) == b
    decreases |b|
  {
    if |b| > 0 {
      assert b[0] in b;
      assert forall c :: c in b[1..] ==> c in b;
      NoUnderscoresKept(b[1..]);
      assert b == [b[0]] + b[1..];
    }
  }

  function NumeralValue(b: string): nat
    requires IsNumeral(b)
  {
    var d := DropUnderscores(b);
    assert forall c :: c in d ==> Text.IsDigit(c) by {
      forall c | c in d
        ensures Text.IsDigit(c)
      {
        var i :| 0 <= i < |b| && b[i] == c;
      }
    }
    Text.DigitsValue(d)
  }

  /** A stripped literal without its optional sign. */
  function Unsigned(t: string): string {
    if |t| > 0 && (t[0] == '-' || t[0] == '+') then t[1..] else t
  }

  /** The literal is a numeral of more than 4300 digits. `int()` checks the
      whole literal first, so a malformed one never reaches the limit. */
  predicate OverLimit(t: string) {
    IsNumeral(Unsigned(t)) && |DropUnderscores(Unsigned(t))| > MaxStrDigits
  }

  const InvalidLiteralPrefix: string := "invalid literal for int() with base 10: "

  /** The `ValueError` message of `int(x)` on a malformed literal: the repr
      of the whole argument, cut to 200 characters (`%.200R`). */
  function InvalidLiteral(x: string): (r: string)
    ensures |r| == |InvalidLiteralPrefix| + (if |Text.Repr(x)| <= 200 then |Text.Repr(x)| else 200)
    ensures r[..|InvalidLiteralPrefix|] == InvalidLiteralPrefix
    ensures r[|InvalidLiteralPrefix|..] <= Text.Repr(x)
  {
    var q := Text.Repr(x);
    InvalidLiteralPrefix + (if |q| <= 200 then q else q[..200])
  }

  /** A repr of at most 200 characters is quoted whole, so the message
      names the argument exactly. */
  lemma InvalidLiteralNames(x: string)
    requires |Text.Repr(x)| <= 200
    ensures var r := InvalidLiteral(x); Text.Unrepr(r[|InvalidLiteralPrefix|..]) == x
  {
    var r := InvalidLiteral(x);
    assert r[|InvalidLiteralPrefix|..] == Text.Repr(x);
    Text.ReprRoundTrip(x);
  }

  /** `int("a'b")` quotes its argument with double quotes, and a plain
      argument of 300 characters gives a 240-character message. */
  lemma InvalidLiteralExamples()
    ensures InvalidLiteral("a'b") == "invalid literal for int() with base 10: \"a'b\""
    ensures |InvalidLiteral(seq(300, _ => 'x'))| == 240
  {
    assert Text.ReprQuote("a'b") == '"';
    assert Text.Escape("a'b", '"') == "a'b";
    Text.ReprPlain(seq(300, _ => 'x'));
  }

  /** `int(x)`: surrounding whitespace is ignored and one sign is allowed.
      A numeral of more than 4300 digits raises the limit error, and
      anything that is not a numeral raises `invalid literal`. */
  function ParseInt(x: string): Result<int> {
    var t := Text.Strip(x);
    if OverLimit(t) then
      Raised(ToIntLimitError(|DropUnderscores(Unsigned(t))|))
    else match ParseSigned(t)
      case Some(v) => Ok(v)
      case None => Raised(InvalidLiteral(x))
  }

  /** `int(x)` succeeds exactly on a numeral of at most 4300 digits. A
      numeral past the limit raises the limit error, and a malformed
      literal raises `invalid literal`, however long its digit runs. */
  lemma ParseIntSpec(x: string)
    ensures var body := Unsigned(Text.Strip(x));
      ParseInt(x).Ok? <==> IsNumeral(body) && |DropUnderscores(body)| <= MaxStrDigits
    ensures var body := Unsigned(Text.Strip(x));
      IsNumeral(body) && |DropUnderscores(body)| > MaxStrDigits ==>
        ParseInt(x) == Raised(ToIntLimitError(|DropUnderscores(body)|))
    ensures !IsNumeral(Unsigned(Text.Strip(x))) ==> ParseInt(x) == Raised(InvalidLiteral(x))
  {
  }

  /** An optionally signed numeral, without surrounding whitespace. */
  function ParseSigned(t: string): (r: Option<int>)
    ensures r.Some? <==> IsNumeral(Unsigned(t))
  {
    var body := Unsigned(t);
    if IsNumeral(body) then
      var v: int := NumeralValue(body);
      Some(if |t| > 0 && t[0] == '-' then -v else v)
    else None
  }

  /** A numeral within the limit parses to its signed value. */
  lemma ParseIntOk(x: string)
    requires IsNumeral(Unsigned(Text.Strip(x)))
    requires |DropUnderscores(Unsigned(Text.Strip(x)))| <= MaxStrDigits
    ensures ParseInt(x) == Ok(ParseSigned(Text.Strip(x)).value)
  {
  }

  /** Whether `int(x)` succeeds depends only on the unsigned body. */
  lemma ParseIntOfBody(x: string, body: string)
    requires Unsigned(Text.Strip(x)) == body
    ensures ParseInt(x).Ok? <==> IsNumeral(body) && |DropUnderscores(body)| <= MaxStrDigits
  {
    ParseIntSpec(x);
  }

  function Abs(i: int): nat {
    if i < 0 then -i else i
  }

  /** `str(i)` stays within the digit limit. */
  predicate Fits(i: int) {
    |Text.NatToString(Abs(i))| <= MaxStrDigits
  }

  /** `str(i)`: the decimal spelling, or the limit error past 4300 digits. */
  function Str(i: int): (r: Result<string>)
    ensures r.Ok? <==> Fits(i)
    ensures r.Ok? ==> r.value == Text.IntToString(i)
    ensures r.Raised? ==> r == Raised(ToStrLimitError)
  {
    if Fits(i) then Ok(Text.IntToString(i)) else Raised(ToStrLimitError)
  }

  /** `int(str(i)) == i` whenever `str(i)` succeeds, which is exactly when
      `i` has at most 4300 digits. */
  lemma IntRoundTrip(i: int)
    ensures Fits(i) ==> Str(i).Ok? && ParseInt(Str(i).value) == Ok(i)
  {
    if Fits(i) {
      var n := Abs(i);
      var digits := Text.NatToString(n);
      DigitsAllDigits(digits);
      Text.NatToStringRoundTrip(n);
      SpelledParses(i, n, digits);
    }
  }

  lemma SpelledParses(i: int, n: nat, digits: string)
    requires n == Abs(i) && digits == Text.NatToString(n) && |digits| <= MaxStrDigits
    requires IsDigits(digits) && Text.DigitsValue(digits) == n
    ensures ParseInt(Text.IntToString(i)) == Ok(i)
  {
    if i < 0 {
      ParseNegativeDigits(digits);
    } else {
      ParseDigits(digits);
    }
  }

  lemma DigitsAllDigits(d: string)
    requires |d| > 0 && forall c :: c in d ==> Text.IsDigit(c)
    ensures IsDigits(d)
  {
    forall i | 0 <= i < |d|
      ensures Text.IsDigit(d[i])
    {
      assert d[i] in d;
    }
  }

  /** Digits within the limit parse to their value. */
  lemma ParseDigits(digits: string)
    requires IsDigits(digits) && |digits| <= MaxStrDigits
    ensures ParseInt(digits) == Ok(Text.DigitsValue(digits))
  {
    DigitsStripped(digits);
    NumeralOfDigits(digits);
    ParseUnsigned(digits, digits);
  }

  /** A digit string is left alone by `strip()` and has no sign. */
  lemma DigitsStripped(digits: string)
    requires IsDigits(digits)
    ensures Text.Strip(digits) == digits && Unsigned(digits) == digits && digits[0] != '-'
  {
    assert Text.IsDigit(digits[0]) && Text.IsDigit(digits[|digits| - 1]);
    Text.StripOfTrimmed(digits);
  }

  lemma ParseUnsigned(x: string, t: string)
    requires Text.Strip(x) == t && Unsigned(t) == t && |t| > 0 && t[0] != '-'
    requires IsNumeral(t) && |DropUnderscores(t)| <= MaxStrDigits
    ensures ParseInt(x) == Ok(NumeralValue(t))
  {
    ParseIntOk(x);
  }

  /** A minus sign followed by digits within the limit parses to the
      negated value. */
  lemma ParseNegativeDigits(digits: string)
    requires IsDigits(digits) && |digits| <= MaxStrDigits
    ensures var v: int := Text.DigitsValue(digits); ParseInt("-" + digits) == Ok(-v)
  {
    NegativeStripped(digits);
    NegativeNumeral(digits);
    NumeralOfDigits(digits);
    ParseIntOk("-" + digits);
  }

  lemma NegativeStripped(digits: string)
    requires IsDigits(digits)
    ensures Text.Strip("-" + digits) == "-" + digits
  {
    var s := "-" + digits;
    assert s[|s| - 1] == digits[|digits| - 1];
    assert Text.IsDigit(digits[|digits| - 1]);
    Text.StripOfTrimmed(s);
  }

  lemma NegativeNumeral(digits: string)
    requires IsDigits(digits)
    ensures var v: int := Text.DigitsValue(digits); ParseSigned("-" + digits) == Some(-v)
    ensures Unsigned("-" + digits) == digits
  {
    var s := "-" + digits;
    assert s[0] == '-' && s[1..] == digits;
    NegatedDigits(s, digits);
  }

  lemma NegatedDigits(t: string, body: string)
    requires |t| > 0 && t[0] == '-' && t[1..] == body && IsDigits(body)
    ensures var v: int := Text.DigitsValue(body); ParseSigned(t) == Some(-v)
  {
    NumeralOfDigits(body);
  }

  lemma NumeralOfDigits(digits: string)
    requires IsDigits(digits)
    ensures forall c :: c in digits ==> Text.IsDigit(c)
    ensures IsNumeral(digits) && NumeralValue(digits) == Text.DigitsValue(digits)
    ensures DropUnderscores(digits) == digits
  {
    NoUnderscoresKept(digits);
  }

  // ---------------------------------------------------------------------
  // bump_version
  // ---------------------------------------------------------------------

  /** `[f(x) for x in xs]` where `f` may raise: the first element on which
      `f` raises ends the comprehension with that exception. */
  function MapRaising<A, B>(xs: seq<A>, f: A -> Result<B>): (r: Result<seq<B>>)
    ensures r.Ok? <==> forall i :: 0 <= i < |xs| ==> f(xs[i]).Ok?
    ensures r.Ok? ==> |r.value| == |xs|
    ensures r.Ok? ==> forall i :: 0 <= i < |xs| ==> f(xs[i]) == Ok(r.value[i])
    decreases |xs|
  {
    if |xs| == 0 then Ok([])
    else
      var rest := xs[1..];
      assert forall i :: 1 <= i < |xs| ==> xs[i] == rest[i - 1];
      match f(xs[0])
      case Raised(e) => Raised(e)
      case Ok(v) =>
        match MapRaising(rest, f)
        case Raised(e) => Raised(e)
        case Ok(vs) => Ok([v] + vs)
  }

  /** `current.split(".")` parsed component by component. */
  function Parse(version: string): Result<seq<int>> {
    MapRaising(Text.Split(version, '.'), ParseInt)
  }

  /** Every component has at most 4300 digits, so `str` accepts it. */
  predicate AllFit(parts: seq<int>) {
    forall i :: 0 <= i < |parts| ==> Fits(parts[i])
  }

  /** `".".join(str(x) for x in parts)`; `str` raises on a component past
      the digit limit. */
  function Format(parts: seq<int>): (r: Result<string>)
    ensures r.Ok? <==> AllFit(parts)
    ensures r.Raised? ==> r == Raised(ToStrLimitError)
  {
    StrRaisesLimit(parts);
    match MapRaising(parts, Str)
    case Raised(e) => Raised(e)
    case Ok(strs) => Ok(Text.Join(strs, "."))
  }

  /** `str` over a list raises nothing but the limit error. */
  lemma {:induction false} StrRaisesLimit(parts: seq<int>)
    ensures MapRaising(parts, Str).Raised? ==> MapRaising(parts, Str) == Raised(ToStrLimitError)
    decreases |parts|
  {
    if |parts| > 0 {
      StrRaisesLimit(parts[1..]);
    }
  }

  /** Formatting components and parsing them back gives the same components. */
  lemma FormatParse(parts: seq<int>)
    requires |parts| > 0
    ensures Format(parts).Ok? ==> Parse(Format(parts).value) == Ok(parts)
  {
    var m := MapRaising(parts, Str);
    if m.Ok? {
      var strs := m.value;
      forall k | 0 <= k < |strs|
        ensures '.' !in strs[k] && ParseInt(strs[k]) == Ok(parts[k])
      {
        assert Str(parts[k]) == Ok(strs[k]);
        assert strs[k] == (if parts[k] < 0 then "-" else "") + Text.NatToString(Abs(parts[k]));
        IntRoundTrip(parts[k]);
      }
      Text.SplitJoin(strs, '.');
      MapRaisingAll(strs, ParseInt, parts);
    }
  }

  lemma MapRaisingAll<A, B>(xs: seq<A>, f: A -> Result<B>, ys: seq<B>)
    requires |xs| == |ys|
    requires forall i :: 0 <= i < |xs| ==> f(xs[i]) == Ok(ys[i])
    ensures MapRaising(xs, f) == Ok(ys)
  {
    var r := MapRaising(xs, f);
    assert r.Ok?;
    assert |r.value| == |ys|;
    assert forall i :: 0 <= i < |xs| ==> r.value[i] == ys[i];
    assert r.value == ys;
  }

  /** `while len(parts) < 3: parts.append(0)`. */
  function Pad(parts: seq<int>): (r: seq<int>)
    ensures |r| >= 3 && |r| == if |parts| < 3 then 3 else |parts|
    ensures r[..|parts|] == parts
    ensures forall i :: |parts| <= i < |r| ==> r[i] == 0
    decreases 3 - |parts|
  {
    if |parts| < 3 then Pad(parts + [0]) else parts
  }

  /** The in-place update of `bump_version` on the padded components. */
  function Bump(parts: seq<int>, bumpType: string): (r: seq<int>)
    requires |parts| >= 3
    ensures |r| == |parts|
  {
    if bumpType == "major" then parts[0 := parts[0] + 1][1 := 0][2 := 0]
    else if bumpType == "minor" then parts[1 := parts[1] + 1][2 := 0]
    else if bumpType == "patch" then parts[2 := parts[2] + 1]
    else parts
  }

  /** `bump_version(current, bump_type)`. */
  function BumpVersion(current: string, bumpType: string): Result<string> {
    match Parse(current)
    case Raised(e) => Raised(e)
    case Ok(parts) => Format(Bump(Pad(parts), bumpType))
  }

  /** Python's `list < list` on integer lists. */
  predicate VersionLess(a: seq<int>, b: seq<int>)
    decreases |a|
  {
    if |a| == 0 then |b| > 0
    else |b| > 0 && (a[0] < b[0] || (a[0] == b[0] && VersionLess(a[1..], b[1..])))
  }

  /** What each bump type does to the padded components: the named one
      goes up by one, the ones after it among the first three are reset to
      zero, and everything else is carried over; an unknown bump type
      changes nothing. The result is strictly later for the three known
      types. */
  lemma BumpSpec(parts: seq<int>, bumpType: string)
    requires |parts| >= 3
    ensures var r := Bump(parts, bumpType);
      && |r| == |parts| && r[3..] == parts[3..]
      && (bumpType == "major" ==> r[..3] == [parts[0] + 1, 0, 0])
      && (bumpType == "minor" ==> r[..3] == [parts[0], parts[1] + 1, 0])
      && (bumpType == "patch" ==> r[..3] == [parts[0], parts[1], parts[2] + 1])
      && (bumpType !in {"major", "minor", "patch"} ==> r == parts)
      && (bumpType in {"major", "minor", "patch"} ==> VersionLess(parts, r))
  {
    var r := Bump(parts, bumpType);
    if bumpType == "minor" {
      assert r[1..][1..] == r[2..];
    } else if bumpType == "patch" {
      assert r[1..][1..] == r[2..] && parts[1..][1..] == parts[2..];
    }
  }

  /** For a parsable version, `bump_version` succeeds iff every bumped
      component stays within the digit limit, and the string it returns
      spells out the bumped components of the zero-padded version: parsing
      it gives them back. */
  lemma BumpVersionParses(current: string, bumpType: string)
    requires Parse(current).Ok?
    ensures var bumped := Bump(Pad(Parse(current).value), bumpType);
      && (BumpVersion(current, bumpType).Ok? <==> AllFit(bumped))
      && (BumpVersion(current, bumpType).Ok? ==> Parse(BumpVersion(current, bumpType).value) == Ok(bumped))
  {
    var bumped := Bump(Pad(Parse(current).value), bumpType);
    assert BumpVersion(current, bumpType) == Format(bumped);
    FormatParse(bumped);
  }

  /** A version with a component that is not an integer raises `ValueError`. */
  lemma BumpVersionRaises(current: string, bumpType: string)
    requires exists i :: 0 <= i < |Text.Split(current, '.')| && ParseInt(Text.Split(current, '.')[i]).Raised?
    ensures BumpVersion(current, bumpType).Raised?
  {
  }

  // ---------------------------------------------------------------------
  // Choosing the new version in main()
  // ---------------------------------------------------------------------

  function RemoveDots(s: string): (r: string)
    ensures '.' !in r
    ensures forall c :: c in r ==> c in s
    decreases |s|
  {
    if |s| == 0 then ""
    else (if s[0] == '.' then "" else [s[0]]) + RemoveDots(s[1..])
  }

  /** `s.isdigit()` (ASCII digits). */
  predicate IsDigits(s: string) {
    |s| > 0 && forall i :: 0 <= i < |s| ==> Text.IsDigit(s[i])
  }

  /** `re.match(r"^\d+\.\d+\.\d+$", s)` (ASCII digits). */
  predicate IsTriple(s: string) {
    var pieces := Text.Split(s, '.');
    |pieces| == 3 && IsDigits(pieces[0]) && IsDigits(pieces[1]) && IsDigits(pieces[2])
  }

  const BumpFlags: set<string> := {"--patch", "--minor", "--major"}

  /** The version chosen from a command-line argument: `Ok(None)` is the
      usage message followed by `sys.exit(1)`, `Raised` a `ValueError`
      from bumping an unparsable current version or from spelling out a
      bumped component past the digit limit. */
  function CliVersion(current: string, arg: string): (r: Result<Option<string>>)
    ensures arg in BumpFlags ==>
      (r.Ok? <==> Parse(current).Ok? && AllFit(Bump(Pad(Parse(current).value), arg[2..])))
    ensures arg in BumpFlags && r.Ok? ==>
      r.value.Some? && Parse(r.value.value) == Ok(Bump(Pad(Parse(current).value), arg[2..]))
    ensures arg !in BumpFlags ==> r.Ok? && (r.value.Some? <==> IsDigits(RemoveDots(arg)))
    ensures arg !in BumpFlags && r.Ok? && r.value.Some? ==> r.value.value == arg
  {
    if arg in BumpFlags then
      var bumpType := arg[2..];
      if Parse(current).Ok? then
        BumpVersionParses(current, bumpType);
        Lift(BumpVersion(current, bumpType))
      else Lift(BumpVersion(current, bumpType))
    else if IsDigits(RemoveDots(arg)) then Ok(Some(arg))
    else Ok(None)
  }

  function Lift(r: Result<string>): Result<Option<string>> {
    match r
    case Raised(e) => Raised(e)
    case Ok(v) => Ok(Some(v))
  }

  /** The three bump previews the interactive mode prints all succeed. */
  predicate PreviewsFit(parts: seq<int>) {
    && AllFit(Bump(Pad(parts), "patch"))
    && AllFit(Bump(Pad(parts), "minor"))
    && AllFit(Bump(Pad(parts), "major"))
  }

  /** The version chosen interactively. The three bump previews are
      computed (and may raise) before the user answers; `choice` is the
      stripped answer and `custom` the stripped second answer that option
      4 asks for. */
  function InteractiveVersion(current: string, choice: string, custom: string): (r: Result<Option<string>>)
    ensures r.Ok? <==> Parse(current).Ok? && PreviewsFit(Parse(current).value)
    ensures r.Ok? && choice !in {"1", "2", "3", "4"} ==> (r.value.Some? <==> IsTriple(choice))
    ensures r.Ok? && r.value.Some? && choice !in {"1", "2", "3", "4"} ==> r.value.value == choice
    ensures r.Ok? && choice == "1" ==>
      r.value.Some? && Parse(r.value.value) == Ok(Bump(Pad(Parse(current).value), "patch"))
    ensures r.Ok? && choice == "2" ==>
      r.value.Some? && Parse(r.value.value) == Ok(Bump(Pad(Parse(current).value), "minor"))
    ensures r.Ok? && choice == "3" ==>
      r.value.Some? && Parse(r.value.value) == Ok(Bump(Pad(Parse(current).value), "major"))
    ensures r.Ok? && choice == "4" ==> r.value == Some(custom)
  {
    if Parse(current).Ok? then
      BumpVersionParses(current, "patch");
      BumpVersionParses(current, "minor");
      BumpVersionParses(current, "major");
      Choose(current, choice, custom)
    else Choose(current, choice, custom)
  }

  function Choose(current: string, choice: string, custom: string): (r: Result<Option<string>>)
    ensures r.Ok? <==>
      BumpVersion(current, "patch").Ok? && BumpVersion(current, "minor").Ok? && BumpVersion(current, "major").Ok?
    ensures r.Ok? && choice !in {"1", "2", "3", "4"} ==> (r.value.Some? <==> IsTriple(choice))
    ensures r.Ok? && r.value.Some? && choice !in {"1", "2", "3", "4"} ==> r.value.value == choice
    ensures r.Ok? && choice == "1" ==> r.value == Some(BumpVersion(current, "patch").value)
    ensures r.Ok? && choice == "2" ==> r.value == Some(BumpVersion(current, "minor").value)
    ensures r.Ok? && choice == "3" ==> r.value == Some(BumpVersion(current, "major").value)
    ensures r.Ok? && choice == "4" ==> r.value == Some(custom)
  {
    match BumpVersion(current, "patch")
    case Raised(e) => Raised(e)
    case Ok(patch) =>
      match BumpVersion(current, "minor")
      case Raised(e) => Raised(e)
      case Ok(minor) =>
        match BumpVersion(current, "major")
        case Raised(e) => Raised(e)
        case Ok(major) =>
          if choice == "1" then Ok(Some(patch))
          else if choice == "2" then Ok(Some(minor))
          else if choice == "3" then Ok(Some(major))
          else if choice == "4" then Ok(Some(custom))
          else if IsTriple(choice) then Ok(Some(choice))
          else Ok(None)
  }

  /** A version the interactive mode accepts literally is itself bumpable
      iff none of its three components has more than 4300 digits; it then
      parses to three natural numbers. */
  lemma TripleParses(s: string)
    requires IsTriple(s)
    ensures var pieces := Text.Split(s, '.');
      Parse(s).Ok? <==> forall i :: 0 <= i < 3 ==> |pieces[i]| <= MaxStrDigits
    ensures Parse(s).Ok? ==> |Parse(s).value| == 3 && forall i :: 0 <= i < 3 ==> Parse(s).value[i] >= 0
  {
    var pieces := Text.Split(s, '.');
    TriplePieces(pieces);
    ParseIsMap(s, pieces);
  }

  lemma ParseIsMap(s: string, pieces: seq<string>)
    requires pieces == Text.Split(s, '.')
    ensures Parse(s) == MapRaising(pieces, ParseInt)
  {
  }

  lemma TriplePieces(pieces: seq<string>)
    requires |pieces| == 3 && IsDigits(pieces[0]) && IsDigits(pieces[1]) && IsDigits(pieces[2])
    ensures MapRaising(pieces, ParseInt).Ok? <==> forall i :: 0 <= i < 3 ==> |pieces[i]| <= MaxStrDigits
    ensures MapRaising(pieces, ParseInt).Ok? ==>
      |MapRaising(pieces, ParseInt).value| == 3 && forall i :: 0 <= i < 3 ==> MapRaising(pieces, ParseInt).value[i] >= 0
  {
    forall i | 0 <= i < 3
      ensures (ParseInt(pieces[i]).Ok? <==> |pieces[i]| <= MaxStrDigits)
      ensures ParseInt(pieces[i]).Ok? ==> ParseInt(pieces[i]).value >= 0
    {
      DigitsParse(pieces[i]);
    }
    PiecesParse(pieces, ParseInt, MaxStrDigits);
  }

  lemma PiecesParse(xs: seq<string>, f: string -> Result<int>, limit: nat)
    requires |xs| == 3
    requires forall i :: 0 <= i < 3 ==> (f(xs[i]).Ok? <==> |xs[i]| <= limit)
    requires forall i :: 0 <= i < 3 ==> f(xs[i]).Ok? ==> f(xs[i]).value >= 0
    ensures MapRaising(xs, f).Ok? <==> forall i :: 0 <= i < 3 ==> |xs[i]| <= limit
    ensures MapRaising(xs, f).Ok? ==> |MapRaising(xs, f).value| == 3
    ensures MapRaising(xs, f).Ok? ==> forall i :: 0 <= i < 3 ==> MapRaising(xs, f).value[i] >= 0
  {
    var r := MapRaising(xs, f);
    if r.Ok? {
      assert forall i :: 0 <= i < |xs| ==> f(xs[i]) == Ok(r.value[i]);
    }
  }

  /** A digit string parses iff it has at most 4300 digits, and then to a
      natural number. */
  lemma DigitsParse(d: string)
    requires IsDigits(d)
    ensures ParseInt(d).Ok? <==> |d| <= MaxStrDigits
    ensures ParseInt(d).Ok? ==> ParseInt(d).value >= 0
  {
    assert Text.IsDigit(d[0]) && Text.IsDigit(d[|d| - 1]);
    Text.StripOfTrimmed(d);
    NumeralOfDigits(d);
    ParseIntOfBody(d, d);
    if |d| <= MaxStrDigits {
      ParseDigits(d);
    }
  }
}

=== FILE: json.dfy ===
/** JSON values as Python's `json` module hands them to the modelled code
    (objects become `dict`, arrays `list`), with Python's truthiness. */
module Json {
  import opened Wrappers

  datatype Json =
    | JNull
    | JBool(b: bool)
    | JNum(n: real)
    | JStr(s: string)
    | JArr(items: seq<Json>)
    | JObj(fields: map<string, Json>)

  /** Python's `bool(v)`: `None`, `False`, `0`, and empty strings, lists
      and dicts are false. */
  predicate Truthy(v: Json) {
    match v
    case JNull => false
    case JBool(b) => b
    case JNum(n) => n != 0.0
    case JStr(s) => |s| > 0
    case JArr(xs) => |xs| > 0
    case JObj(m) => |m| > 0
  }

  /** `v.get(key, default)`: only a dict has `.get`; on any other value
      Python raises `AttributeError`. */
  function Get(v: Json, key: string, default: Json): (r: Result<Json>)
    ensures r.Ok? <==> v.JObj?
    ensures v.JObj? && key in v.fields ==> r == Ok(v.fields[key])
    ensures v.JObj? && key !in v.fields ==> r == Ok(default)
  {
    match v
    case JObj(m) => Ok(if key in m then m[key] else default)
    case _ => Raised("'" + TypeName(v) + "' object has no attribute 'get'")
  }

  /** A Python list of strings. */
  function Strs(xs: seq<string>): (r: Json)
    ensures r.JArr? && |r.items| == |xs|
    ensures forall i :: 0 <= i < |xs| ==> r.items[i] == JStr(xs[i])
  {
    JArr(seq(|xs|, i requires 0 <= i < |xs| => JStr(xs[i])))
  }

  function TypeName(v: Json): string {
    match v
    case JNull => "NoneType"
    case JBool(_) => "bool"
    case JNum(_) => "float"
    case JStr(_) => "str"
    case JArr(_) => "list"
    case JObj(_) => "dict"
  }
}

=== FILE: mcp_server.dfy ===
/** The stdio MCP server (`StdioMCPServer`): a line-at-a-time JSON-RPC 2.0
    dispatcher. The JSON parser, the tool registry's execution and the
    resource provider are parameters; a long-running tool call's worker
    thread is replaced by its observable effect, an outcome reached after a
    given number of ten-second polling intervals. */
module McpServer {
  import opened Wrappers
  import opened Json
  import Text
  import Metrics

  // ---------------------------------------------------------------------
  // Messages
  // ---------------------------------------------------------------------

  /** A request id (section 4 of JSON-RPC 2.0: a string or a number). */
  datatype Id = IntId(n: int) | StrId(s: string)

  /** `str(id)` as an f-string renders it. */
  function IdText(id: Id): (r: string)
    ensures id.StrId? ==> r == id.s
    ensures id.IntId? && id.n >= 0 ==> |r| > 0 && forall c :: c in r ==> Text.IsDigit(c)
  {
    match id
    case IntId(n) => Text.IntToString(n)
    case StrId(s) => s
  }

  /** A parsed message; `id == None` marks a notification (section 4.1 of
      JSON-RPC 2.0). An absent `params` is `JNull`. */
  datatype Message = Message(id: Option<Id>, rpcMethod: string, params: Json)

  /** What the JSON-RPC parser makes of one line: a message, or the error
      code and message of the `MCPProtocolError` it raised. */
  datatype Parsed = Parsed(msg: Message) | ParseFailed(code: int, message: string)

  datatype ToolDescriptor = ToolDescriptor(name: string, description: string, inputSchema: Json)

  /** A content block of a tool result; only its `text` entry is read here. */
  datatype ContentBlock = ContentBlock(kind: string, text: Option<string>)

  datatype ToolResult = ToolResult(content: seq<ContentBlock>, isError: bool)

  datatype Resource = Resource(uri: string, name: string, mimeType: string)

  datatype ResourceContent = ResourceContent(uri: string, mimeType: string, text: string)

  datatype ServerInfo = ServerInfo(name: string, version: string)

  datatype Capabilities = Capabilities(tools: bool, resources: bool, prompts: bool, logging: bool)

  /** The error objects the server sends (section 5.1 of JSON-RPC 2.0). */
  datatype Error =
    | ParserError(code: int, message: string)
    | MethodNotFound(rpcMethod: string)
    | InvalidParams(message: string)
    | ToolNotFound(name: Json)
    | ResourceNotFound(uri: Json)
    | InternalError(message: string)

  const MethodNotFoundCode: int := -32601
  const InvalidParamsCode: int := -32602
  const InternalErrorCode: int := -32603

  /** The error code on the wire. The two domain codes (tool and resource
      not found) are defined by the protocol module, which is not part of
      this model. */
  function Code(e: Error): (r: Option<int>)
    ensures e.ParserError? ==> r == Some(e.code)
    ensures e.ToolNotFound? || e.ResourceNotFound? <==> r.None?
    ensures r.Some? && !e.ParserError? ==> -32603 <= r.value <= -32601
  {
    match e
    case ParserError(code, _) => Some(code)
    case MethodNotFound(_) => Some(MethodNotFoundCode)
    case InvalidParams(_) => Some(InvalidParamsCode)
    case InternalError(_) => Some(InternalErrorCode)
    case ToolNotFound(_) => None
    case ResourceNotFound(_) => None
  }

  datatype ResultValue =
    | EmptyResult
    | InitializeResult(info: ServerInfo, capabilities: Capabilities)
    | ToolsListResult(tools: seq<ToolDescriptor>)
    | ToolsCallResult(result: ToolResult)
    | ResourcesListResult(resources: seq<Resource>)
    | ResourcesReadResult(contents: seq<ResourceContent>)

  datatype Body = Success(value: ResultValue) | Failure(error: Error)

  /** The human-readable message of a progress notification; the elapsed
      time formatting is not modelled. */
  datatype Note = Starting(tool: string) | Running(tool: string, tick: nat) | Complete(tool: string, elapsedMs: nat)

  /** One line written to standard output. */
  datatype Output =
    | Response(id: Option<Id>, body: Body)
    | Progress(token: Json, progress: nat, total: nat, note: Note)

  // ---------------------------------------------------------------------
  // Server state and collaborators
  // ---------------------------------------------------------------------

  /** The server's state. `metrics` is the process-wide collector that
      tool calls report to. */
  datatype Server = Server(
    info: ServerInfo,
    capabilities: Capabilities,
    resources: seq<Resource>,
    initialized: bool,
    metrics: Metrics.Collector)

  predicate ServerValid(s: Server) {
    Metrics.CollectorValid(s.metrics)
  }

  /** The tools a registry lists; `name in registry` holds only for their
      (string) names. */
  datatype Registry = Registry(tools: seq<ToolDescriptor>)

  predicate Registered(reg: Registry, name: Json) {
    name.JStr? && exists i :: 0 <= i < |reg.tools| && reg.tools[i].name == name.s
  }

  /** The parser, the registry and the optional resource provider. */
  datatype Env = Env(
    parse: string -> Parsed,
    registry: Registry,
    provider: Option<string -> Result<string>>)

  /** How a tool execution triggered by a line turns out: its result or the
      message of the exception it raised, the number of polling intervals
      the worker outlived, and the elapsed milliseconds. */
  datatype Exec = Exec(outcome: Result<ToolResult>, ticks: nat, elapsedMs: nat)

  /** `StdioMCPServer.__init__`. */
  function NewServer(info: ServerInfo, hasProvider: bool, metrics: Metrics.Collector): (s: Server)
    requires Metrics.CollectorValid(metrics)
    ensures ServerValid(s) && !s.initialized && s.resources == []
    ensures s.capabilities.tools && !s.capabilities.prompts && !s.capabilities.logging
    ensures s.capabilities.resources <==> hasProvider
  {
    Server(info, Capabilities(true, hasProvider, false, false), [], false, metrics)
  }

  /** `add_resource`: appends and advertises resources. */
  function AddResource(s: Server, res: Resource): (r: Server)
    ensures r.resources == s.resources + [res]
    ensures r.capabilities.resources
    ensures r.capabilities == s.capabilities.(resources := true)
    ensures r.(resources := s.resources, capabilities := s.capabilities) == s
  {
    s.(resources := s.resources + [res], capabilities := s.capabilities.(resources := true))
  }

  /** `set_resources`: replaces the list; resources are advertised exactly
      when the list is non-empty. */
  function SetResources(s: Server, rs: seq<Resource>): (r: Server)
    ensures r.resources == rs
    ensures r.capabilities.resources <==> |rs| > 0
    ensures r.capabilities.(resources := s.capabilities.resources) == s.capabilities
    ensures r.(resources := s.resources, capabilities := s.capabilities) == s
  {
    s.(resources := rs, capabilities := s.capabilities.(resources := |rs| > 0))
  }

  // ---------------------------------------------------------------------
  // One message
  // ---------------------------------------------------------------------

  /** What a handler hands back to the loop: a response, nothing (for a
      notification), or an exception escaping the handler. */
  datatype Reply = NoReply | Answer(response: Output) | Raise(message: string)

  /** A handler's new state, the progress lines it wrote while running,
      and its reply. */
  datatype Outcome = Outcome(state: Server, emitted: seq<Output>, reply: Reply)

  /** The reply is a response to request `id` (or an escaping exception)
      and everything written before it is a progress notification. */
  predicate AnswersRequest(o: Outcome, id: Id) {
    && (forall k :: 0 <= k < |o.emitted| ==> o.emitted[k].Progress?)
    && (o.reply.Answer? ==> o.reply.response.Response? && o.reply.response.id == Some(id))
    && !o.reply.NoReply?
  }

  /** The handler left everything but the metrics collector alone. */
  predicate SameSetup(s: Server, t: Server) {
    t.info == s.info && t.capabilities == s.capabilities && t.resources == s.resources
  }

  function Respond(s: Server, id: Id, body: Body): (o: Outcome)
    ensures AnswersRequest(o, id) && o.state == s && o.emitted == []
    ensures o.reply == Answer(Response(Some(id), body))
  {
    Outcome(s, [], Answer(Response(Some(id), body)))
  }

  /** `_handle_notification`: only `notifications/initialized` has an effect. */
  function HandleNotification(s: Server, msg: Message): (r: Server)
    ensures r.initialized == (s.initialized || msg.rpcMethod == "notifications/initialized")
    ensures r.(initialized := s.initialized) == s
  {
    if msg.rpcMethod == "notifications/initialized" then s.(initialized := true) else s
  }

  /** `_handle_initialize`: reading `clientInfo` raises unless `params` and
      any `clientInfo` given are dicts; otherwise the server info and
      capabilities are returned and the state is left alone. */
  function HandleInitialize(s: Server, id: Id, params: Json): (o: Outcome)
    ensures AnswersRequest(o, id) && o.state == s && o.emitted == []
    ensures o.reply.Raise? <==> !params.JObj? || ("clientInfo" in params.fields && !params.fields["clientInfo"].JObj?)
    ensures o.reply.Answer? ==> o.reply.response.body == Success(InitializeResult(s.info, s.capabilities))
  {
    match Get(params, "clientInfo", JObj(map[]))
    case Raised(e) => Outcome(s, [], Raise(e))
    case Ok(clientInfo) =>
      match Get(clientInfo, "name", JStr("unknown"))
      case Raised(e) => Outcome(s, [], Raise(e))
      case Ok(_) => Respond(s, id, Success(InitializeResult(s.info, s.capabilities)))
  }

  /** `_is_long_running_tool`: `pomera_ai_tools` with action `research` or
      `deepreasoning` (default action `generate`); reading the action of a
      non-dict `arguments` raises. */
  function IsLongRunning(tool: string, arguments: Json): (r: Result<bool>)
    ensures tool != "pomera_ai_tools" ==> r == Ok(false)
    ensures tool == "pomera_ai_tools" ==> (r.Raised? <==> !arguments.JObj?)
    ensures r == Ok(true) <==>
      && tool == "pomera_ai_tools" && arguments.JObj? && "action" in arguments.fields
      && arguments.fields["action"] in {JStr("research"), JStr("deepreasoning")}
  {
    if tool == "pomera_ai_tools" then
      match Get(arguments, "action", JStr("generate"))
      case Raised(e) => Raised(e)
      case Ok(action) => Ok(action == JStr("research") || action == JStr("deepreasoning"))
    else Ok(false)
  }

  /** Approximate payload: the summed length of the content blocks' text. */
  function Payload(blocks: seq<ContentBlock>): (r: nat)
    ensures (forall k :: 0 <= k < |blocks| ==> blocks[k].text.None?) ==> r == 0
    ensures forall k :: 0 <= k < |blocks| ==> |blocks[k].text.GetOr("")| <= r
    decreases |blocks|
  {
    if |blocks| == 0 then 0
    else Payload(blocks[..|blocks| - 1]) + |blocks[|blocks| - 1].text.GetOr("")|
  }

  /** The payload of two runs of blocks is the sum of their payloads, as
      `sum(...)` over the concatenated content would be. */
  lemma {:induction false} PayloadAppend(a: seq<ContentBlock>, b: seq<ContentBlock>)
    ensures Payload(a + b) == Payload(a) + Payload(b)
    decreases |b|
  {
    if |b| == 0 {
      assert a + b == a;
    } else {
      assert (a + b)[..|a + b| - 1] == a + b[..|b| - 1];
      PayloadAppend(a, b[..|b| - 1]);
    }
  }

  /** The metrics record of one execution: success with its payload, or
      failure with the exception's message. */
  function CallOf(exec: Exec): (c: Metrics.Call)
    ensures c.elapsedMs == exec.elapsedMs
    ensures c.success <==> exec.outcome.Ok?
    ensures exec.outcome.Raised? ==> c.errorMsg == Some(exec.outcome.message) && c.payloadBytes == 0
    ensures exec.outcome.Ok? ==> c.errorMsg == None && c.payloadBytes == Payload(exec.outcome.value.content)
  {
    match exec.outcome
    case Ok(res) => Metrics.Call(exec.elapsedMs, Payload(res.content), true, None)
    case Raised(e) => Metrics.Call(exec.elapsedMs, 0, false, Some(e))
  }

  /** The keepalive percentage after `tick` polling intervals. */
  function KeepalivePercent(tick: nat): (p: nat)
    ensures p < 100
    ensures tick <= 9 ==> p == 10 * tick
    ensures tick > 9 ==> p == 95
  {
    Metrics.Min(10 * tick, 95)
  }

  /** The progress notifications of a long-running call whose worker
      outlived `ticks` polling intervals. */
  function ProgressTrace(token: Json, tool: string, ticks: nat, elapsedMs: nat): (r: seq<Output>)
    ensures |r| == ticks + 2
    ensures forall k :: 0 <= k < |r| ==> r[k].Progress? && r[k].token == token && r[k].total == 100
    ensures r[0].progress == 0 && r[0].note == Starting(tool)
    ensures r[|r| - 1].progress == 100 && r[|r| - 1].note == Complete(tool, elapsedMs)
    ensures forall k :: 1 <= k <= ticks ==> r[k].progress == KeepalivePercent(k) && r[k].note == Running(tool, k)
  {
    [Progress(token, 0, 100, Starting(tool))]
    + seq(ticks, k requires 0 <= k < ticks => Progress(token, KeepalivePercent(k + 1), 100, Running(tool, k + 1)))
    + [Progress(token, 100, 100, Complete(tool, elapsedMs))]
  }

  /** Progress never decreases and reaches 100 only at the terminal
      notification. */
  lemma ProgressMonotone(token: Json, tool: string, ticks: nat, elapsedMs: nat)
    ensures var r := ProgressTrace(token, tool, ticks, elapsedMs);
      && (forall i, j :: 0 <= i <= j < |r| ==> r[i].progress <= r[j].progress)
      && (forall i :: 0 <= i < |r| - 1 ==> r[i].progress < 100)
  {
    var r := ProgressTrace(token, tool, ticks, elapsedMs);
    forall i, j | 0 <= i <= j < |r|
      ensures r[i].progress <= r[j].progress
    {
      if 1 <= i && j <= ticks {
        assert r[i].progress == KeepalivePercent(i);
        assert r[j].progress == KeepalivePercent(j);
      }
    }
  }

  /** `_execute_with_progress`: the progress trace, one metrics record,
      then the response to the request, an internal error if the tool
      raised. */
  function ExecuteWithProgress(s: Server, id: Id, tool: string, token: Json, exec: Exec): (o: Outcome)
    requires ServerValid(s)
    ensures ServerValid(o.state) && SameSetup(s, o.state) && o.state.initialized == s.initialized
    ensures o.state.metrics == Metrics.CollectorRecord(s.metrics, tool, CallOf(exec))
    ensures o.emitted == ProgressTrace(token, tool, exec.ticks, exec.elapsedMs)
    ensures AnswersRequest(o, id) && o.reply.Answer?
    ensures exec.outcome.Ok? ==> o.reply.response.body == Success(ToolsCallResult(exec.outcome.value))
    ensures exec.outcome.Raised? ==> o.reply.response.body == Failure(InternalError(exec.outcome.message))
  {
    var state := s.(metrics := Metrics.CollectorRecord(s.metrics, tool, CallOf(exec)));
    var body := match exec.outcome
      case Ok(res) => Success(ToolsCallResult(res))
      case Raised(e) => Failure(InternalError(e));
    Outcome(state, ProgressTrace(token, tool, exec.ticks, exec.elapsedMs), Answer(Response(Some(id), body)))
  }

  /** The standard path of `_handle_tools_call`: one metrics record, then
      the result, or the exception escapes after being recorded. */
  function ExecuteInline(s: Server, id: Id, tool: string, exec: Exec): (o: Outcome)
    requires ServerValid(s)
    ensures ServerValid(o.state) && SameSetup(s, o.state) && o.state.initialized == s.initialized
    ensures o.state.metrics == Metrics.CollectorRecord(s.metrics, tool, CallOf(exec))
    ensures o.emitted == [] && AnswersRequest(o, id)
    ensures exec.outcome.Ok? ==> o.reply == Answer(Response(Some(id), Success(ToolsCallResult(exec.outcome.value))))
    ensures exec.outcome.Raised? ==> o.reply == Raise(exec.outcome.message)
  {
    var state := s.(metrics := Metrics.CollectorRecord(s.metrics, tool, CallOf(exec)));
    match exec.outcome
    case Ok(res) => Outcome(state, [], Answer(Response(Some(id), Success(ToolsCallResult(res)))))
    case Raised(e) => Outcome(state, [], Raise(e))
  }

  /** The progress token: `_meta.progressToken`, else `"progress-<id>"`. */
  function ProgressToken(params: Json, id: Id): (r: Result<Json>)
    requires params.JObj?
    ensures r.Raised? <==> "_meta" in params.fields && !params.fields["_meta"].JObj?
    ensures r.Ok? && "_meta" in params.fields && "progressToken" in params.fields["_meta"].fields ==>
      r.value == params.fields["_meta"].fields["progressToken"]
    ensures r.Ok? && !("_meta" in params.fields && "progressToken" in params.fields["_meta"].fields) ==>
      r.value == JStr("progress-" + IdText(id))
  {
    match Get(params, "_meta", JObj(map[]))
    case Raised(e) => Raised(e)
    case Ok(meta) => Get(meta, "progressToken", JStr("progress-" + IdText(id)))
  }

  /** The tool name a `tools/call` carries (`None` when absent). */
  function ToolName(params: Json): Json
    requires params.JObj?
  {
    if "name" in params.fields then params.fields["name"] else JNull
  }

  function Arguments(params: Json): Json
    requires params.JObj?
  {
    if "arguments" in params.fields then params.fields["arguments"] else JObj(map[])
  }

  /** A `tools/call` whose tool gets executed: a registered name, and
      neither the long-running check nor the progress token lookup raises. */
  predicate Executes(env: Env, params: Json, id: Id) {
    && params.JObj?
    && Truthy(ToolName(params))
    && Registered(env.registry, ToolName(params))
    && IsLongRunning(ToolName(params).s, Arguments(params)).Ok?
    && (IsLongRunning(ToolName(params).s, Arguments(params)).value ==> ProgressToken(params, id).Ok?)
  }

  /** `_handle_tools_call`: a missing name is invalid params, an
      unregistered one is tool-not-found, and only an executed call is
      recorded, exactly once. */
  function HandleToolsCall(s: Server, env: Env, id: Id, params: Json, exec: Exec): (o: Outcome)
    requires ServerValid(s)
    ensures ServerValid(o.state) && SameSetup(s, o.state) && o.state.initialized == s.initialized
    ensures AnswersRequest(o, id)
    ensures !params.JObj? ==> o == Outcome(s, [], Raise("'" + TypeName(params) + "' object has no attribute 'get'"))
    ensures params.JObj? && !Truthy(ToolName(params)) ==>
      o == Respond(s, id, Failure(InvalidParams("Missing 'name' parameter")))
    ensures params.JObj? && Truthy(ToolName(params)) && !Registered(env.registry, ToolName(params)) ==>
      o == Respond(s, id, Failure(ToolNotFound(ToolName(params))))
    ensures Executes(env, params, id) ==>
      o.state.metrics == Metrics.CollectorRecord(s.metrics, ToolName(params).s, CallOf(exec))
    ensures !Executes(env, params, id) ==> o.state == s && o.emitted == []
    ensures Executes(env, params, id) && IsLongRunning(ToolName(params).s, Arguments(params)).value ==>
      o == ExecuteWithProgress(s, id, ToolName(params).s, ProgressToken(params, id).value, exec)
    ensures Executes(env, params, id) && !IsLongRunning(ToolName(params).s, Arguments(params)).value ==>
      o == ExecuteInline(s, id, ToolName(params).s, exec)
  {
    match Get(params, "name", JNull)
    case Raised(e) => Outcome(s, [], Raise(e))
    case Ok(name) =>
      var arguments := Get(params, "arguments", JObj(map[])).value;
      if !Truthy(name) then Respond(s, id, Failure(InvalidParams("Missing 'name' parameter")))
      else if !Registered(env.registry, name) then Respond(s, id, Failure(ToolNotFound(name)))
      else
        match IsLongRunning(name.s, arguments)
        case Raised(e) => Outcome(s, [], Raise(e))
        case Ok(longRunning) =>
          if longRunning then
            match ProgressToken(params, id)
            case Raised(e) => Outcome(s, [], Raise(e))
            case Ok(token) => ExecuteWithProgress(s, id, name.s, token, exec)
          else ExecuteInline(s, id, name.s, exec)
  }

  /** The first listed resource with the given uri. */
  function FindResource(resources: seq<Resource>, uri: Json): (r: Option<Resource>)
    ensures r.Some? <==> exists k :: 0 <= k < |resources| && JStr(resources[k].uri) == uri
    ensures r.Some? ==> JStr(r.value.uri) == uri && r.value in resources
    ensures r.Some? ==>
      exists k :: 0 <= k < |resources| && resources[k] == r.value && forall j :: 0 <= j < k ==> JStr(resources[j].uri) != uri
    decreases |resources|
  {
    if |resources| == 0 then None
    else if JStr(resources[0].uri) == uri then Some(resources[0])
    else
      var rest := FindResource(resources[1..], uri);
      assert forall k :: 1 <= k < |resources| ==> resources[k] == resources[1..][k - 1];
      rest
  }

  /** `_handle_resources_read`. */
  function HandleResourcesRead(s: Server, env: Env, id: Id, params: Json): (o: Outcome)
    ensures o.state == s && o.emitted == [] && AnswersRequest(o, id)
    ensures !params.JObj? <==> o.reply.Raise?
    ensures params.JObj? ==> o.reply.Answer?
    ensures params.JObj? && !("uri" in params.fields && Truthy(params.fields["uri"])) ==>
      o.reply.response.body == Failure(InvalidParams("Missing 'uri' parameter"))
    ensures params.JObj? && "uri" in params.fields && Truthy(params.fields["uri"]) ==>
      var uri := params.fields["uri"];
      var found := FindResource(s.resources, uri);
      && (found.None? ==> o.reply.response.body == Failure(ResourceNotFound(uri)))
      && (found.Some? && env.provider.None? ==>
           o.reply.response.body == Failure(InternalError("No resource provider configured")))
      && (found.Some? && env.provider.Some? && env.provider.value(found.value.uri).Raised? ==>
           o.reply.response.body ==
             Failure(InternalError("Error reading resource: " + env.provider.value(found.value.uri).message)))
      && (found.Some? && env.provider.Some? && env.provider.value(found.value.uri).Ok? ==>
           o.reply.response.body == Success(ResourcesReadResult([ResourceContent(
             found.value.uri, found.value.mimeType, env.provider.value(found.value.uri).value)])))
  {
    match Get(params, "uri", JNull)
    case Raised(e) => Outcome(s, [], Raise(e))
    case Ok(uri) =>
      if !Truthy(uri) then Respond(s, id, Failure(InvalidParams("Missing 'uri' parameter")))
      else
        match FindResource(s.resources, uri)
        case None => Respond(s, id, Failure(ResourceNotFound(uri)))
        case Some(res) =>
          match env.provider
          case None => Respond(s, id, Failure(InternalError("No resource provider configured")))
          case Some(provider) =>
            match provider(res.uri)
            case Ok(text) =>
              Respond(s, id, Success(ResourcesReadResult([ResourceContent(res.uri, res.mimeType, text)])))
            case Raised(e) => Respond(s, id, Failure(InternalError("Error reading resource: " + e)))
  }

  /** The request methods the server routes. */
  const KnownMethods: set<string> :=
    {"initialize", "initialized", "ping", "tools/list", "tools/call", "resources/list", "resources/read"}

  /** Routing of a request (`_handle_message` after the notification check);
      `params` is `msg.params or {}`. */
  function HandleRequest(s: Server, env: Env, id: Id, rpcMethod: string, params: Json, exec: Exec): (o: Outcome)
    requires ServerValid(s)
    ensures ServerValid(o.state) && SameSetup(s, o.state) && AnswersRequest(o, id)
    ensures rpcMethod != "tools/call" ==> o.emitted == [] && o.state.metrics == s.metrics
    ensures o.state.initialized == (s.initialized || rpcMethod == "initialized")
    ensures rpcMethod !in KnownMethods ==> o == Respond(s, id, Failure(MethodNotFound(rpcMethod)))
    ensures rpcMethod == "ping" ==> o == Respond(s, id, Success(EmptyResult))
    ensures rpcMethod == "initialized" ==> o == Respond(s.(initialized := true), id, Success(EmptyResult))
    ensures rpcMethod == "tools/list" ==> o == Respond(s, id, Success(ToolsListResult(env.registry.tools)))
    ensures rpcMethod == "resources/list" ==> o == Respond(s, id, Success(ResourcesListResult(s.resources)))
    ensures rpcMethod == "tools/call" ==> o == HandleToolsCall(s, env, id, params, exec)
    ensures rpcMethod == "resources/read" ==> o == HandleResourcesRead(s, env, id, params)
    ensures rpcMethod == "initialize" ==> o == HandleInitialize(s, id, params)
  {
    if rpcMethod == "initialize" then HandleInitialize(s, id, params)
    else if rpcMethod == "initialized" then Respond(s.(initialized := true), id, Success(EmptyResult))
    else if rpcMethod == "ping" then Respond(s, id, Success(EmptyResult))
    else if rpcMethod == "tools/list" then Respond(s, id, Success(ToolsListResult(env.registry.tools)))
    else if rpcMethod == "tools/call" then HandleToolsCall(s, env, id, params, exec)
    else if rpcMethod == "resources/list" then Respond(s, id, Success(ResourcesListResult(s.resources)))
    else if rpcMethod == "resources/read" then HandleResourcesRead(s, env, id, params)
    else Respond(s, id, Failure(MethodNotFound(rpcMethod)))
  }

  /** `_handle_message`: a parse failure is answered with a null id and the
      parser's code, a notification gets no reply, a request is routed. */
  function HandleMessage(s: Server, env: Env, data: string, exec: Exec): (o: Outcome)
    requires ServerValid(s)
    ensures ServerValid(o.state) && SameSetup(s, o.state)
    ensures env.parse(data).ParseFailed? ==>
      o == Outcome(s, [], Answer(Response(None, Failure(ParserError(env.parse(data).code, env.parse(data).message)))))
    ensures env.parse(data).Parsed? && env.parse(data).msg.id.None? ==>
      o == Outcome(HandleNotification(s, env.parse(data).msg), [], NoReply)
    ensures env.parse(data).Parsed? && env.parse(data).msg.id.Some? ==>
      var msg := env.parse(data).msg;
      o == HandleRequest(s, env, msg.id.value, msg.rpcMethod, if Truthy(msg.params) then msg.params else JObj(map[]), exec)
  {
    match env.parse(data)
    case ParseFailed(code, message) => Outcome(s, [], Answer(Response(None, Failure(ParserError(code, message)))))
    case Parsed(msg) =>
      match msg.id
      case None => Outcome(HandleNotification(s, msg), [], NoReply)
      case Some(id) =>
        var params := if Truthy(msg.params) then msg.params else JObj(map[]);
        HandleRequest(s, env, id, msg.rpcMethod, params, exec)
  }

  // ---------------------------------------------------------------------
  // The read loop
  // ---------------------------------------------------------------------

  /** The lines written once a handler is done: what it emitted, then its
      response, or an internal error with id `errorId` for an exception. */
  function Finish(o: Outcome, errorId: Option<Id>): (r: seq<Output>)
    ensures |r| == |o.emitted| + (if o.reply.NoReply? then 0 else 1)
    ensures r[..|o.emitted|] == o.emitted
  {
    match o.reply
    case NoReply => o.emitted
    case Answer(response) => o.emitted + [response]
    case Raise(e) => o.emitted + [Response(errorId, Failure(InternalError(e)))]
  }

  /** The body of `run_sync`'s loop for one line read, as written: the line
      is stripped, a blank line is skipped, and an exception escaping the
      handler is answered with an internal error whose id is null. */
  function ProcessLine(s: Server, env: Env, line: string, exec: Exec): (r: (Server, seq<Output>))
    requires ServerValid(s)
    ensures ServerValid(r.0) && SameSetup(s, r.0)
    ensures Text.Strip(line) == "" ==> r == (s, [])
  {
    var text := Text.Strip(line);
    if text == "" then (s, [])
    else
      var o := HandleMessage(s, env, text, exec);
      (o.state, Finish(o, None))
  }

  /** The id a line's error response should carry: the request's id once
      the line parsed as a request (section 5 of JSON-RPC 2.0 allows a null
      id only when the id could not be determined). */
  function RequestId(env: Env, text: string): Option<Id> {
    match env.parse(text)
    case Parsed(msg) => msg.id
    case ParseFailed(_, _) => None
  }

  /** The loop body with an escaping exception answered under the
      request's own id. */
  function ProcessLineCorrected(s: Server, env: Env, line: string, exec: Exec): (r: (Server, seq<Output>))
    requires ServerValid(s)
    ensures ServerValid(r.0) && SameSetup(s, r.0)
    ensures Text.Strip(line) == "" ==> r == (s, [])
  {
    var text := Text.Strip(line);
    if text == "" then (s, [])
    else
      var o := HandleMessage(s, env, text, exec);
      (o.state, Finish(o, RequestId(env, text)))
  }

  /** Every request line gets exactly one response, carrying its id, and
      only progress notifications before it; a notification gets nothing; a
      line that does not parse gets one error with a null id and the
      parser's code. */
  lemma RequestAnsweredOnce(s: Server, env: Env, line: string, exec: Exec)
    requires ServerValid(s)
    requires Text.Strip(line) != ""
    ensures var out := ProcessLineCorrected(s, env, line, exec).1;
      match env.parse(Text.Strip(line))
      case ParseFailed(code, message) =>
        && out == [Response(None, Failure(ParserError(code, message)))]
        && ProcessLineCorrected(s, env, line, exec).0 == s
      case Parsed(msg) =>
        && (msg.id.None? ==> out == [])
        && (msg.id.Some? ==>
              && |out| > 0 && out[|out| - 1].Response? && out[|out| - 1].id == msg.id
              && forall k :: 0 <= k < |out| - 1 ==> out[k].Progress?)
  {
    var text := Text.Strip(line);
    var o := HandleMessage(s, env, text, exec);
    var out := Finish(o, RequestId(env, text));
    match env.parse(text)
    case ParseFailed(code, message) =>
    case Parsed(msg) =>
      if msg.id.Some? {
        var params := if Truthy(msg.params) then msg.params else JObj(map[]);
        assert o == HandleRequest(s, env, msg.id.value, msg.rpcMethod, params, exec);
        assert AnswersRequest(o, msg.id.value);
        assert out[..|o.emitted|] == o.emitted;
        forall k | 0 <= k < |out| - 1
          ensures out[k].Progress?
        {
          assert out[k] == o.emitted[k];
        }
      }
  }

  /** One read of standard input: end of stream, or a line together with
      how the tool it may trigger turns out. */
  datatype Input = EndOfInput | Line(text: string, exec: Exec)

  /** `run_sync`: handle lines until the stream ends (an exhausted input
      sequence also ends it). */
  function Run(s: Server, env: Env, inputs: seq<Input>): (r: (Server, seq<Output>))
    requires ServerValid(s)
    ensures ServerValid(r.0) && SameSetup(s, r.0)
    decreases |inputs|
  {
    if |inputs| == 0 then (s, [])
    else match inputs[0]
      case EndOfInput => (s, [])
      case Line(text, exec) =>
        var step := ProcessLineCorrected(s, env, text, exec);
        var rest := Run(step.0, env, inputs[1..]);
        (rest.0, step.1 + rest.1)
  }

  function CountResponses(out: seq<Output>): (r: nat)
    ensures r <= |out|
    decreases |out|
  {
    if |out| == 0 then 0
    else CountResponses(out[..|out| - 1]) + (if out[|out| - 1].Response? then 1 else 0)
  }

  lemma {:induction false} CountResponsesAppend(a: seq<Output>, b: seq<Output>)
    ensures CountResponses(a + b) == CountResponses(a) + CountResponses(b)
    decreases |b|
  {
    if |b| > 0 {
      assert (a + b)[..|a + b| - 1] == a + b[..|b| - 1];
      CountResponsesAppend(a, b[..|b| - 1]);
    } else {
      assert a + b == a;
    }
  }

  /** A line calls for a response: it is not blank and does not parse as
      a notification. */
  predicate CallsForResponse(env: Env, line: string) {
    var text := Text.Strip(line);
    text != "" && !(env.parse(text).Parsed? && env.parse(text).msg.id.None?)
  }

  /** How many lines read before the end of the stream call for a response. */
  function LinesCallingForResponse(env: Env, inputs: seq<Input>): nat
    decreases |inputs|
  {
    if |inputs| == 0 || inputs[0].EndOfInput? then 0
    else (if CallsForResponse(env, inputs[0].text) then 1 else 0) + LinesCallingForResponse(env, inputs[1..])
  }

  lemma LineResponses(s: Server, env: Env, line: string, exec: Exec)
    requires ServerValid(s)
    ensures CountResponses(ProcessLineCorrected(s, env, line, exec).1) == if CallsForResponse(env, line) then 1 else 0
  {
    var out := ProcessLineCorrected(s, env, line, exec).1;
    if Text.Strip(line) != "" {
      RequestAnsweredOnce(s, env, line, exec);
      if CallsForResponse(env, line) {
        var init := out[..|out| - 1];
        assert out == init + [out[|out| - 1]];
        NoResponses(init);
      }
    }
  }

  lemma {:induction false} NoResponses(out: seq<Output>)
    requires forall k :: 0 <= k < |out| ==> out[k].Progress?
    ensures CountResponses(out) == 0
    decreases |out|
  {
    if |out| > 0 {
      NoResponses(out[..|out| - 1]);
    }
  }

  /** The loop answers every request read before the end of the stream
      exactly once: responses written == lines calling for one. Blank lines
      and notifications are answered by nothing, and nothing after the end
      of the stream is read. */
  lemma {:induction false} RunAnswersEachRequestOnce(s: Server, env: Env, inputs: seq<Input>)
    requires ServerValid(s)
    ensures CountResponses(Run(s, env, inputs).1) == LinesCallingForResponse(env, inputs)
    decreases |inputs|
  {
    if |inputs| > 0 && inputs[0].Line? {
      var step := ProcessLineCorrected(s, env, inputs[0].text, inputs[0].exec);
      LineResponses(s, env, inputs[0].text, inputs[0].exec);
      RunAnswersEachRequestOnce(step.0, env, inputs[1..]);
      CountResponsesAppend(step.1, Run(step.0, env, inputs[1..]).1);
    }
  }

  /** A request that runs a tool inline, whose execution raises. */
  predicate FailingInlineCall(env: Env, text: string, exec: Exec) {
    && env.parse(text).Parsed?
    && var msg := env.parse(text).msg;
    && msg.id.Some? && msg.rpcMethod == "tools/call" && msg.params.JObj? && |msg.params.fields| > 0
    && Executes(env, msg.params, msg.id.value)
    && !IsLongRunning(ToolName(msg.params).s, Arguments(msg.params)).value
    && exec.outcome.Raised?
  }

  /** The loop as written answers a failing inline tool call with a null
      id, where the corrected loop answers under the request's id. */
  lemma AsWrittenDropsRequestId(s: Server, env: Env, line: string, exec: Exec)
    requires ServerValid(s)
    requires Text.Strip(line) != "" && FailingInlineCall(env, Text.Strip(line), exec)
    ensures ProcessLine(s, env, line, exec).1 == [Response(None, Failure(InternalError(exec.outcome.message)))]
    ensures ProcessLineCorrected(s, env, line, exec).1 ==
      [Response(env.parse(Text.Strip(line)).msg.id, Failure(InternalError(exec.outcome.message)))]
  {
    var text := Text.Strip(line);
    var msg := env.parse(text).msg;
    assert Truthy(msg.params);
    var o := HandleMessage(s, env, text, exec);
    assert o == HandleToolsCall(s, env, msg.id.value, msg.params, exec);
    assert o == ExecuteInline(s, msg.id.value, ToolName(msg.params).s, exec);
  }

  /** A concrete instance: request 7 calls the registered tool "t", which
      raises "boom". */
  lemma NullIdExample()
    ensures
      var env := Env(_ => Parsed(Message(Some(IntId(7)), "tools/call", JObj(map["name" := JStr("t")]))),
                     Registry([ToolDescriptor("t", "", JNull)]), None);
      FailingInlineCall(env, "x", Exec(Raised("boom"), 0, 5))
  {
    var msg := Message(Some(IntId(7)), "tools/call", JObj(map["name" := JStr("t")]));
    var env := Env(_ => Parsed(msg), Registry([ToolDescriptor("t", "", JNull)]), None);
    assert env.registry.tools[0].name == "t";
    assert ToolName(msg.params) == JStr("t");
    assert Arguments(msg.params) == JObj(map[]);
    assert "name" in msg.params.fields;
  }
}

=== FILE: metrics.dfy ===
/** Per-tool execution metrics and the session-wide collector
    (`ToolMetrics` and `MCPMetricsCollector`). Latencies are whole
    milliseconds; the collector's lock, logging, clock and uptime are not
    part of the model. */
module Metrics {
  import opened Wrappers
  import Sorting

  /** Capacity of the recent-latency window used for percentiles. */
  const MaxRecent: nat := 100

  /** Accumulated metrics of one tool. `minMs == None` stands for the
      initial `float('inf')`. */
  datatype ToolMetrics = ToolMetrics(
    callCount: nat,
    errorCount: nat,
    totalMs: nat,
    minMs: Option<nat>,
    maxMs: nat,
    totalPayloadBytes: nat,
    lastError: Option<string>,
    recent: seq<nat>)

  /** A fresh record, as `defaultdict(ToolMetrics)` creates it. */
  const Fresh := ToolMetrics(0, 0, 0, None, 0, 0, None, [])

  /** One recorded execution. */
  datatype Call = Call(elapsedMs: nat, payloadBytes: nat, success: bool, errorMsg: Option<string>)

  /** What every reachable record satisfies. */
  predicate Valid(m: ToolMetrics) {
    && |m.recent| <= MaxRecent
    && |m.recent| <= m.callCount
    && m.errorCount <= m.callCount
    && (m.minMs.None? <==> m.callCount == 0)
    && (m.lastError.Some? ==> m.errorCount > 0)
    && (forall i :: 0 <= i < |m.recent| ==> m.minMs.Some? && m.minMs.value <= m.recent[i] <= m.maxMs)
  }

  /** Appends to the window and evicts the oldest entry beyond capacity. */
  function Push(window: seq<nat>, x: nat): (r: seq<nat>)
    requires |window| <= MaxRecent
    ensures |r| == if |window| < MaxRecent then |window| + 1 else MaxRecent
    ensures r == (window + [x])[|window| + 1 - |r|..]
  {
    var w := window + [x];
    if |w| > MaxRecent then w[1..] else w
  }

  /** `ToolMetrics.record`. */
  function Record(m: ToolMetrics, c: Call): (r: ToolMetrics)
    requires |m.recent| <= MaxRecent
    ensures r.callCount == m.callCount + 1
    ensures r.totalMs == m.totalMs + c.elapsedMs
    ensures r.totalPayloadBytes == m.totalPayloadBytes + c.payloadBytes
    ensures r.minMs.Some? && r.minMs.value <= c.elapsedMs <= r.maxMs
    ensures m.minMs.Some? ==> r.minMs.value <= m.minMs.value
    ensures m.maxMs <= r.maxMs
    ensures r.minMs.value == c.elapsedMs || r.minMs == m.minMs
    ensures r.maxMs == c.elapsedMs || r.maxMs == m.maxMs
    ensures c.success ==> r.errorCount == m.errorCount && r.lastError == m.lastError
    ensures !c.success ==> r.errorCount == m.errorCount + 1 && r.lastError == c.errorMsg
    ensures r.recent == Push(m.recent, c.elapsedMs)
  {
    var newMin := match m.minMs
      case None => c.elapsedMs
      case Some(v) => if c.elapsedMs < v then c.elapsedMs else v;
    var newMax := if c.elapsedMs > m.maxMs then c.elapsedMs else m.maxMs;
    ToolMetrics(
      m.callCount + 1,
      if c.success then m.errorCount else m.errorCount + 1,
      m.totalMs + c.elapsedMs,
      Some(newMin),
      newMax,
      m.totalPayloadBytes + c.payloadBytes,
      if c.success then m.lastError else c.errorMsg,
      Push(m.recent, c.elapsedMs))
  }

  /** Recording keeps a record valid: the window stays within capacity and
      between the running minimum and maximum. */
  lemma RecordKeepsValid(m: ToolMetrics, c: Call)
    requires Valid(m)
    ensures Valid(Record(m, c))
  {
    var r := Record(m, c);
    var w := m.recent + [c.elapsedMs];
    forall i | 0 <= i < |r.recent|
      ensures r.minMs.value <= r.recent[i] <= r.maxMs
    {
      var k := |m.recent| + 1 - |r.recent| + i;
      assert r.recent[i] == w[k];
      if k < |m.recent| {
        assert w[k] == m.recent[k];
      }
    }
  }

  // ---------------------------------------------------------------------
  // Reference definitions over the whole call history
  // ---------------------------------------------------------------------

  /** The record after replaying `calls` on a fresh one. */
  function Replay(calls: seq<Call>): (r: ToolMetrics)
    ensures Valid(r)
    ensures r.callCount == |calls|
    decreases |calls|
  {
    if |calls| == 0 then Fresh
    else
      var m := Replay(calls[..|calls| - 1]);
      RecordKeepsValid(m, calls[|calls| - 1]);
      Record(m, calls[|calls| - 1])
  }

  function Latencies(calls: seq<Call>): (r: seq<nat>)
    ensures |r| == |calls|
    ensures forall i :: 0 <= i < |calls| ==> r[i] == calls[i].elapsedMs
    decreases |calls|
  {
    if |calls| == 0 then [] else Latencies(calls[..|calls| - 1]) + [calls[|calls| - 1].elapsedMs]
  }

  /** The last `min(|l|, 100)` elements of `l`. */
  function Window(l: seq<nat>): (r: seq<nat>)
    ensures |r| <= MaxRecent
  {
    l[|l| - Min(|l|, MaxRecent)..]
  }

  lemma PushWindow(l: seq<nat>, x: nat)
    ensures Push(Window(l), x) == Window(l + [x])
  {
    var w := Window(l);
    if |l| >= MaxRecent {
      assert w + [x] == (l + [x])[|l| - MaxRecent..];
    } else {
      assert w == l;
    }
  }

  function Failures(calls: seq<Call>): nat
    decreases |calls|
  {
    if |calls| == 0 then 0
    else Failures(calls[..|calls| - 1]) + (if calls[|calls| - 1].success then 0 else 1)
  }

  /** The message of the most recent failed call, if any call failed. */
  function LastFailureMessage(calls: seq<Call>): Option<string>
    decreases |calls|
  {
    if |calls| == 0 then None
    else if !calls[|calls| - 1].success then calls[|calls| - 1].errorMsg
    else LastFailureMessage(calls[..|calls| - 1])
  }

  function Min(a: nat, b: nat): nat { if a < b then a else b }

  /** Replaying a history counts every call, counts the failures, and keeps
      the message of the most recent failure. */
  lemma {:induction false} ReplayFailures(calls: seq<Call>)
    ensures Replay(calls).errorCount == Failures(calls)
    ensures Replay(calls).lastError == LastFailureMessage(calls)
    decreases |calls|
  {
    if |calls| > 0 {
      ReplayFailures(calls[..|calls| - 1]);
    }
  }

  /** The window holds exactly the last `min(n, 100)` recorded latencies,
      oldest first. */
  lemma {:induction false} ReplayWindow(calls: seq<Call>)
    ensures Replay(calls).recent == Window(Latencies(calls))
    decreases |calls|
  {
    var n := |calls|;
    if n > 0 {
      var prefix := calls[..n - 1];
      ReplayWindow(prefix);
      PushWindow(Latencies(prefix), calls[n - 1].elapsedMs);
    }
  }

  /** Every recorded latency lies between the reported minimum and maximum,
      and the minimum is one of them. */
  lemma {:induction false} ReplayExtremes(calls: seq<Call>)
    requires |calls| > 0
    ensures forall x :: x in Latencies(calls) ==> Replay(calls).minMs.value <= x <= Replay(calls).maxMs
    ensures Replay(calls).minMs.value in Latencies(calls)
    decreases |calls|
  {
    var n := |calls|;
    var l := Latencies(calls);
    var c := calls[n - 1];
    var prefix := calls[..n - 1];
    var lp := Latencies(prefix);
    assert l == lp + [c.elapsedMs];
    var r := Replay(calls);
    assert r == Record(Replay(prefix), c);
    if n > 1 {
      ReplayExtremes(prefix);
      var m := Replay(prefix);
      forall x | x in l
        ensures r.minMs.value <= x <= r.maxMs
      {
        if x != c.elapsedMs {
          assert x in lp;
        }
      }
      if r.minMs.value != c.elapsedMs {
        assert r.minMs.value in lp;
      }
    } else {
      assert l == [c.elapsedMs];
    }
  }

  // ---------------------------------------------------------------------
  // to_dict
  // ---------------------------------------------------------------------

  /** A formatted error rate: the literal "0%" when there were no calls,
      otherwise the percentage (Python prints it with one decimal). */
  datatype Rate = NoCalls | Percent(value: real)

  /** `r` is the share of failed calls among `calls`, in percent. */
  predicate RateOf(r: Rate, errors: nat, calls: nat) {
    && (r.NoCalls? <==> calls == 0)
    && (r.Percent? ==> r.value * calls as real == errors as real * 100.0)
  }

  function ErrorRate(errors: nat, calls: nat): (r: Rate)
    ensures RateOf(r, errors, calls)
  {
    if calls == 0 then NoCalls else Percent(errors as real / calls as real * 100.0)
  }

  datatype Percentiles = Percentiles(p50: nat, p95: nat, p99: nat)

  datatype ToolStats = ToolStats(
    calls: nat,
    errors: nat,
    errorRate: Rate,
    avgMs: real,
    minMs: nat,
    maxMs: nat,
    avgPayloadBytes: real,
    percentiles: Option<Percentiles>,
    lastError: Option<string>)

  /** Nearest-rank indices `int(n*0.5)`, `min(int(n*0.95), n-1)` and
      `min(int(n*0.99), n-1)`; for the window sizes that occur (at most
      100) the double products truncate to these integer quotients. */
  function PercentileIndices(n: nat): (r: (nat, nat, nat))
    requires n >= 1
    ensures r.0 < n && r.1 < n && r.2 < n
    ensures r.0 <= r.1 <= r.2
  {
    (n / 2, Min(n * 95 / 100, n - 1), Min(n * 99 / 100, n - 1))
  }

  function Ascending(a: nat, b: nat): bool { a <= b }

  /** How many latencies of `s` lie below `v`. */
  function CountBelow(s: seq<nat>, v: nat): (r: nat)
    ensures r <= |s|
    decreases |s|
  {
    if |s| == 0 then 0 else (if s[0] < v then 1 else 0) + CountBelow(s[1..], v)
  }

  /** How many latencies of `s` lie at or below `v`. */
  function CountAtMost(s: seq<nat>, v: nat): (r: nat)
    ensures r <= |s|
    decreases |s|
  {
    if |s| == 0 then 0 else (if s[0] <= v then 1 else 0) + CountAtMost(s[1..], v)
  }

  /** `v` is the value at 0-based position `i` of `s` in ascending order:
      at most `i` latencies lie below it and more than `i` at or below it. */
  predicate AtRank(s: seq<nat>, v: nat, i: nat) {
    CountBelow(s, v) <= i < CountAtMost(s, v)
  }

  /** P50/P95/P99 by nearest rank: the values at positions `int(n*0.5)`,
      `int(n*0.95)` and `int(n*0.99)` (capped at n-1) of the ascending
      window; hence ordered, and each one a latency of the window. */
  function WindowPercentiles(recent: seq<nat>): (p: Percentiles)
    requires |recent| > 0
    ensures var idx := PercentileIndices(|recent|);
      && AtRank(recent, p.p50, idx.0) && AtRank(recent, p.p95, idx.1) && AtRank(recent, p.p99, idx.2)
    ensures p.p50 <= p.p95 <= p.p99
    ensures p.p50 in recent && p.p95 in recent && p.p99 in recent
  {
    var sorted := Sorting.Sort(recent, Ascending);
    var idx := PercentileIndices(|sorted|);
    RankPicks(sorted, recent, idx.0, idx.1, idx.2);
    SortedAtRank(sorted, recent, idx.0);
    SortedAtRank(sorted, recent, idx.1);
    SortedAtRank(sorted, recent, idx.2);
    Percentiles(sorted[idx.0], sorted[idx.1], sorted[idx.2])
  }

  /** Three ranks picked in order from an ascending rearrangement of
      `recent` are ordered latencies of `recent`. */
  lemma RankPicks(sorted: seq<nat>, recent: seq<nat>, i: nat, j: nat, k: nat)
    requires multiset(sorted) == multiset(recent) && i <= j <= k < |sorted|
    requires Sorting.TotalPreorder(Ascending) ==> Sorting.SortedBy(sorted, Ascending)
    ensures sorted[i] <= sorted[j] <= sorted[k]
    ensures sorted[i] in recent && sorted[j] in recent && sorted[k] in recent
  {
    assert Sorting.SortedBy(sorted, Ascending);
    assert sorted[i] in multiset(recent);
    assert sorted[j] in multiset(recent);
    assert sorted[k] in multiset(recent);
  }

  /** Position `i` of an ascending rearrangement of `recent` holds the value
      at rank `i` of `recent`. */
  lemma SortedAtRank(sorted: seq<nat>, recent: seq<nat>, i: nat)
    requires multiset(sorted) == multiset(recent) && i < |sorted|
    requires Sorting.TotalPreorder(Ascending) ==> Sorting.SortedBy(sorted, Ascending)
    ensures AtRank(recent, sorted[i], i)
  {
    assert Sorting.SortedBy(sorted, Ascending);
    BelowFrom(sorted, sorted[i], i);
    AtMostUpTo(sorted, sorted[i], i + 1);
    CountsPermutation(sorted, recent, sorted[i]);
  }

  /** When nothing from position `j` on lies below `v`, at most `j`
      latencies do. */
  lemma {:induction false} BelowFrom(s: seq<nat>, v: nat, j: nat)
    requires forall k :: j <= k < |s| ==> v <= s[k]
    ensures CountBelow(s, v) <= j
    decreases |s|
  {
    if |s| > 0 {
      BelowFrom(s[1..], v, if j == 0 then 0 else j - 1);
    }
  }

  /** When everything before position `j` lies at or below `v`, at least
      `j` latencies do. */
  lemma {:induction false} AtMostUpTo(s: seq<nat>, v: nat, j: nat)
    requires j <= |s|
    requires forall k :: 0 <= k < j ==> s[k] <= v
    ensures CountAtMost(s, v) >= j
    decreases |s|
  {
    if |s| > 0 && j > 0 {
      AtMostUpTo(s[1..], v, j - 1);
    }
  }

  lemma {:induction false} CountsAppend(a: seq<nat>, b: seq<nat>, v: nat)
    ensures CountBelow(a + b, v) == CountBelow(a, v) + CountBelow(b, v)
    ensures CountAtMost(a + b, v) == CountAtMost(a, v) + CountAtMost(b, v)
    decreases |a|
  {
    if |a| > 0 {
      assert (a + b)[1..] == a[1..] + b;
      CountsAppend(a[1..], b, v);
    } else {
      assert a + b == b;
    }
  }

  /** Both counts depend only on the multiset of latencies. */
  lemma {:induction false} CountsPermutation(a: seq<nat>, b: seq<nat>, v: nat)
    requires multiset(a) == multiset(b)
    ensures CountBelow(a, v) == CountBelow(b, v) && CountAtMost(a, v) == CountAtMost(b, v)
    decreases |a|
  {
    if |a| > 0 {
      var x := a[0];
      assert x in multiset(b);
      var k :| 0 <= k < |b| && b[k] == x;
      var front, back := b[..k], b[k + 1..];
      assert a == [x] + a[1..];
      assert b == front + [x] + back;
      Sorting.RemoveOne(a[1..], front + back, x, multiset(a));
      CountsPermutation(a[1..], front + back, v);
      CountsAppend(front, [x], v);
      CountsAppend(front + [x], back, v);
      CountsAppend(front, back, v);
      CountsAppend([x], a[1..], v);
    }
  }

  /** A window has one value at each rank. */
  lemma RankUnique(s: seq<nat>, v: nat, w: nat, i: nat)
    requires AtRank(s, v, i) && AtRank(s, w, i)
    ensures v == w
  {
    if v < w {
      AtMostBelow(s, v, w);
    } else if w < v {
      AtMostBelow(s, w, v);
    }
  }

  /** The nearest-rank statement pins the percentiles down: any triple
      meeting it is the one `WindowPercentiles` computes. */
  lemma NearestRanksDetermine(recent: seq<nat>, p: Percentiles)
    requires NearestRanks(recent, p)
    ensures p == WindowPercentiles(recent)
  {
    var q := WindowPercentiles(recent);
    var idx := PercentileIndices(|recent|);
    RankUnique(recent, p.p50, q.p50, idx.0);
    RankUnique(recent, p.p95, q.p95, idx.1);
    RankUnique(recent, p.p99, q.p99, idx.2);
  }

  lemma {:induction false} AtMostBelow(s: seq<nat>, v: nat, w: nat)
    requires v < w
    ensures CountAtMost(s, v) <= CountBelow(s, w)
    decreases |s|
  {
    if |s| > 0 {
      AtMostBelow(s[1..], v, w);
    }
  }

  /** Each percentile is the latency at its nearest rank of the window,
      and they are ordered latencies of the window. */
  predicate NearestRanks(recent: seq<nat>, p: Percentiles) {
    && |recent| > 0
    && var idx := PercentileIndices(|recent|);
    && AtRank(recent, p.p50, idx.0) && AtRank(recent, p.p95, idx.1) && AtRank(recent, p.p99, idx.2)
    && p.p50 <= p.p95 <= p.p99 && p.p50 in recent && p.p95 in recent && p.p99 in recent
  }

  /** The percentile block of `to_dict`: present exactly when the window
      holds a latency. */
  function WindowStats(recent: seq<nat>): (r: Option<Percentiles>)
    ensures r.Some? <==> |recent| > 0
    ensures r.Some? ==> NearestRanks(recent, r.value)
  {
    if |recent| == 0 then None else Some(WindowPercentiles(recent))
  }

  /** `avg` is `total` spread evenly over `count` calls, or 0 when there
      were none. */
  predicate SpreadOver(avg: real, total: nat, count: nat) {
    && (count > 0 ==> avg * count as real == total as real)
    && (count == 0 ==> avg == 0.0)
  }

  function Mean(total: nat, count: nat): (r: real)
    ensures SpreadOver(r, total, count)
  {
    if count > 0 then total as real / count as real else 0.0
  }

  /** `ToolMetrics.to_dict`, rounding left out. */
  function ToDict(m: ToolMetrics): (r: ToolStats)
    ensures r.calls == m.callCount && r.errors == m.errorCount
    ensures SpreadOver(r.avgMs, m.totalMs, m.callCount)
    ensures SpreadOver(r.avgPayloadBytes, m.totalPayloadBytes, m.callCount)
    ensures RateOf(r.errorRate, m.errorCount, m.callCount)
    ensures m.minMs.None? ==> r.minMs == 0
    ensures m.minMs.Some? ==> r.minMs == m.minMs.value
    ensures r.maxMs == m.maxMs
    ensures r.percentiles.Some? <==> |m.recent| > 0
    ensures r.percentiles.Some? ==> NearestRanks(m.recent, r.percentiles.value)
    ensures r.lastError.Some? <==> m.lastError.Some? && m.lastError.value != ""
  {
    ToolStats(
      m.callCount,
      m.errorCount,
      ErrorRate(m.errorCount, m.callCount),
      Mean(m.totalMs, m.callCount),
      if m.minMs.Some? then m.minMs.value else 0,
      m.maxMs,
      Mean(m.totalPayloadBytes, m.callCount),
      WindowStats(m.recent),
      if m.lastError.Some? && m.lastError.value != "" then m.lastError else None)
  }

  // ---------------------------------------------------------------------
  // The collector
  // ---------------------------------------------------------------------

  datatype Entry = Entry(name: string, metrics: ToolMetrics)

  /** Tools in insertion order (the iteration order of the Python dict). */
  datatype Collector = Collector(tools: seq<Entry>, totalCalls: nat, totalErrors: nat)

  function SumCalls(tools: seq<Entry>): nat
    decreases |tools|
  {
    if |tools| == 0 then 0 else SumCalls(tools[..|tools| - 1]) + tools[|tools| - 1].metrics.callCount
  }

  function SumErrors(tools: seq<Entry>): nat
    decreases |tools|
  {
    if |tools| == 0 then 0 else SumErrors(tools[..|tools| - 1]) + tools[|tools| - 1].metrics.errorCount
  }

  function Names(tools: seq<Entry>): (r: seq<string>)
    ensures |r| == |tools|
    ensures forall i :: 0 <= i < |tools| ==> r[i] == tools[i].name
  {
    seq(|tools|, i requires 0 <= i < |tools| => tools[i].name)
  }

  predicate DistinctNames(tools: seq<Entry>) {
    forall i, j :: 0 <= i < j < |tools| ==> tools[i].name != tools[j].name
  }

  /** The collector's invariant: one entry per tool name, every entry valid,
      and the session totals equal the per-tool sums. */
  predicate CollectorValid(c: Collector) {
    && DistinctNames(c.tools)
    && (forall i :: 0 <= i < |c.tools| ==> Valid(c.tools[i].metrics))
    && c.totalCalls == SumCalls(c.tools)
    && c.totalErrors == SumErrors(c.tools)
  }

  const EmptyCollector := Collector([], 0, 0)

  function IndexOf(tools: seq<Entry>, name: string): (r: Option<nat>)
    ensures r.Some? ==> r.value < |tools| && tools[r.value].name == name
    ensures r.None? ==> forall i :: 0 <= i < |tools| ==> tools[i].name != name
    decreases |tools|
  {
    if |tools| == 0 then None
    else if tools[0].name == name then Some(0)
    else match IndexOf(tools[1..], name)
      case None => None
      case Some(k) => Some(k + 1)
  }

  lemma {:induction false} SumsAfterUpdate(tools: seq<Entry>, i: nat, e: Entry)
    requires i < |tools|
    ensures SumCalls(tools[i := e]) == SumCalls(tools) - tools[i].metrics.callCount + e.metrics.callCount
    ensures SumErrors(tools[i := e]) == SumErrors(tools) - tools[i].metrics.errorCount + e.metrics.errorCount
    decreases |tools|
  {
    var n := |tools|;
    if i < n - 1 {
      assert tools[i := e][..n - 1] == tools[..n - 1][i := e];
      SumsAfterUpdate(tools[..n - 1], i, e);
    } else {
      assert tools[i := e][..n - 1] == tools[..n - 1];
    }
  }

  lemma SumsAfterAppend(tools: seq<Entry>, e: Entry)
    ensures SumCalls(tools + [e]) == SumCalls(tools) + e.metrics.callCount
    ensures SumErrors(tools + [e]) == SumErrors(tools) + e.metrics.errorCount
  {
    assert (tools + [e])[..|tools|] == tools;
  }

  /** Recording on the entry at position `i`. */
  function RecordAt(c: Collector, i: nat, call: Call): (r: Collector)
    requires CollectorValid(c) && i < |c.tools|
    ensures CollectorValid(r)
    ensures r.tools == c.tools[i := Entry(c.tools[i].name, Record(c.tools[i].metrics, call))]
    ensures r.totalCalls == c.totalCalls + 1
    ensures r.totalErrors == c.totalErrors + (if call.success then 0 else 1)
  {
    var e := Entry(c.tools[i].name, Record(c.tools[i].metrics, call));
    RecordKeepsValid(c.tools[i].metrics, call);
    SumsAfterUpdate(c.tools, i, e);
    var tools := c.tools[i := e];
    assert forall j :: 0 <= j < |tools| ==> tools[j].name == c.tools[j].name;
    Collector(tools, c.totalCalls + 1, c.totalErrors + (if call.success then 0 else 1))
  }

  /** Recording on a tool seen for the first time. */
  function RecordNew(c: Collector, name: string, call: Call): (r: Collector)
    requires CollectorValid(c)
    requires forall i :: 0 <= i < |c.tools| ==> c.tools[i].name != name
    ensures CollectorValid(r)
    ensures r.tools == c.tools + [Entry(name, Record(Fresh, call))]
    ensures r.totalCalls == c.totalCalls + 1
    ensures r.totalErrors == c.totalErrors + (if call.success then 0 else 1)
  {
    var e := Entry(name, Record(Fresh, call));
    RecordKeepsValid(Fresh, call);
    AppendKeepsValid(c, e);
    Collector(c.tools + [e], c.totalCalls + e.metrics.callCount, c.totalErrors + e.metrics.errorCount)
  }

  lemma AppendKeepsValid(c: Collector, e: Entry)
    requires CollectorValid(c) && Valid(e.metrics)
    requires forall i :: 0 <= i < |c.tools| ==> c.tools[i].name != e.name
    ensures CollectorValid(Collector(c.tools + [e], c.totalCalls + e.metrics.callCount, c.totalErrors + e.metrics.errorCount))
  {
    var tools := c.tools + [e];
    SumsAfterAppend(c.tools, e);
    assert forall i :: 0 <= i < |c.tools| ==> tools[i] == c.tools[i];
    assert tools[|c.tools|] == e;
  }

  /** `MCPMetricsCollector.record`: the named tool's entry (created fresh on
      first use) records the call, every other entry is unchanged, and the
      session totals move with it. */
  function CollectorRecord(c: Collector, name: string, call: Call): (r: Collector)
    requires CollectorValid(c)
    ensures CollectorValid(r)
    ensures r.totalCalls == c.totalCalls + 1
    ensures r.totalErrors == c.totalErrors + (if call.success then 0 else 1)
    ensures exists i :: 0 <= i < |r.tools| && r.tools[i].name == name
    ensures |c.tools| <= |r.tools| <= |c.tools| + 1
    ensures forall i :: 0 <= i < |c.tools| && c.tools[i].name != name ==> r.tools[i] == c.tools[i]
    ensures forall i :: 0 <= i < |c.tools| && c.tools[i].name == name ==>
      r.tools[i] == Entry(name, Record(c.tools[i].metrics, call))
    ensures (exists i :: 0 <= i < |c.tools| && c.tools[i].name == name) ==> |r.tools| == |c.tools|
    ensures (forall i :: 0 <= i < |c.tools| ==> c.tools[i].name != name) ==>
      r.tools == c.tools + [Entry(name, Record(Fresh, call))]
  {
    match IndexOf(c.tools, name)
    case Some(i) =>
      var r := RecordAt(c, i, call);
      assert r.tools[i].name == name;
      r
    case None =>
      var r := RecordNew(c, name, call);
      assert r.tools[|c.tools|].name == name;
      r
  }

  /** `MCPMetricsCollector.reset`: a valid collector with no tools and zero totals. */
  function Reset(c: Collector): (r: Collector)
    ensures CollectorValid(r)
    ensures |r.tools| == 0 && r.totalCalls == 0 && r.totalErrors == 0
  {
    EmptyCollector
  }

  // ---------------------------------------------------------------------
  // get_stats
  // ---------------------------------------------------------------------

  datatype Stats = Stats(
    totalToolCalls: nat,
    totalErrors: nat,
    overallErrorRate: Rate,
    uniqueToolsUsed: nat,
    slowestTool: Option<string>,
    mostErrorsTool: Option<string>,
    perTool: seq<(string, ToolStats)>)

  /** Mean latency, the key of the slowest-tool search (`max(call_count, 1)`
      as divisor). */
  function MeanMs(e: Entry): real {
    e.metrics.totalMs as real / (if e.metrics.callCount > 0 then e.metrics.callCount else 1) as real
  }

  function ErrorKey(e: Entry): real {
    e.metrics.errorCount as real
  }

  /** Position `i` holds the first element with the greatest key. */
  predicate FirstMaxAt(tools: seq<Entry>, key: Entry -> real, i: int) {
    && 0 <= i < |tools|
    && (forall j :: 0 <= j < |tools| ==> key(tools[j]) <= key(tools[i]))
    && (forall j :: 0 <= j < i ==> key(tools[j]) < key(tools[i]))
  }

  /** Python's `max(items, key=key)`: the first element with the greatest key. */
  method FirstMax(tools: seq<Entry>, key: Entry -> real) returns (best: nat)
    requires |tools| > 0
    ensures FirstMaxAt(tools, key, best)
  {
    best := 0;
    var i := 1;
    while i < |tools|
      invariant 1 <= i <= |tools|
      invariant best < i
      invariant forall j :: 0 <= j < i ==> key(tools[j]) <= key(tools[best])
      invariant forall j :: 0 <= j < best ==> key(tools[j]) < key(tools[best])
    {
      if key(tools[i]) > key(tools[best]) {
        best := i;
      }
      i := i + 1;
    }
  }

  function ByCallsDescending(a: Entry, b: Entry): bool {
    a.metrics.callCount >= b.metrics.callCount
  }

  /** One `per_tool` row: the tool name and its `to_dict`. */
  function Row(e: Entry): (string, ToolStats) {
    (e.name, ToDict(e.metrics))
  }

  /** `MCPMetricsCollector.get_stats` without uptime and calls-per-minute. */
  method GetStats(c: Collector) returns (s: Stats)
    requires CollectorValid(c)
    ensures s.totalToolCalls == c.totalCalls && s.totalErrors == c.totalErrors
    ensures RateOf(s.overallErrorRate, c.totalErrors, c.totalCalls)
    ensures s.uniqueToolsUsed == |c.tools|
    ensures s.slowestTool.None? <==> |c.tools| == 0
    ensures s.slowestTool.Some? ==> exists i :: FirstMaxAt(c.tools, MeanMs, i) && c.tools[i].name == s.slowestTool.value
    ensures s.mostErrorsTool.Some? <==> exists i :: 0 <= i < |c.tools| && c.tools[i].metrics.errorCount > 0
    ensures s.mostErrorsTool.Some? ==> exists i :: FirstMaxAt(c.tools, ErrorKey, i) && c.tools[i].name == s.mostErrorsTool.value
    ensures |s.perTool| == |c.tools|
    ensures forall i, j :: 0 <= i < j < |s.perTool| ==> s.perTool[i].1.calls >= s.perTool[j].1.calls
    ensures multiset(s.perTool) == multiset(Sorting.Map(c.tools, Row))
  {
    var sorted := Sorting.Sort(c.tools, ByCallsDescending);
    assert Sorting.SortedBy(sorted, ByCallsDescending);
    var rows := Sorting.Map(sorted, Row);
    Sorting.MapPermutation(sorted, c.tools, Row);
    var slowest: Option<string> := None;
    var mostErrors: Option<string> := None;
    if |c.tools| > 0 {
      var i := FirstMax(c.tools, MeanMs);
      slowest := Some(c.tools[i].name);
      var k := FirstMax(c.tools, ErrorKey);
      if c.tools[k].metrics.errorCount > 0 {
        mostErrors := Some(c.tools[k].name);
      } else {
        forall j | 0 <= j < |c.tools|
          ensures c.tools[j].metrics.errorCount == 0
        {
          assert ErrorKey(c.tools[j]) <= ErrorKey(c.tools[k]);
        }
      }
    }
    s := Stats(c.totalCalls, c.totalErrors, ErrorRate(c.totalErrors, c.totalCalls),
               |c.tools|, slowest, mostErrors, rows);
  }

  /** After a reset the statistics show an idle session. */
  method ResetGivesIdleStats(c: Collector) returns (s: Stats)
    ensures s.totalToolCalls == 0 && s.overallErrorRate == NoCalls
    ensures s.slowestTool == None && s.mostErrorsTool == None && s.perTool == []
  {
    s := GetStats(Reset(c));
  }

  /** The worked example of two calls to one tool, 10 ms then a 30 ms failure. */
  lemma TwoCallExample()
    ensures var m := Record(Record(Fresh, Call(10, 100, true, None)), Call(30, 200, false, Some("boom")));
      var d := ToDict(m);
      d.calls == 2 && d.errors == 1 && d.errorRate == Percent(50.0) && d.avgMs == 20.0
      && d.minMs == 10 && d.maxMs == 30 && d.lastError == Some("boom")
  {
    var m1 := Record(Fresh, Call(10, 100, true, None));
    assert m1.callCount == 1 && m1.errorCount == 0 && m1.totalMs == 10 && m1.minMs == Some(10) && m1.maxMs == 10;
    var m := Record(m1, Call(30, 200, false, Some("boom")));
    assert m.callCount == 2 && m.errorCount == 1 && m.totalMs == 40 && m.minMs == Some(10) && m.maxMs == 30;
    TwoCallStats(m);
  }

  lemma TwoCallStats(m: ToolMetrics)
    requires m.callCount == 2 && m.errorCount == 1 && m.totalMs == 40
    requires m.minMs == Some(10) && m.maxMs == 30 && m.lastError == Some("boom")
    ensures var d := ToDict(m);
      d.calls == 2 && d.errors == 1 && d.errorRate == Percent(50.0) && d.avgMs == 20.0
      && d.minMs == 10 && d.maxMs == 30 && d.lastError == Some("boom")
  {
    var d := ToDict(m);
    assert d.errorRate.value * 2.0 == 100.0;
    assert d.avgMs * 2.0 == 40.0;
  }

}

=== FILE: research.dfy ===
/** Response handling of the research engine: search-context formatting,
    text extraction from the OpenAI Responses, Anthropic Messages and
    OpenRouter chat formats, the extended-thinking token guard, style
    presets, reasoning configuration, timeouts and `ResearchResult.to_dict`.
    The HTTP requests themselves are outside the model: each extractor
    receives the decoded reply. */
module Research {
  import opened Wrappers
  import opened Json
  import Text

  // ---------------------------------------------------------------------
  // Search context
  // ---------------------------------------------------------------------

  /** One web-search hit, a dict of strings. */
  type SearchHit = map<string, string>

  const ContextHeader := "## Web Search Results\n"

  function Field(hit: SearchHit, key: string, default: string): string {
    if key in hit then hit[key] else default
  }

  /** `result.get('snippet', result.get('content', ''))`. */
  function Snippet(hit: SearchHit): (r: string)
    ensures "snippet" in hit ==> r == hit["snippet"]
    ensures "snippet" !in hit && "content" in hit ==> r == hit["content"]
    ensures "snippet" !in hit && "content" !in hit ==> r == ""
  {
    Field(hit, "snippet", Field(hit, "content", ""))
  }

  /** The section for the `n`-th hit: a numbered heading with the title
      ('Unknown' when absent), a `**URL**:` line (empty when absent), the
      snippet, and a closing newline. */
  function Section(n: nat, hit: SearchHit): (r: string)
    ensures Text.StartsWith(r, "### [" + Text.NatToString(n) + "] ")
    ensures r == "### [" + Text.NatToString(n) + "] "
      + ((if "title" in hit then hit["title"] else "Unknown")
         + "\n**URL**: " + (if "url" in hit then hit["url"] else "") + "\n" + Snippet(hit) + "\n")
  {
    var head := "### [" + Text.NatToString(n) + "] ";
    var rest := Field(hit, "title", "Unknown") + "\n**URL**: " + Field(hit, "url", "") + "\n" + Snippet(hit) + "\n";
    PrefixOfConcat(head, rest);
    head + rest
  }

  lemma PrefixOfConcat(head: string, rest: string)
    ensures Text.StartsWith(head + rest, head)
  {
    assert (head + rest)[..|head|] == head;
  }

  /** The sections of `hits`, numbered from 1. */
  function Sections(hits: seq<SearchHit>): (r: seq<string>)
    ensures |r| == |hits|
    ensures forall i :: 0 <= i < |hits| ==> r[i] == Section(i + 1, hits[i])
  {
    seq(|hits|, i requires 0 <= i < |hits| => Section(i + 1, hits[i]))
  }

  /** `format_search_context`. */
  function FormatSearchContext(hits: seq<SearchHit>): (r: string)
    ensures r == "" <==> |hits| == 0
    ensures |hits| > 0 ==> Text.StartsWith(r, ContextHeader)
  {
    if |hits| == 0 then ""
    else
      var parts := [ContextHeader] + Sections(hits);
      var r := Text.Join(parts, "\n");
      JoinStartsWith(parts, "\n");
      r
  }

  lemma JoinStartsWith(parts: seq<string>, sep: string)
    requires |parts| > 0
    ensures Text.StartsWith(Text.Join(parts, sep), parts[0])
  {
    if |parts| > 1 {
      var j := Text.Join(parts, sep);
      assert j == parts[0] + (sep + Text.Join(parts[1..], sep));
      assert j[..|parts[0]|] == parts[0];
    }
  }

  /** One hit gives the header and its section numbered 1. */
  lemma FormatOne(hit: SearchHit)
    ensures FormatSearchContext([hit]) == ContextHeader + "\n" + Section(1, hit)
  {
    var parts := [ContextHeader] + Sections([hit]);
    assert parts == [ContextHeader, Section(1, hit)];
    Text.JoinTwo(ContextHeader, Section(1, hit), "\n");
  }

  /** Another hit appends one section, numbered one past the previous ones. */
  lemma FormatAppend(hits: seq<SearchHit>, hit: SearchHit)
    requires |hits| > 0
    ensures FormatSearchContext(hits + [hit])
         == FormatSearchContext(hits) + "\n" + Section(|hits| + 1, hit)
  {
    var parts := [ContextHeader] + Sections(hits);
    assert [ContextHeader] + Sections(hits + [hit]) == parts + [Section(|hits| + 1, hit)];
    Text.JoinAppend(parts, Section(|hits| + 1, hit), "\n");
  }

  // ---------------------------------------------------------------------
  // OpenAI Responses format
  // ---------------------------------------------------------------------

  const OpenAiError := "Error: Could not parse OpenAI response."

  /** An entry of an output item's `content` list. */
  datatype ContentItem = ContentItem(kind: Option<string>, text: Option<string>)

  /** An entry of `output`; `content` is `None` when it is missing or not a list. */
  datatype OutputItem = OutputItem(content: Option<seq<ContentItem>>)

  /** The decoded reply: `output` when present and a list, and the
      `content` of `item` when `item` is present and a dict. */
  datatype OpenAiReply = OpenAiReply(output: Option<seq<OutputItem>>, item: Option<Option<string>>)

  /** Content entry `j` of output `i` is an `output_text` entry. */
  predicate Hit(outs: seq<OutputItem>, i: int, j: int) {
    0 <= i < |outs| && outs[i].content.Some? && 0 <= j < |outs[i].content.value|
    && outs[i].content.value[j].kind == Some("output_text")
  }

  /** No `output_text` entry comes before position (i, j) in scan order. */
  ghost predicate FirstHit(outs: seq<OutputItem>, i: int, j: int) {
    Hit(outs, i, j) && forall i', j' :: Hit(outs, i', j') ==> i < i' || (i == i' && j <= j')
  }

  ghost predicate AnyHit(d: OpenAiReply) {
    d.output.Some? && exists i, j :: Hit(d.output.value, i, j)
  }

  /** `_extract_openai_response`: the text of the first `output_text`
      entry, else the `item` content, else the fixed error text. */
  method ExtractOpenAi(d: OpenAiReply) returns (r: string)
    ensures AnyHit(d) ==> exists i, j :: FirstHit(d.output.value, i, j)
                                      && r == d.output.value[i].content.value[j].text.GetOr("")
    ensures !AnyHit(d) && d.item.Some? ==> r == d.item.value.GetOr("")
    ensures !AnyHit(d) && d.item.None? ==> r == OpenAiError
  {
    if d.output.Some? {
      var outs := d.output.value;
      var i := 0;
      while i < |outs|
        invariant 0 <= i <= |outs|
        invariant forall i', j' :: Hit(outs, i', j') ==> i' >= i
      {
        if outs[i].content.Some? {
          var cs := outs[i].content.value;
          var j := 0;
          while j < |cs|
            invariant 0 <= j <= |cs|
            invariant forall i', j' :: Hit(outs, i', j') ==> i' > i || (i' == i && j' >= j)
          {
            if cs[j].kind == Some("output_text") {
              assert FirstHit(outs, i, j);
              return cs[j].text.GetOr("");
            }
            j := j + 1;
          }
        }
        i := i + 1;
      }
    }
    if d.item.Some? {
      return d.item.value.GetOr("");
    }
    return OpenAiError;
  }

  // ---------------------------------------------------------------------
  // Anthropic Messages format
  // ---------------------------------------------------------------------

  /** A content block; absent fields are `None`. */
  datatype Block = Block(kind: Option<string>, text: Option<string>, thinking: Option<string>)

  /** The response text: the `text` blocks' texts, concatenated in order. */
  function Texts(blocks: seq<Block>): (r: string)
    ensures forall c :: c in r ==> exists k :: 0 <= k < |blocks| && blocks[k].kind == Some("text") && c in blocks[k].text.GetOr("")
  {
    if |blocks| == 0 then ""
    else
      var last := blocks[|blocks| - 1];
      var init := Texts(blocks[..|blocks| - 1]);
      assert forall k :: 0 <= k < |blocks| - 1 ==> blocks[..|blocks| - 1][k] == blocks[k];
      if last.kind == Some("text") then init + last.text.GetOr("") else init
  }

  /** The thinking traces: one per `thinking` block, in order. */
  function Thoughts(blocks: seq<Block>): (r: seq<string>)
    ensures |r| == |set k | 0 <= k < |blocks| && blocks[k].kind == Some("thinking")|
  {
    if |blocks| == 0 then []
    else
      var n := |blocks| - 1;
      var last := blocks[n];
      var init := Thoughts(blocks[..n]);
      var before := set k | 0 <= k < n && blocks[..n][k].kind == Some("thinking");
      var now := set k | 0 <= k < |blocks| && blocks[k].kind == Some("thinking");
      assert before == set k | 0 <= k < n && blocks[k].kind == Some("thinking");
      if last.kind == Some("thinking") then
        assert now == before + {n};
        init + [last.thinking.GetOr("")]
      else
        assert now == before;
        init
  }

  /** Blocks of other kinds contribute nothing. */
  predicate Counted(b: Block) {
    b.kind == Some("text") || b.kind == Some("thinking")
  }

  function CountedOnly(blocks: seq<Block>): (r: seq<Block>)
    ensures forall b :: b in r ==> Counted(b) && b in blocks
  {
    if |blocks| == 0 then []
    else
      var n := |blocks| - 1;
      var init := CountedOnly(blocks[..n]);
      if Counted(blocks[n]) then init + [blocks[n]] else init
  }

  /** Dropping the blocks that are neither text nor thinking changes neither result. */
  lemma {:induction false} OtherBlocksIgnored(blocks: seq<Block>)
    ensures Texts(CountedOnly(blocks)) == Texts(blocks)
    ensures Thoughts(CountedOnly(blocks)) == Thoughts(blocks)
  {
    if |blocks| > 0 {
      var n := |blocks| - 1;
      OtherBlocksIgnored(blocks[..n]);
      var init := CountedOnly(blocks[..n]);
      if Counted(blocks[n]) {
        assert (init + [blocks[n]])[..|init|] == init;
      }
    }
  }

  /** `_extract_anthropic_response`. */
  method ExtractAnthropic(blocks: seq<Block>) returns (text: string, thinking: seq<string>)
    ensures text == Texts(blocks) && thinking == Thoughts(blocks)
  {
    text, thinking := "", [];
    var i := 0;
    while i < |blocks|
      invariant 0 <= i <= |blocks|
      invariant text == Texts(blocks[..i]) && thinking == Thoughts(blocks[..i])
    {
      var b := blocks[i];
      assert blocks[..i + 1][..i] == blocks[..i];
      if b.kind == Some("thinking") {
        thinking := thinking + [b.thinking.GetOr("")];
      } else if b.kind == Some("text") {
        text := text + b.text.GetOr("");
      }
      i := i + 1;
    }
    assert blocks[..i] == blocks;
  }

  // ---------------------------------------------------------------------
  // OpenRouter chat format
  // ---------------------------------------------------------------------

  const OpenRouterError := "Error: Could not parse OpenRouter response."

  datatype Message = Message(content: Option<string>)

  /** The decoded reply: `choices` (each with its optional `message`) and a
      top-level `message`, each `None` when absent. */
  datatype OpenRouterReply = OpenRouterReply(choices: Option<seq<Option<Message>>>, message: Option<Message>)

  function ContentOf(m: Option<Message>): string {
    if m.Some? then m.value.content.GetOr("") else ""
  }

  /** `_extract_openrouter_response`. */
  function ExtractOpenRouter(d: OpenRouterReply): (r: string)
    ensures var first := if d.choices.Some? && |d.choices.value| > 0 then ContentOf(d.choices.value[0]) else "";
      && (first != "" ==> r == first)
      && (first == "" && d.message.Some? ==> r == ContentOf(d.message))
      && (first == "" && d.message.None? ==> r == OpenRouterError)
  {
    if d.choices.Some? && |d.choices.value| > 0 && ContentOf(d.choices.value[0]) != "" then
      ContentOf(d.choices.value[0])
    else if d.message.Some? then ContentOf(d.message)
    else OpenRouterError
  }

  // ---------------------------------------------------------------------
  // Extended thinking
  // ---------------------------------------------------------------------

  const ThinkingHeadroom := 16000

  /** The `max_tokens <= thinking_budget` adjustment. */
  function GuardMaxTokens(maxTokens: int, budget: int): (r: int)
    ensures r > budget && r >= maxTokens
    ensures r == maxTokens <==> maxTokens > budget
    ensures r != maxTokens ==> r == budget + ThinkingHeadroom
  {
    if maxTokens <= budget then budget + ThinkingHeadroom else maxTokens
  }

  lemma GuardIdempotent(maxTokens: int, budget: int)
    ensures GuardMaxTokens(GuardMaxTokens(maxTokens, budget), budget) == GuardMaxTokens(maxTokens, budget)
  {
  }

  /** The token fields of a request with extended thinking enabled. */
  datatype ThinkingPayload = ThinkingPayload(maxTokens: int, budgetTokens: int)

  /** The Messages API takes a thinking request only when max_tokens exceeds the budget. */
  predicate Acceptable(p: ThinkingPayload) {
    p.maxTokens > p.budgetTokens
  }

  /** `research_anthropic` as written: stage 2 of two-stage mode is
      guarded, the single-mode payload is not. */
  function ResearchPayloadAsWritten(mode: string, maxTokens: int, budget: int): (r: ThinkingPayload)
    ensures r.budgetTokens == budget
    ensures mode == "two-stage" ==> Acceptable(r)
    ensures mode != "two-stage" ==> r.maxTokens == maxTokens
  {
    if mode == "two-stage" then ThinkingPayload(GuardMaxTokens(maxTokens, budget), budget)
    else ThinkingPayload(maxTokens, budget)
  }

  /** Single mode with a budget above max_tokens sends a request the API refuses. */
  lemma SingleModeUnguarded()
    ensures !Acceptable(ResearchPayloadAsWritten("single", 10000, 32000))
  {
  }

  /** `research_anthropic` with the guard applied in both modes. */
  function ResearchPayload(mode: string, maxTokens: int, budget: int): (r: ThinkingPayload)
    ensures Acceptable(r) && r.budgetTokens == budget
    ensures maxTokens > budget ==> r.maxTokens == maxTokens
  {
    ThinkingPayload(GuardMaxTokens(maxTokens, budget), budget)
  }

  /** The two versions differ only where the written one is refused. */
  lemma ResearchPayloadAgrees(mode: string, maxTokens: int, budget: int)
    ensures Acceptable(ResearchPayloadAsWritten(mode, maxTokens, budget))
            ==> ResearchPayload(mode, maxTokens, budget) == ResearchPayloadAsWritten(mode, maxTokens, budget)
  {
  }

  /** `deep_reasoning_anthropic` adjusts max_tokens before building its payload. */
  function DeepReasoningPayload(maxTokens: int, budget: int): (r: ThinkingPayload)
    ensures Acceptable(r) && r.budgetTokens == budget
    ensures maxTokens > budget ==> r.maxTokens == maxTokens
  {
    var adjusted := if maxTokens <= budget then budget + ThinkingHeadroom else maxTokens;
    ThinkingPayload(adjusted, budget)
  }

  // ---------------------------------------------------------------------
  // Styles, reasoning configuration, timeouts
  // ---------------------------------------------------------------------

  const AnalyticalPrompt := "You are a thorough research analyst. Provide detailed, well-structured \nanalysis with clear sections. Include data, statistics, and citations when available.\nFocus on accuracy and comprehensiveness."
  const ConcisePrompt := "You are a research summarizer. Provide clear, concise insights focused \non key findings. Use bullet points and short paragraphs. Prioritize actionable information."
  const CreativePrompt := "You are a creative research consultant. Present findings in engaging, \nnarrative-driven format. Use analogies and storytelling while maintaining accuracy."
  const ReportPrompt := "You are a professional report writer. Structure output as a formal report\nwith executive summary, methodology, findings, and recommendations sections."

  const StylePresets: map<string, string> := map[
    "analytical" := AnalyticalPrompt,
    "concise" := ConcisePrompt,
    "creative" := CreativePrompt,
    "report" := ReportPrompt]

  /** `STYLE_PRESETS.get(style, STYLE_PRESETS["analytical"])`. */
  function SystemPrompt(style: string): (r: string)
    ensures style in StylePresets ==> r == StylePresets[style]
    ensures style !in StylePresets ==> r == AnalyticalPrompt
    ensures r in StylePresets.Values
  {
    if style in StylePresets then StylePresets[style] else StylePresets["analytical"]
  }

  /** The OpenRouter `reasoning` object. */
  function ReasoningConfig(effort: string, reasoningMaxTokens: Option<int>, model: string): (r: map<string, Json>)
    ensures "effort" in r && r["effort"] == JStr(effort)
    ensures "max_tokens" in r <==>
      reasoningMaxTokens.Some? && reasoningMaxTokens.value != 0 && Text.Contains(Text.Lower(model), "claude")
    ensures "max_tokens" in r ==> r["max_tokens"] == JNum(reasoningMaxTokens.value as real)
    ensures r.Keys <= {"effort", "max_tokens"}
  {
    var config := map["effort" := JStr(effort)];
    if reasoningMaxTokens.Some? && reasoningMaxTokens.value != 0 && Text.Contains(Text.Lower(model), "claude") then
      config["max_tokens" := JNum(reasoningMaxTokens.value as real)]
    else config
  }

  /** The single-mode request timeout in seconds for OpenAI and OpenRouter. */
  function SingleModeTimeout(effort: string): (r: nat)
    ensures r == 300 <==> effort == "high" || effort == "xhigh"
    ensures r != 300 ==> r == 120
  {
    if effort in ["high", "xhigh"] then 300 else 120
  }

  // ---------------------------------------------------------------------
  // ResearchResult
  // ---------------------------------------------------------------------

  datatype ResearchResult = ResearchResult(
    success: bool,
    response: Option<string>,
    thinking: Option<seq<string>>,
    searchResults: Option<seq<Json>>,
    error: Option<string>,
    provider: string,
    model: string,
    usage: Option<map<string, Json>>,
    warnings: seq<string>)

  const RequiredKeys: set<string> := {"success", "response", "error", "provider", "model"}
  const OptionalKeys: set<string> := {"thinking", "search_results", "usage", "warnings"}

  function OptStr(s: Option<string>): Json {
    if s.Some? then JStr(s.value) else JNull
  }

  predicate HasThinking(r: ResearchResult) { r.thinking.Some? && |r.thinking.value| > 0 }
  predicate HasSearch(r: ResearchResult) { r.searchResults.Some? && |r.searchResults.value| > 0 }
  predicate HasUsage(r: ResearchResult) { r.usage.Some? && |r.usage.value| > 0 }

  /** `ResearchResult.to_dict`. */
  function ToDict(r: ResearchResult): (d: map<string, Json>)
    ensures RequiredKeys <= d.Keys <= RequiredKeys + OptionalKeys
    ensures "thinking" in d <==> HasThinking(r)
    ensures "search_results" in d <==> HasSearch(r)
    ensures "usage" in d <==> HasUsage(r)
    ensures "warnings" in d <==> |r.warnings| > 0
  {
    var base := map[
      "success" := JBool(r.success),
      "response" := OptStr(r.response),
      "error" := OptStr(r.error),
      "provider" := JStr(r.provider),
      "model" := JStr(r.model)];
    var d1 := if HasThinking(r) then base["thinking" := Strs(r.thinking.value)] else base;
    var d2 := if HasSearch(r) then d1["search_results" := JArr(r.searchResults.value)] else d1;
    var d3 := if HasUsage(r) then d2["usage" := JObj(r.usage.value)] else d2;
    if |r.warnings| > 0 then d3["warnings" := Strs(r.warnings)] else d3
  }

  /** What `to_dict` keeps of a result: empty optional lists and dicts are dropped. */
  function Visible(r: ResearchResult): ResearchResult {
    r.(thinking := if HasThinking(r) then r.thinking else None,
       searchResults := if HasSearch(r) then r.searchResults else None,
       usage := if HasUsage(r) then r.usage else None)
  }

  function ReadStr(v: Json): Option<string> {
    if v.JStr? then Some(v.s) else None
  }

  function ReadStrs(items: seq<Json>): (r: seq<string>)
    ensures |r| == |items|
  {
    if |items| == 0 then []
    else [if items[0].JStr? then items[0].s else ""] + ReadStrs(items[1..])
  }

  lemma {:induction false} ReadStrsOfStrs(xs: seq<string>)
    ensures ReadStrs(Strs(xs).items) == xs
  {
    var items := Strs(xs).items;
    if |xs| > 0 {
      ReadStrsOfStrs(xs[1..]);
      assert Strs(xs[1..]).items == items[1..];
    }
  }

  /** Reads a result back from its dictionary. */
  function FromDict(d: map<string, Json>): ResearchResult
    requires RequiredKeys <= d.Keys
  {
    ResearchResult(
      d["success"].JBool? && d["success"].b,
      ReadStr(d["response"]),
      if "thinking" in d && d["thinking"].JArr? then Some(ReadStrs(d["thinking"].items)) else None,
      if "search_results" in d && d["search_results"].JArr? then Some(d["search_results"].items) else None,
      ReadStr(d["error"]),
      if d["provider"].JStr? then d["provider"].s else "",
      if d["model"].JStr? then d["model"].s else "",
      if "usage" in d && d["usage"].JObj? then Some(d["usage"].fields) else None,
      if "warnings" in d && d["warnings"].JArr? then ReadStrs(d["warnings"].items) else [])
  }

  /** The dictionary carries everything `to_dict` keeps. */
  lemma ToDictRoundTrip(r: ResearchResult)
    ensures FromDict(ToDict(r)) == Visible(r)
  {
    var d := ToDict(r);
    if HasThinking(r) {
      ReadStrsOfStrs(r.thinking.value);
    }
    ReadStrsOfStrs(r.warnings);
  }
}

=== FILE: settings.dfy ===
/** The settings document of the main window: its defaults
    (`_get_default_settings`) and the normalisation applied to a loaded
    document (`_validate_settings`). The document is whatever `json.load`
    produced, so the Python operators the normalisation applies to it are
    modelled with the exceptions they raise on values of the wrong type. */
module Settings {
  import opened Wrappers
  import opened Json
  import Text

  /** `AppConfig.TAB_COUNT`: the number of input and output tabs. */
  const TabCount: nat := 7
  /** `AppConfig.TONE_FREQUENCY`, the Morse tone in hertz. */
  const ToneFrequency: real := 700.0

  const InputTabsKey := "input_tabs"
  const OutputTabsKey := "output_tabs"
  const ToolSettingsKey := "tool_settings"
  const ModelsKey := "MODELS_LIST"

  // ---------------------------------------------------------------------
  // Python operators on JSON values (string operands only)
  // ---------------------------------------------------------------------

  /** `needle in v`. */
  function PyIn(needle: string, v: Json): Result<bool> {
    match v
    case JObj(m) => Ok(needle in m)
    case JArr(xs) => Ok(JStr(needle) in xs)
    case JStr(s) => Ok(Text.Contains(s, needle))
    case _ => Raised("argument of type '" + TypeName(v) + "' is not iterable")
  }

  /** `v[key]`; a missing dict key raises `KeyError`, whose message is the key's repr. */
  function GetItem(v: Json, key: string): Result<Json> {
    match v
    case JObj(m) => if key in m then Ok(m[key]) else Raised("'" + key + "'")
    case JArr(_) => Raised("list indices must be integers or slices, not str")
    case JStr(_) => Raised("string indices must be integers, not 'str'")
    case _ => Raised("'" + TypeName(v) + "' object is not subscriptable")
  }

  /** `v[key] = value`, as the updated value. */
  function SetItem(v: Json, key: string, value: Json): Result<Json> {
    match v
    case JObj(m) => Ok(JObj(m[key := value]))
    case JArr(_) => Raised("list indices must be integers or slices, not str")
    case _ => Raised("'" + TypeName(v) + "' object does not support item assignment")
  }

  /** `len(v)`. */
  function Len(v: Json): Result<nat> {
    match v
    case JStr(s) => Ok(|s|)
    case JArr(xs) => Ok(|xs|)
    case JObj(m) => Ok(|m|)
    case _ => Raised("object of type '" + TypeName(v) + "' has no len()")
  }

  predicate HasLen(v: Json) {
    v.JStr? || v.JArr? || v.JObj?
  }

  /** `"MODELS_LIST" in v` holds. */
  predicate HasModels(v: Json) {
    PyIn(ModelsKey, v) == Ok(true)
  }

  // ---------------------------------------------------------------------
  // Defaults
  // ---------------------------------------------------------------------

  /** `[""] * AppConfig.TAB_COUNT`. */
  const BlankTabs: Json := JArr(Blanks(TabCount))

  function Blanks(n: nat): (r: seq<Json>)
    ensures |r| == n && forall i :: 0 <= i < n ==> r[i] == JStr("")
  {
    if n == 0 then [] else Blanks(n - 1) + [JStr("")]
  }

  const Helpful := JStr("You are a helpful assistant.")

  /** The per-tool defaults, in the order the Python dict literal lists them. */
  const DefaultTools: seq<(string, Json)> := [
    ("Case Tool", JObj(map[
      "mode" := JStr("Sentence"),
      "exclusions" := JStr("a\nan\nand\nas\nat\nbut\nby\nen\nfor\nif\nin\nis\nof\non\nor\nthe\nto\nvia\nvs")])),
    ("Morse Code Translator", JObj(map["mode" := JStr("morse"), "tone" := JNum(ToneFrequency)])),
    ("Base64 Encoder/Decoder", JObj(map["mode" := JStr("encode")])),
    ("Number Sorter", JObj(map["order" := JStr("ascending")])),
    ("Find & Replace Text", JObj(map[
      "find" := JStr(""), "replace" := JStr(""), "mode" := JStr("Text"), "option" := JStr("ignore_case")])),
    ("Repeating Text Generator", JObj(map["times" := JNum(5.0), "separator" := JStr("+")])),
    ("Alphabetical Sorter", JObj(map[
      "order" := JStr("ascending"), "unique_only" := JBool(false), "trim" := JBool(false)])),
    ("Strong Password Generator", JObj(map["length" := JNum(20.0), "numbers" := JStr(""), "symbols" := JStr("")])),
    ("URL Parser", JObj(map["ascii_decode" := JBool(true)])),
    ("Google AI", JObj(map[
      "API_KEY" := JStr("putinyourkey"), "MODEL" := JStr("gemini-1.5-pro-latest"),
      "MODELS_LIST" := Strs(["gemini-1.5-pro-latest", "gemini-1.5-flash-latest", "gemini-1.0-pro"]),
      "system_prompt" := Helpful,
      "temperature" := JNum(0.7), "topK" := JNum(40.0), "topP" := JNum(0.95), "candidateCount" := JNum(1.0),
      "maxOutputTokens" := JNum(8192.0), "stopSequences" := JStr("")])),
    ("Anthropic AI", JObj(map[
      "API_KEY" := JStr("putinyourkey"), "MODEL" := JStr("claude-3-5-sonnet-20240620"),
      "MODELS_LIST" := Strs(["claude-3-5-sonnet-20240620", "claude-3-opus-20240229", "claude-3-sonnet-20240229", "claude-3-haiku-20240307"]),
      "system" := Helpful, "max_tokens" := JNum(4096.0), "temperature" := JNum(0.7), "top_p" := JNum(0.9),
      "top_k" := JNum(40.0), "stop_sequences" := JStr("")])),
    ("OpenAI", JObj(map[
      "API_KEY" := JStr("putinyourkey"), "MODEL" := JStr("gpt-4o"),
      "MODELS_LIST" := Strs(["gpt-4o", "gpt-4-turbo", "gpt-3.5-turbo", "gpt-4o-mini"]),
      "system_prompt" := Helpful, "temperature" := JNum(0.7), "max_tokens" := JNum(4096.0), "top_p" := JNum(1.0),
      "frequency_penalty" := JNum(0.0), "presence_penalty" := JNum(0.0), "seed" := JStr(""),
      "response_format" := JStr("text"), "stop" := JStr("")])),
    ("Cohere AI", JObj(map[
      "API_KEY" := JStr("putinyourkey"), "MODEL" := JStr("command-r-plus"),
      "MODELS_LIST" := Strs(["command-r-plus", "command-r", "command", "command-light"]),
      "preamble" := Helpful, "temperature" := JNum(0.7), "max_tokens" := JNum(4000.0), "k" := JNum(50.0),
      "p" := JNum(0.75), "frequency_penalty" := JNum(0.0), "presence_penalty" := JNum(0.0),
      "stop_sequences" := JStr(""), "citation_quality" := JStr("accurate")])),
    ("HuggingFace AI", JObj(map[
      "API_KEY" := JStr("putinyourkey"), "MODEL" := JStr("meta-llama/Meta-Llama-3-8B-Instruct"),
      "MODELS_LIST" := Strs(["meta-llama/Meta-Llama-3-8B-Instruct", "mistralai/Mistral-7B-Instruct-v0.2", "google/gemma-7b-it"]),
      "system_prompt" := Helpful, "max_tokens" := JNum(4096.0), "temperature" := JNum(0.7), "top_p" := JNum(0.95),
      "stop_sequences" := JStr(""), "seed" := JStr("")])),
    ("Groq AI", JObj(map[
      "API_KEY" := JStr("putinyourkey"), "MODEL" := JStr("llama3-70b-8192"),
      "MODELS_LIST" := Strs(["llama3-70b-8192", "mixtral-8x7b-32768", "gemma2-9b-it"]),
      "system_prompt" := Helpful, "temperature" := JNum(0.7), "max_tokens" := JNum(8192.0), "top_p" := JNum(1.0),
      "frequency_penalty" := JNum(0.0), "presence_penalty" := JNum(0.0), "stop" := JStr(""), "seed" := JStr(""),
      "response_format" := JStr("text")])),
    ("OpenRouterAI", JObj(map[
      "API_KEY" := JStr("putinyourkey"), "MODEL" := JStr("anthropic/claude-3.5-sonnet"),
      "MODELS_LIST" := Strs(["anthropic/claude-3.5-sonnet", "google/gemini-flash-1.5:free", "meta-llama/llama-3-8b-instruct:free", "openai/gpt-4o-mini"]),
      "system_prompt" := Helpful, "temperature" := JNum(0.7), "max_tokens" := JNum(4096.0), "top_p" := JNum(1.0),
      "top_k" := JNum(0.0), "frequency_penalty" := JNum(0.0), "presence_penalty" := JNum(0.0),
      "repetition_penalty" := JNum(1.0), "seed" := JStr(""), "stop" := JStr("")])),
    ("Diff Viewer", JObj(map["option" := JStr("ignore_case")]))
  ]

  /** A dict built from key/value pairs; a later pair overrides an earlier one. */
  function ToMap(kvs: seq<(string, Json)>): (m: map<string, Json>)
    ensures forall i :: 0 <= i < |kvs| ==> kvs[i].0 in m
    ensures forall k :: k in m ==> exists i :: 0 <= i < |kvs| && kvs[i].0 == k && m[k] == kvs[i].1
    decreases |kvs|
  {
    if |kvs| == 0 then map[]
    else
      var init := ToMap(kvs[..|kvs| - 1]);
      assert forall i :: 0 <= i < |kvs| - 1 ==> kvs[..|kvs| - 1][i] == kvs[i];
      init[kvs[|kvs| - 1].0 := kvs[|kvs| - 1].1]
  }

  const DefaultToolSettings: Json := JObj(ToMap(DefaultTools))

  /** `_get_default_settings()`; the export path (the user's Downloads folder)
      comes from the environment and is a parameter. */
  function DefaultSettings(exportPath: string): Json {
    JObj(map[
      "export_path" := JStr(exportPath),
      "debug_level" := JStr("INFO"),
      "selected_tool" := JStr("Case Tool"),
      InputTabsKey := BlankTabs,
      OutputTabsKey := BlankTabs,
      "active_input_tab" := JNum(0.0),
      "active_output_tab" := JNum(0.0),
      ToolSettingsKey := DefaultToolSettings])
  }

  // ---------------------------------------------------------------------
  // _validate_settings
  // ---------------------------------------------------------------------

  /** `if key not in settings: settings[key] = default`. */
  function FillKey(s: Json, key: string, default: Json): Result<Json> {
    match PyIn(key, s)
    case Raised(e) => Raised(e)
    case Ok(present) => if present then Ok(s) else SetItem(s, key, default)
  }

  /** `if len(settings.get(key, [])) != TAB_COUNT: settings[key] = [""] * TAB_COUNT`. */
  function FixTabs(s: Json, key: string): Result<Json> {
    match Get(s, key, JArr([]))
    case Raised(e) => Raised(e)
    case Ok(v) =>
      match Len(v)
      case Raised(e) => Raised(e)
      case Ok(n) => if n != TabCount then SetItem(s, key, BlankTabs) else Ok(s)
  }

  /** What the model-list restoration accepts at a tool's name: no entry,
      a dict, or a value that already contains "MODELS_LIST". */
  predicate EntryOk(ts: map<string, Json>, name: string) {
    name !in ts || ts[name].JObj? || HasModels(ts[name])
  }

  predicate EntriesOk(ts: Json, names: seq<string>) {
    ts.JObj? && forall i :: 0 <= i < |names| ==> EntryOk(ts.fields, names[i])
  }

  /** The restoration has happened at every name. */
  predicate Restored(ts: Json, names: seq<string>) {
    ts.JObj? && forall i :: 0 <= i < |names| ==> names[i] in ts.fields && HasModels(ts.fields[names[i]])
  }

  predicate HasToolSettings(s: Json) {
    s.JObj? && ToolSettingsKey in s.fields
  }

  /** `settings["tool_settings"]`. */
  function Tools(s: Json): Json
    requires HasToolSettings(s)
  {
    s.fields[ToolSettingsKey]
  }

  /** The body of the backward-compatibility loop for one default tool whose
      defaults carry a model list: when the user's tool settings have no
      entry for it, or an entry without "MODELS_LIST", the default list is
      written into that entry (created as `{}` when missing). */
  function RestoreOne(s: Json, name: string, models: Json): (r: Result<Json>)
    requires HasToolSettings(s)
    ensures r.Ok? <==> Tools(s).JObj? && EntryOk(Tools(s).fields, name)
    ensures r.Ok? ==> HasToolSettings(r.value) && r.value.fields == s.fields[ToolSettingsKey := Tools(r.value)]
    ensures r.Ok? ==> Tools(r.value).JObj? && Tools(r.value).fields.Keys == Tools(s).fields.Keys + {name}
    ensures r.Ok? ==> HasModels(Tools(r.value).fields[name])
    ensures r.Ok? ==> forall k :: k in Tools(s).fields && k != name ==> Tools(r.value).fields[k] == Tools(s).fields[k]
    ensures r.Ok? && name in Tools(s).fields && HasModels(Tools(s).fields[name]) ==> r.value == s
  {
    var ts := s.fields[ToolSettingsKey];
    match PyIn(name, ts)
    case Raised(e) => Raised(e)
    case Ok(present) =>
      var has := if present then (match GetItem(ts, name)
        case Raised(e) => Raised(e)
        case Ok(entry) => PyIn(ModelsKey, entry)) else Ok(false);
      match has
      case Raised(e) => Raised(e)
      case Ok(h) =>
        if h then Ok(s)
        else
          var ts1 := if present then Ok(ts) else SetItem(ts, name, JObj(map[]));
          match ts1
          case Raised(e) => Raised(e)
          case Ok(t1) =>
            match GetItem(t1, name)
            case Raised(e) => Raised(e)
            case Ok(entry) =>
              match SetItem(entry, ModelsKey, models)
              case Raised(e) => Raised(e)
              case Ok(entry') =>
                match SetItem(t1, name, entry')
                case Raised(e) => Raised(e)
                case Ok(t2) => Ok(JObj(s.fields[ToolSettingsKey := t2]))
  }

  /** The names, in order, of the tools whose defaults carry a model list. */
  function ModelNames(tools: seq<(string, Json)>): (r: seq<string>)
    ensures forall i :: 0 <= i < |r| ==> exists j :: 0 <= j < |tools| && tools[j].0 == r[i] && HasModels(tools[j].1)
    ensures forall j :: 0 <= j < |tools| && HasModels(tools[j].1) ==> tools[j].0 in r
    decreases |tools|
  {
    if |tools| == 0 then []
    else
      var rest := ModelNames(tools[1..]);
      assert forall j :: 1 <= j < |tools| ==> tools[1..][j - 1] == tools[j];
      (if HasModels(tools[0].1) then [tools[0].0] else []) + rest
  }

  /** What the backward-compatibility loop over tools whose names with a
      model list are `names` does to `s`: it fails exactly when some entry
      it must touch has the wrong type; otherwise every such tool ends up
      with a model list, and nothing else changes. */
  predicate Restoration(s: Json, names: seq<string>, r: Result<Json>)
    requires HasToolSettings(s)
  {
    && (r.Ok? <==> |names| == 0 || EntriesOk(Tools(s), names))
    && (r.Ok? ==>
      && HasToolSettings(r.value)
      && r.value.fields == s.fields[ToolSettingsKey := Tools(r.value)]
      && (|names| == 0 || Restored(Tools(s), names) ==> r.value == s)
      && (|names| > 0 ==> Restored(Tools(r.value), names))
      && (Tools(s).JObj? ==> Tools(r.value).JObj? && Untouched(Tools(s), Tools(r.value), names)))
  }

  /** Every entry of `ts` outside `names` is still in `ts'`, unchanged. */
  predicate Untouched(ts: Json, ts': Json, names: seq<string>)
    requires ts.JObj? && ts'.JObj?
  {
    forall k :: k in ts.fields && k !in names ==> k in ts'.fields && ts'.fields[k] == ts.fields[k]
  }

  /** The backward-compatibility loop over the default tools. */
  function RestoreModels(s: Json, tools: seq<(string, Json)>): (r: Result<Json>)
    requires HasToolSettings(s)
    requires forall i :: 0 <= i < |tools| ==> tools[i].1.JObj?
    ensures Restoration(s, ModelNames(tools), r)
    decreases |tools|
  {
    if |tools| == 0 then Ok(s)
    else
      var name, data := tools[0].0, tools[0].1;
      var rest := ModelNames(tools[1..]);
      if HasModels(data) then
        assert ModelNames(tools) == [name] + rest;
        match RestoreOne(s, name, data.fields[ModelsKey])
        case Raised(e) => Raised(e)
        case Ok(s') =>
          var r := RestoreModels(s', tools[1..]);
          RestoreStep(s, name, data.fields[ModelsKey], s', rest, r);
          r
      else
        assert ModelNames(tools) == rest;
        RestoreModels(s, tools[1..])
  }

  lemma RestoreStep(s: Json, name: string, models: Json, s': Json, rest: seq<string>, r: Result<Json>)
    requires HasToolSettings(s) && RestoreOne(s, name, models) == Ok(s')
    requires HasToolSettings(s') && Restoration(s', rest, r)
    ensures Restoration(s, [name] + rest, r)
  {
    var ts, ts' := Tools(s), Tools(s');
    var names := [name] + rest;
    assert names[0] == name;
    assert EntryOk(ts.fields, name);
    if |rest| == 0 {
      assert r == Ok(s');
    } else {
      if Restored(ts, names) {
        assert s' == s;
        assert Restored(ts', rest) by {
          assert forall i :: 0 <= i < |rest| ==> rest[i] == names[i + 1];
        }
      }
      StepKeepsEntries(ts, ts', name, rest);
      if r.Ok? {
        var ts'' := Tools(r.value);
        assert name in ts''.fields && HasModels(ts''.fields[name]) by {
          if name !in rest {
            assert ts''.fields[name] == ts'.fields[name];
          }
        }
        assert Untouched(ts, ts'', names) by {
          forall k | k in ts.fields && k !in names
            ensures k in ts''.fields && ts''.fields[k] == ts.fields[k]
          {
            assert ts'.fields[k] == ts.fields[k];
          }
        }
      }
    }
  }

  /** One restoration step keeps the acceptance condition of the names after it. */
  lemma StepKeepsEntries(ts: Json, ts': Json, name: string, rest: seq<string>)
    requires ts.JObj? && ts'.JObj? && EntryOk(ts.fields, name)
    requires ts'.fields.Keys == ts.fields.Keys + {name} && HasModels(ts'.fields[name])
    requires forall k :: k in ts.fields && k != name ==> ts'.fields[k] == ts.fields[k]
    ensures EntriesOk(ts', rest) <==> EntriesOk(ts, [name] + rest)
  {
    forall i | 0 <= i < |rest|
      ensures EntryOk(ts'.fields, rest[i]) <==> EntryOk(ts.fields, rest[i])
    {
      if rest[i] != name {
        assert rest[i] in ts'.fields <==> rest[i] in ts.fields;
      }
    }
    var names := [name] + rest;
    assert names[0] == name;
    assert forall i :: 1 <= i < |names| ==> names[i] == rest[i - 1];
    if EntriesOk(ts', rest) {
      forall i | 0 <= i < |names|
        ensures EntryOk(ts.fields, names[i])
      {
        if i > 0 {
          assert EntryOk(ts'.fields, rest[i - 1]);
        }
      }
    }
    if EntriesOk(ts, names) {
      forall i | 0 <= i < |rest|
        ensures EntryOk(ts'.fields, rest[i])
      {
        assert EntryOk(ts.fields, names[i + 1]);
      }
    }
  }

  const RequiredKeys := {InputTabsKey, OutputTabsKey, ToolSettingsKey}

  /** Tool defaults as `_get_default_settings` lays them out: every tool's
      settings are a dict, and at least one carries a model list. */
  predicate WellFormedDefaults(tools: seq<(string, Json)>) {
    (forall i :: 0 <= i < |tools| ==> tools[i].1.JObj?) && |ModelNames(tools)| > 0
  }

  /** The documents the normalisation accepts without raising, where `names`
      are the tools that must end up with a model list. */
  predicate Acceptable(s: Json, names: seq<string>) {
    && s.JObj?
    && (InputTabsKey in s.fields ==> HasLen(s.fields[InputTabsKey]))
    && (OutputTabsKey in s.fields ==> HasLen(s.fields[OutputTabsKey]))
    && (ToolSettingsKey in s.fields ==> EntriesOk(s.fields[ToolSettingsKey], names))
  }

  /** A document in the shape the normalisation establishes. */
  predicate Normalized(s: Json, names: seq<string>) {
    && s.JObj? && RequiredKeys <= s.fields.Keys
    && Len(s.fields[InputTabsKey]) == Ok(TabCount)
    && Len(s.fields[OutputTabsKey]) == Ok(TabCount)
    && Restored(s.fields[ToolSettingsKey], names)
  }

  /** The tab list at `key` was kept when it had `TAB_COUNT` entries and
      replaced by blank tabs otherwise. */
  predicate TabsFixed(s: Json, r: Json, key: string)
    requires s.JObj? && r.JObj? && key in r.fields
  {
    r.fields[key] == if key in s.fields then Fixed(s.fields[key]) else BlankTabs
  }

  /** The first loop of `_validate_settings`: each required key missing
      from a dict is filled from the defaults. A value that is not a dict
      either raises here or passes through unchanged. */
  function FillDefaults(s: Json, toolDefaults: Json): (r: Result<Json>)
    ensures s.JObj? ==> r.Ok? && r.value.JObj? && r.value.fields.Keys == s.fields.Keys + RequiredKeys
    ensures s.JObj? ==> forall k :: k in s.fields ==> r.value.fields[k] == s.fields[k]
    ensures s.JObj? && InputTabsKey !in s.fields ==> r.value.fields[InputTabsKey] == BlankTabs
    ensures s.JObj? && OutputTabsKey !in s.fields ==> r.value.fields[OutputTabsKey] == BlankTabs
    ensures s.JObj? && ToolSettingsKey !in s.fields ==> r.value.fields[ToolSettingsKey] == toolDefaults
    ensures !s.JObj? && r.Ok? ==> r.value == s
  {
    match FillKey(s, InputTabsKey, BlankTabs)
    case Raised(e) => Raised(e)
    case Ok(s1) =>
      match FillKey(s1, OutputTabsKey, BlankTabs)
      case Raised(e) => Raised(e)
      case Ok(s2) => FillKey(s2, ToolSettingsKey, toolDefaults)
  }

  /** The two tab-length checks of `_validate_settings`. */
  function FixAllTabs(s: Json): (r: Result<Json>)
    ensures !s.JObj? ==> r.Raised?
    ensures s.JObj? && InputTabsKey in s.fields && OutputTabsKey in s.fields ==>
      (r.Ok? <==> HasLen(s.fields[InputTabsKey]) && HasLen(s.fields[OutputTabsKey]))
    ensures s.JObj? && InputTabsKey in s.fields && OutputTabsKey in s.fields && r.Ok? ==>
      r.value == JObj(s.fields[InputTabsKey := Fixed(s.fields[InputTabsKey])][OutputTabsKey := Fixed(s.fields[OutputTabsKey])])
  {
    match FixTabs(s, InputTabsKey)
    case Raised(e) => Raised(e)
    case Ok(s4) =>
      if s.JObj? && InputTabsKey in s.fields then
        FixTabsDict(s, InputTabsKey);
        if OutputTabsKey in s.fields then FixTabsDict(s4, OutputTabsKey); FixTabs(s4, OutputTabsKey)
        else FixTabs(s4, OutputTabsKey)
      else FixTabs(s4, OutputTabsKey)
  }

  /** A tab list with `TAB_COUNT` entries is kept; any other is replaced. */
  function Fixed(tabs: Json): Json {
    if Len(tabs) == Ok(TabCount) then tabs else BlankTabs
  }

  /** `_validate_settings` against the given per-tool defaults. */
  function ValidateWith(s: Json, tools: seq<(string, Json)>): Result<Json>
    requires forall i :: 0 <= i < |tools| ==> tools[i].1.JObj?
  {
    match FillDefaults(s, JObj(ToMap(tools)))
    case Raised(e) => Raised(e)
    case Ok(s3) =>
      match FixAllTabs(s3)
      case Raised(e) => Raised(e)
      case Ok(s5) =>
        if HasToolSettings(s5) then RestoreModels(s5, tools)
        else Raised("'" + ToolSettingsKey + "'")
  }

  /** `_validate_settings(settings)`: the settings it leaves behind, or the
      exception it raises on a document of the wrong shape. */
  function ValidateSettings(s: Json): Result<Json> {
    DefaultToolsAreDicts();
    ValidateWith(s, DefaultTools)
  }

  lemma FixTabsDict(s: Json, key: string)
    requires s.JObj? && key in s.fields
    ensures FixTabs(s, key).Ok? <==> HasLen(s.fields[key])
    ensures FixTabs(s, key).Ok? ==> FixTabs(s, key) == Ok(JObj(s.fields[key := Fixed(s.fields[key])]))
  {
    if Len(s.fields[key]) == Ok(TabCount) {
      assert s.fields[key := s.fields[key]] == s.fields;
    }
  }

  /** The restoration accepts a dict built from tool defaults that are all
      dicts: every name it touches holds a dict. */
  lemma DictsEntriesOk(tools: seq<(string, Json)>)
    requires forall i :: 0 <= i < |tools| ==> tools[i].1.JObj?
    ensures EntriesOk(JObj(ToMap(tools)), ModelNames(tools))
  {
    ToMapDicts(tools);
    AllEntriesOk(ToMap(tools), ModelNames(tools));
  }

  lemma AllEntriesOk(m: map<string, Json>, names: seq<string>)
    requires forall k :: k in m ==> m[k].JObj?
    ensures EntriesOk(JObj(m), names)
  {
    forall i | 0 <= i < |names|
      ensures EntryOk(m, names[i])
    {
    }
  }

  lemma ToMapDicts(tools: seq<(string, Json)>)
    requires forall i :: 0 <= i < |tools| ==> tools[i].1.JObj?
    ensures forall k :: k in ToMap(tools) ==> ToMap(tools)[k].JObj?
  {
    var m := ToMap(tools);
    forall k | k in m
      ensures m[k].JObj?
    {
      var j :| 0 <= j < |tools| && tools[j].0 == k && m[k] == tools[j].1;
    }
  }

  lemma DefaultToolsAreDicts()
    ensures forall i :: 0 <= i < |DefaultTools| ==> DefaultTools[i].1.JObj?
  {
  }

  lemma DefaultToolsWellFormed()
    ensures WellFormedDefaults(DefaultTools)
  {
    DefaultToolsAreDicts();
    GoogleHasModels();
    assert DefaultTools[9].0 in ModelNames(DefaultTools);
  }

  lemma GoogleHasModels()
    ensures HasModels(DefaultTools[9].1)
  {
  }

  /** The normalisation against any well-formed tool defaults. */
  lemma ValidateWithSpec(s: Json, tools: seq<(string, Json)>)
    requires WellFormedDefaults(tools)
    ensures ValidateWith(s, tools).Ok? <==> Acceptable(s, ModelNames(tools))
    ensures ValidateWith(s, tools).Ok? ==>
      var r := ValidateWith(s, tools).value;
      && Normalized(r, ModelNames(tools))
      && r.fields.Keys == s.fields.Keys + RequiredKeys
      && (forall k :: k in s.fields && k !in RequiredKeys ==> r.fields[k] == s.fields[k])
      && TabsFixed(s, r, InputTabsKey) && TabsFixed(s, r, OutputTabsKey)
      && (ToolSettingsKey in s.fields ==>
          Untouched(s.fields[ToolSettingsKey], r.fields[ToolSettingsKey], ModelNames(tools)))
  {
    if s.JObj? {
      var s3 := FillDefaults(s, JObj(ToMap(tools))).value;
      DictsEntriesOk(tools);
      if HasLen(s3.fields[InputTabsKey]) && HasLen(s3.fields[OutputTabsKey]) {
        var s5 := FixAllTabs(s3).value;
        ValidateWithDict(s, tools, s3, s5);
        RestorationOutcome(s, s5, JObj(ToMap(tools)), ModelNames(tools), RestoreModels(s5, tools));
      }
    }
  }

  /** How the restoration's outcome on the tab-fixed document `s5` reads
      in terms of the original document `s`. */
  lemma RestorationOutcome(s: Json, s5: Json, defaults: Json, names: seq<string>, r: Result<Json>)
    requires s.JObj? && HasToolSettings(s5) && |names| > 0 && EntriesOk(defaults, names)
    requires Tools(s5) == if ToolSettingsKey in s.fields then s.fields[ToolSettingsKey] else defaults
    requires s5.fields.Keys == s.fields.Keys + RequiredKeys
    requires forall k :: k in s.fields && k !in RequiredKeys ==> s5.fields[k] == s.fields[k]
    requires TabsFixed(s, s5, InputTabsKey) && TabsFixed(s, s5, OutputTabsKey)
    requires Restoration(s5, names, r)
    ensures r.Ok? <==> (ToolSettingsKey in s.fields ==> EntriesOk(s.fields[ToolSettingsKey], names))
    ensures r.Ok? ==>
      && Normalized(r.value, names)
      && r.value.fields.Keys == s.fields.Keys + RequiredKeys
      && (forall k :: k in s.fields && k !in RequiredKeys ==> r.value.fields[k] == s.fields[k])
      && TabsFixed(s, r.value, InputTabsKey) && TabsFixed(s, r.value, OutputTabsKey)
      && (ToolSettingsKey in s.fields ==>
          Untouched(s.fields[ToolSettingsKey], r.value.fields[ToolSettingsKey], names))
  {
    if r.Ok? {
      FixedHasTabCount(s5.fields[InputTabsKey]);
      FixedHasTabCount(s5.fields[OutputTabsKey]);
    }
  }

  lemma FixedHasTabCount(tabs: Json)
    requires tabs == BlankTabs || Len(tabs) == Ok(TabCount)
    ensures Len(tabs) == Ok(TabCount)
  {
  }

  /** The last stage on a dict: what the restoration sees and leaves. */
  lemma ValidateWithDict(s: Json, tools: seq<(string, Json)>, s3: Json, s5: Json)
    requires WellFormedDefaults(tools) && s.JObj?
    requires FillDefaults(s, JObj(ToMap(tools))) == Ok(s3)
    requires FixAllTabs(s3) == Ok(s5)
    ensures HasToolSettings(s5) && ValidateWith(s, tools) == RestoreModels(s5, tools)
    ensures Tools(s5) == if ToolSettingsKey in s.fields then s.fields[ToolSettingsKey] else JObj(ToMap(tools))
    ensures s5.fields.Keys == s.fields.Keys + RequiredKeys
    ensures forall k :: k in s.fields && k !in RequiredKeys ==> s5.fields[k] == s.fields[k]
    ensures TabsFixed(s, s5, InputTabsKey) && TabsFixed(s, s5, OutputTabsKey)
  {
    FillFixShape(s, JObj(ToMap(tools)), s3, s5);
  }

  /** The document after the key-filling loop and both tab checks, for any
      tool defaults `d`. */
  lemma FillFixShape(s: Json, d: Json, s3: Json, s5: Json)
    requires s.JObj? && FillDefaults(s, d) == Ok(s3) && FixAllTabs(s3) == Ok(s5)
    ensures HasToolSettings(s5)
    ensures Tools(s5) == if ToolSettingsKey in s.fields then s.fields[ToolSettingsKey] else d
    ensures s5.fields.Keys == s.fields.Keys + RequiredKeys
    ensures forall k :: k in s.fields && k !in RequiredKeys ==> s5.fields[k] == s.fields[k]
    ensures TabsFixed(s, s5, InputTabsKey) && TabsFixed(s, s5, OutputTabsKey)
  {
  }

  /** Which documents `_validate_settings` accepts, and what it makes of them:
      the three required keys exist, both tab lists have `TAB_COUNT`
      entries (kept when they already had, blank otherwise), every default
      tool with a model list has one, and nothing else changes. */
  lemma ValidateSettingsSpec(s: Json)
    ensures ValidateSettings(s).Ok? <==> Acceptable(s, ModelNames(DefaultTools))
    ensures ValidateSettings(s).Ok? ==>
      var r := ValidateSettings(s).value;
      && Normalized(r, ModelNames(DefaultTools))
      && r.fields.Keys == s.fields.Keys + RequiredKeys
      && (forall k :: k in s.fields && k !in RequiredKeys ==> r.fields[k] == s.fields[k])
      && TabsFixed(s, r, InputTabsKey) && TabsFixed(s, r, OutputTabsKey)
      && (ToolSettingsKey in s.fields ==>
          Untouched(s.fields[ToolSettingsKey], r.fields[ToolSettingsKey], ModelNames(DefaultTools)))
  {
    DefaultToolsWellFormed();
    ValidateWithSpec(s, DefaultTools);
  }

  /** Normalising a normalised document changes nothing. */
  lemma ValidateWithIdempotent(s: Json, tools: seq<(string, Json)>)
    requires WellFormedDefaults(tools) && Normalized(s, ModelNames(tools))
    ensures ValidateWith(s, tools) == Ok(s)
  {
    var s3 := FillDefaults(s, JObj(ToMap(tools))).value;
    assert s3 == s;
    assert s.fields[InputTabsKey := Fixed(s.fields[InputTabsKey])][OutputTabsKey := Fixed(s.fields[OutputTabsKey])] == s.fields;
  }

  /** `_validate_settings` is idempotent: validating its own output changes nothing. */
  lemma ValidateSettingsIdempotent(s: Json)
    requires ValidateSettings(s).Ok?
    ensures ValidateSettings(ValidateSettings(s).value) == ValidateSettings(s)
  {
    DefaultToolsWellFormed();
    ValidateWithSpec(s, DefaultTools);
    ValidateWithIdempotent(ValidateSettings(s).value, DefaultTools);
  }
}

=== FILE: sorting.dfy ===
/** Insertion sort under a caller-supplied "may come before" relation, and
    the lexicographic string order Python uses to compare `str` values. */
module Sorting {

  ghost predicate Total<T(!new)>(le: (T, T) -> bool) {
    forall a, b :: le(a, b) || le(b, a)
  }

  ghost predicate Transitive<T(!new)>(le: (T, T) -> bool) {
    forall a, b, c :: le(a, b) && le(b, c) ==> le(a, c)
  }

  ghost predicate TotalPreorder<T(!new)>(le: (T, T) -> bool) {
    Total(le) && Transitive(le)
  }

  predicate SortedBy<T>(xs: seq<T>, le: (T, T) -> bool) {
    forall i, j :: 0 <= i < j < |xs| ==> le(xs[i], xs[j])
  }

  /** Inserts `x` in front of the first element it may precede. */
  function Insert<T(!new)>(x: T, ys: seq<T>, le: (T, T) -> bool): (r: seq<T>)
    ensures multiset(r) == multiset(ys) + multiset{x}
    ensures TotalPreorder(le) && SortedBy(ys, le) ==> SortedBy(r, le)
    decreases |ys|
  {
    if |ys| == 0 then [x]
    else if le(x, ys[0]) then [x] + ys
    else
      var rest := Insert(x, ys[1..], le);
      assert ys == [ys[0]] + ys[1..];
      assert TotalPreorder(le) && SortedBy(ys, le) ==> forall k :: 0 <= k < |rest| ==> le(ys[0], rest[k]) by {
        if TotalPreorder(le) && SortedBy(ys, le) {
          forall k | 0 <= k < |rest|
            ensures le(ys[0], rest[k])
          {
            assert rest[k] in multiset(rest);
            if rest[k] != x {
              assert rest[k] in multiset(ys[1..]);
              var j :| 0 <= j < |ys[1..]| && ys[1..][j] == rest[k];
              assert ys[j + 1] == rest[k];
            }
          }
        }
      }
      [ys[0]] + rest
  }

  /** Insertion sort: a permutation of `xs` that is ordered whenever `le`
      is a total preorder. */
  function Sort<T(!new)>(xs: seq<T>, le: (T, T) -> bool): (r: seq<T>)
    ensures multiset(r) == multiset(xs)
    ensures |r| == |xs|
    ensures TotalPreorder(le) ==> SortedBy(r, le)
    decreases |xs|
  {
    if |xs| == 0 then []
    else
      assert xs == [xs[0]] + xs[1..];
      var r := Insert(xs[0], Sort(xs[1..], le), le);
      assert |r| == |multiset(r)|;
      r
  }

  /** Python's `a <= b` on strings: code-point lexicographic order. */
  predicate LexLe(a: string, b: string)
    decreases |a|
  {
    |a| == 0 || (|b| > 0 && (a[0] < b[0] || (a[0] == b[0] && LexLe(a[1..], b[1..]))))
  }

  lemma {:induction false} LexLeTotal(a: string, b: string)
    ensures LexLe(a, b) || LexLe(b, a)
    decreases |a|
  {
    if |a| > 0 && |b| > 0 && a[0] == b[0] {
      LexLeTotal(a[1..], b[1..]);
    }
  }

  lemma {:induction false} LexLeTransitive(a: string, b: string, c: string)
    requires LexLe(a, b) && LexLe(b, c)
    ensures LexLe(a, c)
    decreases |a|
  {
    if |a| > 0 && a[0] == b[0] && b[0] == c[0] {
      LexLeTransitive(a[1..], b[1..], c[1..]);
    }
  }

  lemma LexLeTotalPreorder()
    ensures TotalPreorder(LexLe)
  {
    forall a, b ensures LexLe(a, b) || LexLe(b, a) {
      LexLeTotal(a, b);
    }
    forall a, b, c | LexLe(a, b) && LexLe(b, c) ensures LexLe(a, c) {
      LexLeTransitive(a, b, c);
    }
  }

  /** `[f(x) for x in xs]`. */
  function Map<A, B>(xs: seq<A>, f: A -> B): (r: seq<B>)
    ensures |r| == |xs|
    ensures forall i :: 0 <= i < |xs| ==> r[i] == f(xs[i])
  {
    seq(|xs|, i requires 0 <= i < |xs| => f(xs[i]))
  }

  lemma MapAppend<A, B>(a: seq<A>, b: seq<A>, f: A -> B)
    ensures Map(a + b, f) == Map(a, f) + Map(b, f)
  {
  }

  /** Mapping a permutation gives a permutation of the mapped sequence. */
  lemma {:induction false} MapPermutation<A, B>(a: seq<A>, b: seq<A>, f: A -> B)
    requires multiset(a) == multiset(b)
    ensures multiset(Map(a, f)) == multiset(Map(b, f))
    decreases |a|
  {
    if |a| > 0 {
      var n := |a|;
      var x := a[n - 1];
      var a' := a[..n - 1];
      assert x in multiset(b);
      var k :| 0 <= k < |b| && b[k] == x;
      var front, back := b[..k], b[k + 1..];
      var b' := front + back;
      assert a == a' + [x];
      assert b == front + [x] + back;
      RemoveOne(a', b', x, multiset(a));
      MapPermutation(a', b', f);
      MapAppend(a', [x], f);
      MapAppend(front, [x], f);
      MapAppend(front + [x], back, f);
      MapAppend(front, back, f);
      var fa', fx, ff, fb := Map(a', f), Map([x], f), Map(front, f), Map(back, f);
      assert multiset(Map(a, f)) == multiset(fa') + multiset(fx);
      assert multiset(Map(b, f)) == multiset(ff) + multiset(fx) + multiset(fb);
      assert multiset(fa') == multiset(ff) + multiset(fb);
    }
  }

  lemma RemoveOne<A>(a': seq<A>, b': seq<A>, x: A, m: multiset<A>)
    requires multiset(a') + multiset{x} == m
    requires multiset(b') + multiset{x} == m
    ensures multiset(a') == multiset(b')
  {
    assert multiset(a') == m - multiset{x};
  }

  predicate Distinct<T(==)>(xs: seq<T>) {
    forall i, j :: 0 <= i < j < |xs| ==> xs[i] != xs[j]
  }

  lemma {:induction false} DistinctCounts<T>(xs: seq<T>)
    requires Distinct(xs)
    ensures forall x :: multiset(xs)[x] <= 1
    decreases |xs|
  {
    if |xs| > 0 {
      var init, last := xs[..|xs| - 1], xs[|xs| - 1];
      DistinctCounts(init);
      assert xs == init + [last];
      forall i | 0 <= i < |init|
        ensures init[i] != last
      {
        assert init[i] == xs[i];
      }
      assert last !in init;
    }
  }

  lemma CountsDistinct<T>(xs: seq<T>)
    requires forall x :: multiset(xs)[x] <= 1
    ensures Distinct(xs)
  {
    forall i, j | 0 <= i < j < |xs|
      ensures xs[i] != xs[j]
    {
      assert xs == xs[..i] + [xs[i]] + xs[i + 1..j] + [xs[j]] + xs[j + 1..];
      assert multiset(xs)[xs[i]] >= 1 + multiset([xs[j]])[xs[i]];
    }
  }

  /** A rearrangement of a duplicate-free sequence is duplicate-free. */
  lemma DistinctPermutation<T>(a: seq<T>, b: seq<T>)
    requires multiset(a) == multiset(b) && Distinct(a)
    ensures Distinct(b)
  {
    DistinctCounts(a);
    CountsDistinct(b);
  }
}

=== FILE: text.dfy ===
/** String helpers with Python's `str` semantics, restricted to what the
    modelled code uses: `split(sep)`, `split()`, `splitlines()`, `strip()`,
    `join`, `startswith`, `in`, ASCII `upper()`/`lower()` and `str(int)`. */
module Text {

  // ---------------------------------------------------------------------
  // Character classes
  // ---------------------------------------------------------------------

  /** Python's `str.isspace()` (also what `\s` matches in a `str` regex). */
  predicate IsSpace(c: char) {
    c == '\t' || c == '\n' || c == '\U{000B}' || c == '\U{000C}' || c == '\r'
    || ('\U{001C}' <= c <= '\U{001F}') || c == ' ' || c == '\U{0085}' || c == '\U{00A0}'
    || c == '\U{1680}' || ('\U{2000}' <= c <= '\U{200A}') || c == '\U{2028}'
    || c == '\U{2029}' || c == '\U{202F}' || c == '\U{205F}' || c == '\U{3000}'
  }

  /** The line boundaries recognised by Python's `str.splitlines()`. */
  predicate IsLineBreak(c: char) {
    c == '\n' || c == '\r' || c == '\U{000B}' || c == '\U{000C}' || c == '\U{001C}'
    || c == '\U{001D}' || c == '\U{001E}' || c == '\U{0085}' || c == '\U{2028}' || c == '\U{2029}'
  }

  predicate IsDigit(c: char) {
    '0' <= c <= '9'
  }

  predicate IsLowerAscii(c: char) { 'a' <= c <= 'z' }
  predicate IsUpperAscii(c: char) { 'A' <= c <= 'Z' }

  function UpperChar(c: char): char {
    if IsLowerAscii(c) then (c as int - 32) as char else c
  }

  function LowerChar(c: char): char {
    if IsUpperAscii(c) then (c as int + 32) as char else c
  }

  /** `str.upper()` on the ASCII letters; every other character is kept. */
  function Upper(s: string): (r: string)
    ensures |r| == |s|
    ensures forall i :: 0 <= i < |s| ==> r[i] == UpperChar(s[i])
  {
    seq(|s|, i requires 0 <= i < |s| => UpperChar(s[i]))
  }

  /** `str.lower()` on the ASCII letters; every other character is kept. */
  function Lower(s: string): (r: string)
    ensures |r| == |s|
    ensures forall i :: 0 <= i < |s| ==> r[i] == LowerChar(s[i])
  {
    seq(|s|, i requires 0 <= i < |s| => LowerChar(s[i]))
  }

  lemma LowerIdempotent(s: string)
    ensures Lower(Lower(s)) == Lower(s)
  {
  }

  // ---------------------------------------------------------------------
  // Prefixes and substrings
  // ---------------------------------------------------------------------

  predicate StartsWith(s: string, prefix: string) {
    |prefix| <= |s| && s[..|prefix|] == prefix
  }

  /** Python's `sub in s` on strings. */
  predicate Contains(s: string, sub: string)
    decreases |s|
  {
    StartsWith(s, sub) || (|s| > 0 && Contains(s[1..], sub))
  }

  // ---------------------------------------------------------------------
  // strip()
  // ---------------------------------------------------------------------

  /** `str.lstrip()`: the longest suffix of `s` that does not start with whitespace. */
  function TrimLeft(s: string): (r: string)
    ensures |r| <= |s| && r == s[|s| - |r|..]
    ensures |r| > 0 ==> !IsSpace(r[0])
    decreases |s|
  {
    if |s| > 0 && IsSpace(s[0]) then TrimLeft(s[1..]) else s
  }

  /** What `lstrip()` removes is whitespace. */
  lemma {:induction false} TrimLeftDropsSpace(s: string)
    ensures forall i :: 0 <= i < |s| - |TrimLeft(s)| ==> IsSpace(s[i])
    decreases |s|
  {
    if |s| > 0 && IsSpace(s[0]) {
      TrimLeftDropsSpace(s[1..]);
      forall i | 0 < i < |s| - |TrimLeft(s)|
        ensures IsSpace(s[i])
      {
        assert s[i] == s[1..][i - 1];
      }
    }
  }

  /** `str.rstrip()`: the longest prefix of `s` that does not end with whitespace. */
  function TrimRight(s: string): (r: string)
    ensures |r| <= |s| && r == s[..|r|]
    ensures forall i :: |r| <= i < |s| ==> IsSpace(s[i])
    ensures |r| > 0 ==> !IsSpace(r[|r| - 1])
    decreases |s|
  {
    if |s| > 0 && IsSpace(s[|s| - 1]) then TrimRight(s[..|s| - 1]) else s
  }

  /** `str.strip()`. */
  function Strip(s: string): (r: string)
    ensures |r| > 0 ==> !IsSpace(r[0]) && !IsSpace(r[|r| - 1])
    ensures forall c :: c in r ==> c in s
    ensures (forall c :: c in s ==> IsSpace(c)) ==> r == []
  {
    var t := TrimRight(s);
    assert forall c :: c in t ==> c in s;
    TrimLeft(t)
  }

  /** Stripping a string that neither starts nor ends with whitespace changes nothing. */
  lemma StripOfTrimmed(s: string)
    requires |s| > 0 ==> !IsSpace(s[0]) && !IsSpace(s[|s| - 1])
    ensures Strip(s) == s
  {
  }

  /** `strip()` removes only whitespace, so every other character keeps its count. */
  lemma StripKeepsCount(s: string, c: char)
    requires !IsSpace(c)
    ensures multiset(Strip(s))[c] == multiset(s)[c]
  {
    var t := TrimRight(s);
    assert s == t + s[|t|..];
    assert c !in s[|t|..];
    var r := TrimLeft(t);
    TrimLeftDropsSpace(t);
    assert t == t[..|t| - |r|] + r;
    assert c !in t[..|t| - |r|];
  }

  // ---------------------------------------------------------------------
  // split(sep) and join
  // ---------------------------------------------------------------------

  /** Python's `s.split(sep)` for a one-character separator: empty pieces
      are kept, so the result always has one more piece than `s` has
      separators. */
  function Split(s: string, sep: char): (r: seq<string>)
    ensures |r| >= 1
    decreases |s|
  {
    if |s| == 0 then [""]
    else
      var rest := Split(s[1..], sep);
      if s[0] == sep then [""] + rest
      else [[s[0]] + rest[0]] + rest[1..]
  }

  /** Python's `sep.join(parts)`. */
  function Join(parts: seq<string>, sep: string): string
    decreases |parts|
  {
    if |parts| == 0 then ""
    else if |parts| == 1 then parts[0]
    else parts[0] + sep + Join(parts[1..], sep)
  }

  lemma {:induction false} JoinAppend(parts: seq<string>, last: string, sep: string)
    requires |parts| > 0
    ensures Join(parts + [last], sep) == Join(parts, sep) + sep + last
    decreases |parts|
  {
    if |parts| == 1 {
      assert parts + [last] == [parts[0], last];
    } else {
      assert (parts + [last])[1..] == parts[1..] + [last];
      JoinAppend(parts[1..], last, sep);
    }
  }

  /** `join` of two, three and four parts written out. */
  lemma JoinTwo(a: string, b: string, sep: string)
    ensures Join([a, b], sep) == a + sep + b
  {
    assert [a, b][1..] == [b];
  }

  lemma JoinThree(a: string, b: string, c: string, sep: string)
    ensures Join([a, b, c], sep) == a + sep + b + sep + c
  {
    assert [a, b, c][1..] == [b, c];
    JoinTwo(b, c, sep);
  }

  lemma JoinFour(a: string, b: string, c: string, d: string, sep: string)
    ensures Join([a, b, c, d], sep) == a + sep + b + sep + c + sep + d
  {
    assert [a, b, c, d][1..] == [b, c, d];
    JoinThree(b, c, d, sep);
  }

  /** Every piece of a split is free of the separator. */
  lemma {:induction false} SplitPiecesLackSep(s: string, sep: char)
    ensures forall k :: 0 <= k < |Split(s, sep)| ==> sep !in Split(s, sep)[k]
    decreases |s|
  {
    if |s| > 0 {
      SplitPiecesLackSep(s[1..], sep);
    }
  }

  /** `k` separators give `k + 1` pieces. */
  lemma {:induction false} SplitCount(s: string, sep: char)
    ensures |Split(s, sep)| == multiset(s)[sep] + 1
    decreases |s|
  {
    if |s| > 0 {
      SplitCount(s[1..], sep);
      assert s == [s[0]] + s[1..];
      assert multiset(s) == multiset{s[0]} + multiset(s[1..]);
    }
  }

  /** Joining the pieces of a split with the separator restores the string. */
  lemma {:induction false} JoinSplit(s: string, sep: char)
    ensures Join(Split(s, sep), [sep]) == s
    decreases |s|
  {
    if |s| > 0 {
      var rest := Split(s[1..], sep);
      JoinSplit(s[1..], sep);
      if s[0] == sep {
        assert Join([""] + rest, [sep]) == "" + [sep] + Join(rest, [sep]);
      } else if |rest| == 1 {
        assert s == [s[0]] + s[1..];
      } else {
        var parts := [[s[0]] + rest[0]] + rest[1..];
        assert parts[1..] == rest[1..];
        assert Join(rest, [sep]) == rest[0] + [sep] + Join(rest[1..], [sep]);
        assert s == [s[0]] + s[1..];
      }
    }
  }

  lemma {:induction false} SplitNoSep(w: string, sep: char)
    requires sep !in w
    ensures Split(w, sep) == [w]
    decreases |w|
  {
    if |w| > 0 {
      SplitNoSep(w[1..], sep);
      assert w == [w[0]] + w[1..];
    }
  }

  lemma {:induction false} SplitPrefix(w: string, sep: char, t: string)
    requires sep !in w
    ensures Split(w + [sep] + t, sep) == [w] + Split(t, sep)
    decreases |w|
  {
    if |w| == 0 {
      assert w + [sep] + t == [sep] + t;
      assert ([sep] + t)[1..] == t;
    } else {
      SplitPrefix(w[1..], sep, t);
      assert (w + [sep] + t)[1..] == w[1..] + [sep] + t;
      assert w == [w[0]] + w[1..];
    }
  }

  /** Splitting a join of separator-free pieces gives the pieces back. */
  lemma {:induction false} SplitJoin(parts: seq<string>, sep: char)
    requires |parts| > 0
    requires forall k :: 0 <= k < |parts| ==> sep !in parts[k]
    ensures Split(Join(parts, [sep]), sep) == parts
    decreases |parts|
  {
    if |parts| == 1 {
      SplitNoSep(parts[0], sep);
    } else {
      SplitJoin(parts[1..], sep);
      SplitPrefix(parts[0], sep, Join(parts[1..], [sep]));
      assert parts == [parts[0]] + parts[1..];
    }
  }

  // ---------------------------------------------------------------------
  // split() on runs of whitespace
  // ---------------------------------------------------------------------

  /** Python's `s.split()` with no argument: maximal runs of non-whitespace. */
  function Words(s: string): (r: seq<string>)
    ensures forall k :: 0 <= k < |r| ==> |r[k]| > 0
    decreases |s|
  {
    if |s| == 0 then []
    else if IsSpace(s[0]) then Words(s[1..])
    else
      var rest := Words(s[1..]);
      if |s| > 1 && !IsSpace(s[1]) then [[s[0]] + rest[0]] + rest[1..]
      else [[s[0]]] + rest
  }

  lemma {:induction false} WordsOfWord(w: string)
    requires |w| > 0
    requires forall c :: c in w ==> !IsSpace(c)
    ensures Words(w) == [w]
    decreases |w|
  {
    if |w| > 1 {
      WordsOfWord(w[1..]);
      assert w == [w[0]] + w[1..];
    } else {
      assert Words(w[1..]) == [];
      assert w == [w[0]];
    }
  }

  lemma {:induction false} WordsPrefix(w: string, t: string)
    requires |w| > 0
    requires forall c :: c in w ==> !IsSpace(c)
    ensures Words(w + " " + t) == [w] + Words(t)
    decreases |w|
  {
    var s := w + " " + t;
    if |w| == 1 {
      assert s[1..] == " " + t;
      assert (" " + t)[1..] == t;
      assert Words(" " + t) == Words(t);
      assert w == [s[0]];
    } else {
      WordsPrefix(w[1..], t);
      assert s[1..] == w[1..] + " " + t;
      assert w == [w[0]] + w[1..];
    }
  }

  /** Splitting a space-join of non-empty whitespace-free words gives the words back. */
  lemma {:induction false} WordsJoin(words: seq<string>)
    requires forall k :: 0 <= k < |words| ==> |words[k]| > 0
    requires forall k, c :: 0 <= k < |words| && c in words[k] ==> !IsSpace(c)
    ensures Words(Join(words, " ")) == words
    decreases |words|
  {
    if |words| == 1 {
      WordsOfWord(words[0]);
    } else if |words| > 1 {
      WordsJoin(words[1..]);
      WordsPrefix(words[0], Join(words[1..], " "));
      assert words == [words[0]] + words[1..];
    }
  }

  /** A text has no words exactly when it is all whitespace. */
  lemma {:induction false} NoWordsIffBlank(s: string)
    ensures |Words(s)| == 0 <==> |TrimLeft(s)| == 0
    decreases |s|
  {
    if |s| > 0 && IsSpace(s[0]) {
      NoWordsIffBlank(s[1..]);
      assert Words(s) == Words(s[1..]);
      assert TrimLeft(s) == TrimLeft(s[1..]);
    } else if |s| > 0 {
      assert TrimLeft(s) == s;
      assert |Words(s)| > 0;
    }
  }

  /** No word holds whitespace. */
  lemma {:induction false} WordsLackSpace(s: string)
    ensures forall k, i :: 0 <= k < |Words(s)| && 0 <= i < |Words(s)[k]| ==> !IsSpace(Words(s)[k][i])
    decreases |s|
  {
    if |s| > 0 {
      WordsLackSpace(s[1..]);
      var rest := Words(s[1..]);
      if !IsSpace(s[0]) && |s| > 1 && !IsSpace(s[1]) {
        forall i | 0 <= i < |[s[0]] + rest[0]|
          ensures !IsSpace(([s[0]] + rest[0])[i])
        {
          if i > 0 {
            assert ([s[0]] + rest[0])[i] == rest[0][i - 1];
          }
        }
      }
    }
  }

  /** The first and last characters of the words are not whitespace. */
  lemma WordsEnds(s: string)
    requires |Words(s)| > 0
    ensures var w := Words(s);
      !IsSpace(w[0][0]) && !IsSpace(w[|w| - 1][|w[|w| - 1]| - 1])
  {
    WordsLackSpace(s);
  }

  /** Leading whitespace does not change the words. */
  lemma {:induction false} WordsTrimLeft(s: string)
    ensures Words(TrimLeft(s)) == Words(s)
    decreases |s|
  {
    if |s| > 0 && IsSpace(s[0]) {
      WordsTrimLeft(s[1..]);
    }
  }

  /** A space-join of non-empty parts starts with the first part's first
      character and ends with the last part's last character. */
  lemma {:induction false} JoinEnds(parts: seq<string>, sep: string)
    requires |parts| > 0
    requires forall k :: 0 <= k < |parts| ==> |parts[k]| > 0
    ensures var j := Join(parts, sep);
      |j| > 0 && j[0] == parts[0][0] && j[|j| - 1] == parts[|parts| - 1][|parts[|parts| - 1]| - 1]
    decreases |parts|
  {
    if |parts| > 1 {
      JoinEnds(parts[1..], sep);
    }
  }

  /** `re.sub(r"\s+", " ", s)`: every maximal run of whitespace becomes one space. */
  function CollapseSpace(s: string): string
    decreases |s|
  {
    if |s| == 0 then ""
    else if IsSpace(s[0]) then " " + CollapseSpace(TrimLeft(s[1..]))
    else [s[0]] + CollapseSpace(s[1..])
  }

  /** The single space a whitespace run at the front of `s` collapses to. */
  function Lead(s: string): string {
    if |s| > 0 && IsSpace(s[0]) then " " else ""
  }

  /** The single space a whitespace run after the last word collapses to. */
  function Trail(s: string): string {
    if |Words(s)| > 0 && IsSpace(s[|s| - 1]) then " " else ""
  }

  predicate CollapsedAs(s: string) {
    CollapseSpace(s) == Lead(s) + Join(Words(s), " ") + Trail(s)
  }

  /** Collapsing whitespace leaves the words joined by single spaces, with
      at most one space before and after them. */
  lemma {:induction false} CollapseShape(s: string)
    ensures CollapsedAs(s)
    decreases |s|
  {
    if |s| == 0 {
      assert Words(s) == [];
    } else if IsSpace(s[0]) {
      CollapseShape(TrimLeft(s[1..]));
      CollapseAfterSpace(s);
    } else {
      CollapseShape(s[1..]);
      if |s| == 1 {
        assert Words(s) == [[s[0]]];
        assert s == [s[0]];
      } else if !IsSpace(s[1]) {
        CollapseInWord(s);
      } else {
        CollapseBeforeSpace(s);
      }
    }
  }

  lemma CollapseAfterSpace(s: string)
    requires |s| > 0 && IsSpace(s[0])
    requires CollapsedAs(TrimLeft(s[1..]))
    ensures CollapsedAs(s)
  {
    var t := TrimLeft(s[1..]);
    WordsTrimLeft(s[1..]);
    assert Words(s) == Words(t);
    TrailTrimLeft(s);
    assert Lead(t) == "" && Lead(s) == " ";
    GlueSpace(Join(Words(t), " "), Trail(t), CollapseSpace(s), CollapseSpace(t));
  }

  lemma GlueSpace(j: string, tail: string, whole: string, rest: string)
    requires rest == "" + j + tail && whole == " " + rest
    ensures whole == " " + j + tail
  {
  }

  lemma TrailTrimLeft(s: string)
    requires |s| > 0 && IsSpace(s[0])
    ensures Trail(s) == Trail(TrimLeft(s[1..]))
  {
    var r := s[1..];
    var t := TrimLeft(r);
    WordsTrimLeft(r);
    assert Words(s) == Words(r);
    assert |t| == 0 ==> Words(t) == [];
    if |Words(t)| > 0 {
      assert t == r[|r| - |t|..];
      assert t[|t| - 1] == r[|r| - 1] == s[|s| - 1];
    }
  }

  lemma Assoc(a: string, b: string, c: string)
    ensures a + (b + c) == a + b + c
  {
  }

  lemma CollapseInWord(s: string)
    requires |s| > 1 && !IsSpace(s[0]) && !IsSpace(s[1])
    requires CollapsedAs(s[1..])
    ensures CollapsedAs(s)
  {
    var rest := s[1..];
    var w := Words(rest);
    NoWordsIffBlank(rest);
    assert |w| > 0;
    assert Words(s) == [[s[0]] + w[0]] + w[1..];
    JoinFirstChar(s[0], w[0], w[1..]);
    assert w == [w[0]] + w[1..];
    assert s[|s| - 1] == rest[|rest| - 1];
  }

  lemma CollapseBeforeSpace(s: string)
    requires |s| > 1 && !IsSpace(s[0]) && IsSpace(s[1])
    requires CollapsedAs(s[1..])
    ensures CollapsedAs(s)
  {
    if |Words(s[1..])| == 0 {
      CollapseBeforeTrailingSpace(s);
    } else {
      CollapseBeforeSpaceAndWord(s);
    }
  }

  lemma CollapseBeforeTrailingSpace(s: string)
    requires |s| > 1 && !IsSpace(s[0]) && IsSpace(s[1])
    requires CollapsedAs(s[1..]) && |Words(s[1..])| == 0
    ensures CollapsedAs(s)
  {
    var rest := s[1..];
    assert Words(s) == [[s[0]]];
    TrailBeforeSpace(s);
    assert Lead(rest) == " " && Trail(rest) == "";
    assert CollapseSpace(s) == [s[0]] + " ";
  }

  lemma CollapseBeforeSpaceAndWord(s: string)
    requires |s| > 1 && !IsSpace(s[0]) && IsSpace(s[1])
    requires CollapsedAs(s[1..]) && |Words(s[1..])| > 0
    ensures CollapsedAs(s)
  {
    var rest := s[1..];
    TrailBeforeSpace(s);
    JoinWordsBeforeSpace(s);
    assert Lead(rest) == " " && Lead(s) == "";
    Glue(s[0], Join(Words(rest), " "), Trail(rest), CollapseSpace(s), CollapseSpace(rest));
  }

  lemma Glue(c: char, j: string, tail: string, whole: string, rest: string)
    requires rest == " " + j + tail && whole == [c] + rest
    ensures whole == "" + ([c] + " " + j) + tail
  {
  }

  lemma JoinWordsBeforeSpace(s: string)
    requires |s| > 1 && !IsSpace(s[0]) && IsSpace(s[1]) && |Words(s[1..])| > 0
    ensures Join(Words(s), " ") == [s[0]] + " " + Join(Words(s[1..]), " ")
  {
    var w := Words(s[1..]);
    assert Words(s) == [[s[0]]] + w;
    assert ([[s[0]]] + w)[1..] == w;
  }

  lemma TrailBeforeSpace(s: string)
    requires |s| > 1 && !IsSpace(s[0]) && IsSpace(s[1])
    ensures Trail(s) == if |Words(s[1..])| == 0 then " " else Trail(s[1..])
  {
    var rest := s[1..];
    assert Words(s) == [[s[0]]] + Words(rest);
    assert s[|s| - 1] == rest[|rest| - 1];
    NoWordsIffBlank(rest);
    TrimLeftDropsSpace(rest);
  }

  lemma JoinFirstChar(c: char, w0: string, ws: seq<string>)
    ensures Join([[c] + w0] + ws, " ") == [c] + Join([w0] + ws, " ")
  {
    if |ws| > 0 {
      assert ([[c] + w0] + ws)[1..] == ws;
      assert ([w0] + ws)[1..] == ws;
    }
  }

  /** `re.sub(r"\s+", " ", s).strip()` is the words of `s` joined by single spaces. */
  lemma NormalizedSpace(s: string)
    ensures Strip(CollapseSpace(s)) == Join(Words(s), " ")
  {
    CollapseShape(s);
    StripShape(s);
  }

  lemma StripShape(s: string)
    ensures Strip(Lead(s) + Join(Words(s), " ") + Trail(s)) == Join(Words(s), " ")
  {
    var words := Words(s);
    if |words| == 0 {
      assert Join(words, " ") == "" && Trail(s) == "";
    } else {
      JoinEnds(words, " ");
      WordsEnds(s);
    }
    StripPadded(Lead(s), Join(words, " "), Trail(s));
  }

  /** Stripping at most one space from each side of a text whose ends are
      not whitespace gives the text. */
  lemma StripPadded(a: string, j: string, b: string)
    requires a == "" || a == " "
    requires b == "" || b == " "
    requires |j| > 0 ==> !IsSpace(j[0]) && !IsSpace(j[|j| - 1])
    requires |j| == 0 ==> b == ""
    ensures Strip(a + j + b) == j
  {
    if |j| == 0 {
      assert a + j + b == a;
      assert TrimRight(a) == "";
    } else {
      TrimRightPad(a + j, b);
      TrimLeftPad(a, j);
    }
  }

  lemma TrimRightPad(y: string, b: string)
    requires b == "" || b == " "
    requires |y| > 0 && !IsSpace(y[|y| - 1])
    ensures TrimRight(y + b) == y
  {
    if b == " " {
      assert (y + b)[..|y|] == y;
    } else {
      assert y + b == y;
    }
  }

  lemma TrimLeftPad(a: string, j: string)
    requires a == "" || a == " "
    requires |j| > 0 && !IsSpace(j[0])
    ensures TrimLeft(a + j) == j
  {
    if a == " " {
      assert (a + j)[1..] == j;
    } else {
      assert a + j == j;
    }
  }

  // ---------------------------------------------------------------------
  // splitlines()
  // ---------------------------------------------------------------------

  /** Index of the first line boundary of `s`, or `|s|` when there is none. */
  function FirstBreak(s: string): (k: nat)
    ensures k <= |s|
    ensures forall i :: 0 <= i < k ==> !IsLineBreak(s[i])
    ensures k < |s| ==> IsLineBreak(s[k])
    decreases |s|
  {
    if |s| == 0 || IsLineBreak(s[0]) then 0 else 1 + FirstBreak(s[1..])
  }

  /** Python's `s.splitlines()`: `\r\n` counts as one boundary, and a final
      boundary does not start an extra empty line. */
  function SplitLines(s: string): (r: seq<string>)
    ensures forall k, i :: 0 <= k < |r| && 0 <= i < |r[k]| ==> !IsLineBreak(r[k][i])
    decreases |s|
  {
    if |s| == 0 then []
    else
      var k := FirstBreak(s);
      if k == |s| then [s]
      else
        var width := if s[k] == '\r' && k + 1 < |s| && s[k + 1] == '\n' then 2 else 1;
        [s[..k]] + SplitLines(s[k + width..])
  }

  lemma FirstBreakOfLine(l: string, t: string)
    requires forall i :: 0 <= i < |l| ==> !IsLineBreak(l[i])
    ensures FirstBreak(l + "\n" + t) == |l|
    ensures FirstBreak(l) == |l|
    decreases |l|
  {
    if |l| > 0 {
      FirstBreakOfLine(l[1..], t);
      assert (l + "\n" + t)[1..] == l[1..] + "\n" + t;
    }
  }

  /** Joining break-free lines with `\n` and splitting them again gives the
      lines back, unless the last line is empty (Python drops it). */
  lemma {:induction false} SplitLinesJoin(lines: seq<string>)
    requires forall k, i :: 0 <= k < |lines| && 0 <= i < |lines[k]| ==> !IsLineBreak(lines[k][i])
    requires |lines| > 0 ==> lines[|lines| - 1] != ""
    ensures SplitLines(Join(lines, "\n")) == lines
    decreases |lines|
  {
    if |lines| == 1 {
      FirstBreakOfLine(lines[0], "");
    } else if |lines| > 1 {
      var l := lines[0];
      var t := Join(lines[1..], "\n");
      var s := l + "\n" + t;
      FirstBreakOfLine(l, t);
      assert s[..|l|] == l;
      assert s[|l|] == '\n';
      assert s[|l| + 1..] == t;
      SplitLinesJoin(lines[1..]);
      assert lines == [l] + lines[1..];
    }
  }

  // ---------------------------------------------------------------------
  // Decimal numerals
  // ---------------------------------------------------------------------

  function DigitChar(d: nat): char
    requires d < 10
  {
    ('0' as int + d) as char
  }

  /** `str(n)` for a natural number. */
  function NatToString(n: nat): (r: string)
    ensures |r| > 0
    ensures forall c :: c in r ==> IsDigit(c)
    decreases n
  {
    if n < 10 then [DigitChar(n)] else NatToString(n / 10) + [DigitChar(n % 10)]
  }

  /** `str(i)` for an integer. */
  function IntToString(i: int): string {
    if i < 0 then "-" + NatToString(-i) else NatToString(i)
  }

  /** The value of a non-empty string of ASCII digits, as `int(s)` computes it. */
  function DigitsValue(s: string): nat
    requires forall c :: c in s ==> IsDigit(c)
    decreases |s|
  {
    if |s| == 0 then 0
    else
      assert s[|s| - 1] in s;
      assert IsDigit(s[|s| - 1]);
      assert forall c :: c in s[..|s| - 1] ==> c in s;
      DigitsValue(s[..|s| - 1]) * 10 + (s[|s| - 1] as int - '0' as int)
  }

  /** `int(str(n)) == n`. */
  lemma {:induction false} NatToStringRoundTrip(n: nat)
    ensures DigitsValue(NatToString(n)) == n
    decreases n
  {
    if n >= 10 {
      NatToStringRoundTrip(n / 10);
      var s := NatToString(n);
      assert s[..|s| - 1] == NatToString(n / 10);
    }
  }

  // ---------------------------------------------------------------------
  // repr of a string
  // ---------------------------------------------------------------------

  /** The quote `repr(s)` puts around s: a double quote when s holds a
      single quote and no double quote, a single quote otherwise. */
  function ReprQuote(s: string): (q: char)
    ensures q == '"' <==> '\'' in s && '"' !in s
    ensures q == '\'' || q == '"'
  {
    if '\'' in s && '"' !in s then '"' else '\''
  }

  function HexDigit(d: nat): char
    requires d < 16
  {
    if d < 10 then DigitChar(d) else ('a' as int + d - 10) as char
  }

  function HexValue(c: char): (d: nat)
    ensures d < 16
  {
    if IsDigit(c) then c as int - '0' as int
    else if 'a' <= c <= 'f' then c as int - 'a' as int + 10
    else 0
  }

  /** An ASCII control character, which `repr` writes as `\xhh`. */
  predicate IsControl(c: char) {
    c < ' ' || c as int == 0x7f
  }

  /** How `repr` writes one character between quotes `q`: the quote and the
      backslash get a backslash, tab, newline and carriage return their
      letters, other control characters two hex digits. */
  function EscapeChar(c: char, q: char): (r: string)
    ensures |r| > 0
    ensures r == [c] <==> c != q && c != '\\' && !IsControl(c)
  {
    if c == q || c == '\\' then ['\\', c]
    else if c == '\t' then "\\t"
    else if c == '\n' then "\\n"
    else if c == '\r' then "\\r"
    else if IsControl(c) then ['\\', 'x', HexDigit(c as int / 16), HexDigit(c as int % 16)]
    else [c]
  }

  function Escape(s: string, q: char): (r: string)
    ensures |r| >= |s|
    decreases |s|
  {
    if |s| == 0 then "" else EscapeChar(s[0], q) + Escape(s[1..], q)
  }

  /** `repr(s)` for a string. Non-ASCII characters are written as they are. */
  function Repr(s: string): (r: string)
    ensures |r| >= |s| + 2
    ensures r[0] == r[|r| - 1] == ReprQuote(s)
  {
    var q := ReprQuote(s);
    [q] + Escape(s, q) + [q]
  }

  /** The character a backslash followed by `c` stands for. */
  function Unescaped(c: char): char {
    if c == 't' then '\t' else if c == 'n' then '\n' else if c == 'r' then '\r' else c
  }

  /** Reads the inside of a string literal back, undoing `Escape`. */
  function Unescape(e: string): string
    decreases |e|
  {
    if |e| == 0 then ""
    else if e[0] == '\\' && |e| >= 4 && e[1] == 'x' then
      [(HexValue(e[2]) * 16 + HexValue(e[3])) as char] + Unescape(e[4..])
    else if e[0] == '\\' && |e| >= 2 then [Unescaped(e[1])] + Unescape(e[2..])
    else [e[0]] + Unescape(e[1..])
  }

  /** `eval(r)` for a string literal `r`. */
  function Unrepr(r: string): string
    requires |r| >= 2
  {
    Unescape(r[1..|r| - 1])
  }

  lemma HexRoundTrip(d: nat)
    requires d < 16
    ensures HexValue(HexDigit(d)) == d
  {
  }

  lemma EscapeCharRead(c: char, q: char, rest: string)
    requires q == '\'' || q == '"'
    ensures Unescape(EscapeChar(c, q) + rest) == [c] + Unescape(rest)
  {
    var e := EscapeChar(c, q) + rest;
    if c == q || c == '\\' {
      assert e[2..] == rest;
    } else if c == '\t' || c == '\n' || c == '\r' {
      assert e[2..] == rest;
    } else if IsControl(c) {
      HexRoundTrip(c as int / 16);
      HexRoundTrip(c as int % 16);
      assert e[4..] == rest;
    } else {
      assert e[1..] == rest;
    }
  }

  lemma {:induction false} EscapeRoundTrip(s: string, q: char)
    requires q == '\'' || q == '"'
    ensures Unescape(Escape(s, q)) == s
    decreases |s|
  {
    if |s| > 0 {
      EscapeRoundTrip(s[1..], q);
      EscapeCharRead(s[0], q, Escape(s[1..], q));
      assert s == [s[0]] + s[1..];
    }
  }

  /** Reading `repr(s)` back gives s. */
  lemma ReprRoundTrip(s: string)
    ensures Unrepr(Repr(s)) == s
  {
    var r := Repr(s);
    assert r[1..|r| - 1] == Escape(s, ReprQuote(s));
    EscapeRoundTrip(s, ReprQuote(s));
  }

  /** Text without quotes, backslashes or control characters is written
      between single quotes unchanged. */
  lemma {:induction false} ReprPlain(s: string)
    requires forall i :: 0 <= i < |s| ==> s[i] != '\'' && s[i] != '"' && s[i] != '\\' && !IsControl(s[i])
    ensures Repr(s) == "'" + s + "'"
  {
    assert '\'' !in s;
    PlainEscape(s, '\'');
  }

  lemma {:induction false} PlainEscape(s: string, q: char)
    requires forall i :: 0 <= i < |s| ==> s[i] != q && s[i] != '\\' && !IsControl(s[i])
    ensures Escape(s, q) == s
    decreases |s|
  {
    if |s| > 0 {
      PlainEscape(s[1..], q);
      assert s == [s[0]] + s[1..];
    }
  }
}

=== FILE: text_tools.dfy ===
/** The pure text transforms of `TextProcessor`: title case, Morse code,
    binary code points, repetition, line sorting and password assembly, and
    the line preprocessing of the diff viewer. Case mapping is ASCII-only. */
module TextTools {
  import opened Wrappers
  import Text
  import Sorting

  // ---------------------------------------------------------------------
  // title_case
  // ---------------------------------------------------------------------

  /** `str.capitalize()`: the first character upper-cased, the rest lower. */
  function Capitalize(w: string): (r: string)
    ensures |r| == |w|
    ensures |w| > 0 ==> r[0] == Text.UpperChar(w[0])
    ensures forall i :: 1 <= i < |w| ==> r[i] == Text.LowerChar(w[i])
  {
    if |w| == 0 then "" else [Text.UpperChar(w[0])] + Text.Lower(w[1..])
  }

  /** The lower-cased lines of the exclusions field. */
  function ExclusionSet(exclusions: string): (r: set<string>)
    ensures forall l :: l in Text.SplitLines(exclusions) ==> Text.Lower(l) in r
    ensures forall w :: w in r ==> exists l :: l in Text.SplitLines(exclusions) && w == Text.Lower(l)
  {
    set l | l in Text.SplitLines(exclusions) :: Text.Lower(l)
  }

  /** The word at position `i`: the first word and every non-excluded word
      is capitalised, an excluded later word is lower-cased. */
  function TitleWord(i: nat, w: string, excluded: set<string>): string {
    if i == 0 || Text.Lower(w) !in excluded then Capitalize(w) else Text.Lower(w)
  }

  function TitleWords(words: seq<string>, excluded: set<string>): (r: seq<string>)
    ensures |r| == |words|
    ensures forall i :: 0 <= i < |words| ==> r[i] == TitleWord(i, words[i], excluded)
  {
    seq(|words|, i requires 0 <= i < |words| => TitleWord(i, words[i], excluded))
  }

  /** `TextProcessor.title_case`: split on single spaces, transform each
      word, join with single spaces. */
  function TitleCase(text: string, exclusions: string): string {
    Text.Join(TitleWords(Text.Split(text, ' '), ExclusionSet(exclusions)), " ")
  }

  lemma SpaceFreeCase(w: string)
    requires ' ' !in w
    ensures ' ' !in Capitalize(w) && ' ' !in Text.Lower(w)
  {
    forall i | 0 <= i < |w|
      ensures Capitalize(w)[i] != ' ' && Text.Lower(w)[i] != ' '
    {
      assert w[i] in w;
    }
  }

  /** Title case keeps the number of space-separated words; the first is
      always capitalised, a later one is lower-cased exactly when its lower
      case is an exclusion and capitalised otherwise. */
  lemma TitleCaseWords(text: string, exclusions: string)
    ensures var words := Text.Split(text, ' ');
      var out := Text.Split(TitleCase(text, exclusions), ' ');
      && |out| == |words|
      && out[0] == Capitalize(words[0])
      && forall i :: 1 <= i < |words| ==>
           out[i] == if Text.Lower(words[i]) in ExclusionSet(exclusions) then Text.Lower(words[i]) else Capitalize(words[i])
  {
    var words := Text.Split(text, ' ');
    var titled := TitleWords(words, ExclusionSet(exclusions));
    Text.SplitPiecesLackSep(text, ' ');
    forall k | 0 <= k < |titled|
      ensures ' ' !in titled[k]
    {
      SpaceFreeCase(words[k]);
    }
    Text.SplitJoin(titled, ' ');
  }

  // ---------------------------------------------------------------------
  // morse_translator
  // ---------------------------------------------------------------------

  /** `morse_code_dict.get(c)`: the application's Morse table, keyed by
      upper-case letter, digit, space and six punctuation marks. */
  function MorseCode(c: char): (r: Option<string>)
    ensures r.Some? ==> MorseLetter(r.value) == Some(c)
    ensures r.Some? ==> |r.value| > 0
    ensures r.Some? ==> forall i :: 0 <= i < |r.value| ==> r.value[i] == '.' || r.value[i] == '-' || r.value[i] == '/'
  {
    match c
    case 'A' => Some(".-")
    case 'B' => Some("-...")
    case 'C' => Some("-.-.")
    case 'D' => Some("-..")
    case 'E' => Some(".")
    case 'F' => Some("..-.")
    case 'G' => Some("--.")
    case 'H' => Some("....")
    case 'I' => Some("..")
    case 'J' => Some(".---")
    case 'K' => Some("-.-")
    case 'L' => Some(".-..")
    case 'M' => Some("--")
    case 'N' => Some("-.")
    case 'O' => Some("---")
    case 'P' => Some(".--.")
    case 'Q' => Some("--.-")
    case 'R' => Some(".-.")
    case 'S' => Some("...")
    case 'T' => Some("-")
    case 'U' => Some("..-")
    case 'V' => Some("...-")
    case 'W' => Some(".--")
    case 'X' => Some("-..-")
    case 'Y' => Some("-.--")
    case 'Z' => Some("--..")
    case '1' => Some(".----")
    case '2' => Some("..---")
    case '3' => Some("...--")
    case '4' => Some("....-")
    case '5' => Some(".....")
    case '6' => Some("-....")
    case '7' => Some("--...")
    case '8' => Some("---..")
    case '9' => Some("----.")
    case '0' => Some("-----")
    case ' ' => Some("/")
    case ',' => Some("--..--")
    case '.' => Some(".-.-.-")
    case '?' => Some("..--..")
    case '/' => Some("-..-.")
    case '-' => Some("-....-")
    case '(' => Some("-.--.")
    case ')' => Some("-.--.-")
    case _ => None
  }

  /** `reversed_morse_dict.get(code)`, the table read backwards. */
  function MorseLetter(code: string): (r: Option<char>)
    ensures code == "" ==> r == None
  {
    match code
    case ".-" => Some('A')
    case "-..." => Some('B')
    case "-.-." => Some('C')
    case "-.." => Some('D')
    case "." => Some('E')
    case "..-." => Some('F')
    case "--." => Some('G')
    case "...." => Some('H')
    case ".." => Some('I')
    case ".---" => Some('J')
    case "-.-" => Some('K')
    case ".-.." => Some('L')
    case "--" => Some('M')
    case "-." => Some('N')
    case "---" => Some('O')
    case ".--." => Some('P')
    case "--.-" => Some('Q')
    case ".-." => Some('R')
    case "..." => Some('S')
    case "-" => Some('T')
    case "..-" => Some('U')
    case "...-" => Some('V')
    case ".--" => Some('W')
    case "-..-" => Some('X')
    case "-.--" => Some('Y')
    case "--.." => Some('Z')
    case ".----" => Some('1')
    case "..---" => Some('2')
    case "...--" => Some('3')
    case "....-" => Some('4')
    case "....." => Some('5')
    case "-...." => Some('6')
    case "--..." => Some('7')
    case "---.." => Some('8')
    case "----." => Some('9')
    case "-----" => Some('0')
    case "/" => Some(' ')
    case "--..--" => Some(',')
    case ".-.-.-" => Some('.')
    case "..--.." => Some('?')
    case "-..-." => Some('/')
    case "-....-" => Some('-')
    case "-.--." => Some('(')
    case "-.--.-" => Some(')')
    case _ => None
  }

  /** The reverse table has exactly the entries of the forward one. */
  lemma MorseLetterInverse(code: string)
    ensures MorseLetter(code).Some? ==> MorseCode(MorseLetter(code).value) == Some(code)
  {
  }

  /** One input character's code: its upper case looked up, `""` when absent. */
  function EncodeChar(c: char): string {
    match MorseCode(Text.UpperChar(c))
    case Some(code) => code
    case None => ""
  }

  /** One code's character, `""` when the code is not in the table. */
  function DecodeCode(code: string): string {
    match MorseLetter(code)
    case Some(c) => [c]
    case None => ""
  }

  /** Text to Morse: one code per input character, separated by single spaces. */
  function MorseEncode(text: string): (r: string)
    ensures |text| > 0 ==> Text.Split(r, ' ') == Sorting.Map(text, EncodeChar)
  {
    var codes := Sorting.Map(text, EncodeChar);
    if |text| > 0 then
      Text.SplitJoin(codes, ' ');
      Text.Join(codes, " ")
    else
      Text.Join(codes, " ")
  }

  /** Morse to text: the text is cut at every single space and each piece
      looked up. */
  function MorseDecode(text: string): string {
    Text.Join(Sorting.Map(Text.Split(text, ' '), DecodeCode), "")
  }

  /** `TextProcessor.morse_translator` with the application's tables: mode
      `"morse"` encodes, every other mode decodes. */
  function MorseTranslator(text: string, mode: string): string {
    if mode == "morse" then MorseEncode(text) else MorseDecode(text)
  }

  /** A character's upper case when it has a code, nothing otherwise. */
  function KnownChar(c: char): string {
    var u := Text.UpperChar(c);
    if MorseCode(u).Some? then [u] else ""
  }

  /** The upper-cased characters of `text` that have a code, in order. */
  function KnownUpper(text: string): (r: string)
    ensures |r| <= |text|
    ensures forall c :: c in r ==> MorseCode(c).Some?
  {
    if |text| == 0 then "" else KnownChar(text[0]) + KnownUpper(text[1..])
  }

  lemma DecodeEncodedChar(c: char)
    ensures DecodeCode(EncodeChar(c)) == KnownChar(c)
  {
  }

  lemma {:induction false} DecodeEncoded(text: string)
    ensures Text.Join(Sorting.Map(Sorting.Map(text, EncodeChar), DecodeCode), "") == KnownUpper(text)
    decreases |text|
  {
    if |text| > 0 {
      DecodeEncoded(text[1..]);
      DecodeEncodedChar(text[0]);
      var m := Sorting.Map(Sorting.Map(text, EncodeChar), DecodeCode);
      var m' := Sorting.Map(Sorting.Map(text[1..], EncodeChar), DecodeCode);
      assert m[0] == KnownChar(text[0]);
      assert m == [m[0]] + m';
      if |m'| == 0 {
        assert text[1..] == "";
      } else {
        assert m[1..] == m';
      }
    }
  }

  /** Decoding an encoding gives back the upper-cased input, with the
      characters that have no code dropped. */
  lemma MorseRoundTrip(text: string)
    ensures MorseTranslator(MorseTranslator(text, "morse"), "text") == KnownUpper(text)
  {
    var codes := Sorting.Map(text, EncodeChar);
    if |text| == 0 {
      assert Text.Split("", ' ') == [""];
      assert Sorting.Map([""], DecodeCode) == [""];
    } else {
      assert Text.Split(MorseEncode(text), ' ') == codes;
    }
    DecodeEncoded(text);
  }

  lemma {:induction false} KnownUpperAll(text: string)
    requires forall i :: 0 <= i < |text| ==> MorseCode(Text.UpperChar(text[i])).Some?
    ensures KnownUpper(text) == Text.Upper(text)
    decreases |text|
  {
    if |text| > 0 {
      KnownUpperAll(text[1..]);
      assert KnownChar(text[0]) == [Text.UpperChar(text[0])];
      assert Text.Upper(text) == [Text.UpperChar(text[0])] + Text.Upper(text[1..]);
    }
  }

  /** When every character has a code, decoding the encoding is `text.upper()`. */
  lemma MorseRoundTripTotal(text: string)
    requires forall i :: 0 <= i < |text| ==> MorseCode(Text.UpperChar(text[i])).Some?
    ensures MorseTranslator(MorseTranslator(text, "morse"), "text") == Text.Upper(text)
  {
    MorseRoundTrip(text);
    KnownUpperAll(text);
  }

  // ---------------------------------------------------------------------
  // binary_translator
  // ---------------------------------------------------------------------

  /** A Unicode code point. A Python `str` may hold any of them, lone
      surrogates included, so the binary translator works on these rather
      than on Dafny characters. */
  type CodePoint = n: int | 0 <= n < 0x11_0000

  /** The code points of a string. */
  function Lift(s: string): (r: seq<CodePoint>)
    ensures |r| == |s|
    ensures forall i :: 0 <= i < |s| ==> r[i] == s[i] as int
  {
    seq(|s|, i requires 0 <= i < |s| => s[i] as int)
  }

  /** `all(c in ' 01' for c in text)`. */
  predicate IsBinaryText(t: seq<CodePoint>) {
    forall i :: 0 <= i < |t| ==> t[i] == ' ' as int || t[i] == '0' as int || t[i] == '1' as int
  }

  /** A binary text as characters (all of them are ASCII). */
  function BinaryChars(t: seq<CodePoint>): (r: string)
    requires IsBinaryText(t)
    ensures |r| == |t|
    ensures forall i :: 0 <= i < |t| ==> r[i] as int == t[i]
  {
    seq(|t|, i requires 0 <= i < |t| => t[i] as char)
  }

  predicate IsBit(c: char) {
    c == '0' || c == '1'
  }

  function BitChar(b: nat): char
    requires b < 2
  {
    if b == 0 then '0' else '1'
  }

  /** `int(s, 2)` for a string of binary digits. */
  function BitsValue(s: string): nat
    decreases |s|
  {
    if |s| == 0 then 0
    else 2 * BitsValue(s[..|s| - 1]) + (if s[|s| - 1] == '1' then 1 else 0)
  }

  /** `bin(n)[2:]`: the binary digits of `n` without leading zeros. */
  function Bits(n: nat): (r: string)
    ensures |r| > 0
    ensures forall i :: 0 <= i < |r| ==> IsBit(r[i])
    ensures BitsValue(r) == n
    decreases n
  {
    if n < 2 then [BitChar(n)]
    else
      var r := Bits(n / 2) + [BitChar(n % 2)];
      assert r[..|r| - 1] == Bits(n / 2);
      r
  }

  function Zeros(k: nat): (r: string)
    ensures |r| == k
    ensures forall i :: 0 <= i < k ==> r[i] == '0'
  {
    seq(k, i => '0')
  }

  /** Leading zeros do not change the value of a binary numeral. */
  lemma {:induction false} LeadingZeros(k: nat, s: string)
    ensures BitsValue(Zeros(k) + s) == BitsValue(s)
    decreases |s|
  {
    if |s| == 0 {
      AllZeros(k);
      assert Zeros(k) + s == Zeros(k);
    } else {
      LeadingZeros(k, s[..|s| - 1]);
      assert (Zeros(k) + s)[..k + |s| - 1] == Zeros(k) + s[..|s| - 1];
    }
  }

  lemma {:induction false} AllZeros(k: nat)
    ensures BitsValue(Zeros(k)) == 0
    decreases k
  {
    if k > 0 {
      AllZeros(k - 1);
      assert Zeros(k)[..k - 1] == Zeros(k - 1);
    }
  }

  /** `format(n, '08b')`: binary digits, left-padded with zeros to eight. */
  function Binary8(n: nat): (r: string)
    ensures |r| == if |Bits(n)| < 8 then 8 else |Bits(n)|
    ensures forall i :: 0 <= i < |r| ==> IsBit(r[i])
  {
    if |Bits(n)| < 8 then Zeros(8 - |Bits(n)|) + Bits(n) else Bits(n)
  }

  /** `int(format(n, '08b'), 2) == n`. */
  lemma Binary8Value(n: nat)
    ensures BitsValue(Binary8(n)) == n
  {
    if |Bits(n)| < 8 {
      LeadingZeros(8 - |Bits(n)|, Bits(n));
    }
  }

  function CodePointBinary(c: CodePoint): string {
    Binary8(c)
  }

  /** Text to binary: one padded numeral per code point, space-separated. */
  function EncodeBinary(t: seq<CodePoint>): (r: string)
    ensures forall i :: 0 <= i < |r| ==> r[i] == ' ' || IsBit(r[i])
  {
    var words := Sorting.Map(t, CodePointBinary);
    JoinOfBits(words);
    Text.Join(words, " ")
  }

  /** The encoding is one word per code point: its binary digits, zero-padded
      to at least eight, denoting that code point. */
  lemma EncodeBinaryWords(t: seq<CodePoint>)
    ensures var w := Text.Words(EncodeBinary(t));
      && |w| == |t|
      && forall k :: 0 <= k < |t| ==>
           |w[k]| >= 8 && (forall i :: 0 <= i < |w[k]| ==> IsBit(w[k][i])) && BitsValue(w[k]) == t[k]
  {
    var words := Sorting.Map(t, CodePointBinary);
    forall k, c | 0 <= k < |words| && c in words[k]
      ensures !Text.IsSpace(c)
    {
      var i :| 0 <= i < |words[k]| && words[k][i] == c;
      assert IsBit(words[k][i]);
    }
    Text.WordsJoin(words);
    forall k | 0 <= k < |t|
      ensures BitsValue(words[k]) == t[k]
    {
      Binary8Value(t[k]);
    }
  }

  lemma {:induction false} JoinOfBits(words: seq<string>)
    requires forall k, i :: 0 <= k < |words| && 0 <= i < |words[k]| ==> IsBit(words[k][i])
    ensures forall i :: 0 <= i < |Text.Join(words, " ")| ==> Text.Join(words, " ")[i] == ' ' || IsBit(Text.Join(words, " ")[i])
    decreases |words|
  {
    if |words| > 1 {
      JoinOfBits(words[1..]);
      var s := Text.Join(words, " ");
      var rest := Text.Join(words[1..], " ");
      assert s == words[0] + " " + rest;
      forall i | 0 <= i < |s|
        ensures s[i] == ' ' || IsBit(s[i])
      {
        if i < |words[0]| {
          assert s[i] == words[0][i];
        } else if i > |words[0]| {
          assert s[i] == rest[i - |words[0]| - 1];
        } else {
          assert s[i] == ' ';
        }
      }
    }
  }

  const InvalidBinary: string := "Error: Invalid binary sequence."

  /** In CPython 3.12 `chr` first converts its argument to a C `int`:
      values from 2^31 on raise `OverflowError` there, and values that fit
      but are not code points raise `ValueError`. */
  const CIntLimit: nat := 0x8000_0000
  const ChrRangeError: string := "chr() arg not in range(0x110000)"
  const ChrOverflowError: string := "Python int too large to convert to C int"

  /** `words[k]` is the first numeral that is not a code point. */
  predicate FirstInvalid(words: seq<string>, k: int) {
    && 0 <= k < |words| && BitsValue(words[k]) >= 0x11_0000
    && forall j :: 0 <= j < k ==> BitsValue(words[j]) < 0x11_0000
  }

  /** Binary to text, `''.join(chr(int(b, 2)) for b in words)`: each
      numeral becomes the code point it denotes. The first numeral beyond
      U+10FFFF makes `chr` raise: `ValueError` below 2^31 and
      `OverflowError` from 2^31 on. */
  function DecodeNumerals(words: seq<string>): (r: Result<seq<CodePoint>>)
    ensures r.Ok? <==> forall k :: 0 <= k < |words| ==> BitsValue(words[k]) < 0x11_0000
    ensures r.Ok? ==> |r.value| == |words|
    ensures r.Ok? ==> forall k :: 0 <= k < |words| ==> r.value[k] == BitsValue(words[k])
    ensures forall k :: FirstInvalid(words, k) ==>
      r == Raised(if BitsValue(words[k]) < CIntLimit then ChrRangeError else ChrOverflowError)
    decreases |words|
  {
    if |words| == 0 then Ok([])
    else
      var v := BitsValue(words[0]);
      if v >= 0x11_0000 then
        assert FirstInvalid(words, 0);
        Raised(if v < CIntLimit then ChrRangeError else ChrOverflowError)
      else
        var rest := DecodeNumerals(words[1..]);
        assert forall k :: FirstInvalid(words, k) ==> k > 0 && FirstInvalid(words[1..], k - 1);
        match rest
        case Raised(e) => Raised(e)
        case Ok(cps) => Ok([v as CodePoint] + cps)
  }

  /** `TextProcessor.binary_translator`: text made only of spaces and binary
      digits (the empty text included) is decoded, anything else encoded.
      A `ValueError` from decoding gives the error text; an `OverflowError`
      escapes. */
  function BinaryTranslator(text: seq<CodePoint>): (r: Result<seq<CodePoint>>)
    ensures !IsBinaryText(text) ==> r.Ok? && IsBinaryText(r.value)
    ensures !IsBinaryText(text) ==>
      var w := Text.Words(BinaryChars(r.value));
      && |w| == |text|
      && forall k :: 0 <= k < |text| ==> |w[k]| >= 8 && BitsValue(w[k]) == text[k]
    ensures text == [] ==> r == Ok([])
    ensures IsBinaryText(text) ==>
      var words := Text.Words(BinaryChars(text));
      && ((forall k :: 0 <= k < |words| ==> BitsValue(words[k]) < 0x11_0000) ==>
            r.Ok? && |r.value| == |words| && forall k :: 0 <= k < |words| ==> r.value[k] == BitsValue(words[k]))
      && (forall k :: FirstInvalid(words, k) && BitsValue(words[k]) < CIntLimit ==> r == Ok(Lift(InvalidBinary)))
      && (forall k :: FirstInvalid(words, k) && BitsValue(words[k]) >= CIntLimit ==> r == Raised(ChrOverflowError))
  {
    if IsBinaryText(text) then
      match DecodeNumerals(Text.Words(BinaryChars(text)))
      case Ok(decoded) => Ok(decoded)
      case Raised(e) => if e == ChrRangeError then Ok(Lift(InvalidBinary)) else Raised(e)
    else
      EncodeBinaryWords(text);
      assert BinaryChars(Lift(EncodeBinary(text))) == EncodeBinary(text);
      Ok(Lift(EncodeBinary(text)))
  }

  /** Translating a non-binary text twice gives it back. */
  lemma BinaryRoundTrip(text: seq<CodePoint>)
    requires !IsBinaryText(text)
    ensures BinaryTranslator(BinaryTranslator(text).value) == Ok(text)
  {
    var words := Sorting.Map(text, CodePointBinary);
    var s := Text.Join(words, " ");
    var encoded := Lift(s);
    assert BinaryTranslator(text) == Ok(encoded);
    assert BinaryChars(encoded) == s;
    forall k, c | 0 <= k < |words| && c in words[k]
      ensures !Text.IsSpace(c)
    {
      var i :| 0 <= i < |words[k]| && words[k][i] == c;
      assert IsBit(words[k][i]);
    }
    Text.WordsJoin(words);
    forall k | 0 <= k < |words|
      ensures BitsValue(words[k]) == text[k]
    {
      Binary8Value(text[k]);
    }
    var decoded := DecodeNumerals(Text.Words(BinaryChars(encoded)));
    assert decoded.Ok?;
    assert decoded.value == text;
  }

  // ---------------------------------------------------------------------
  // repeating_text
  // ---------------------------------------------------------------------

  const TimesError: string := "Error: 'Times' must be a non-negative number."

  /** `[text] * n`. */
  function Copies(text: string, n: nat): (r: seq<string>)
    ensures |r| == n
    ensures forall i :: 0 <= i < n ==> r[i] == text
  {
    seq(n, i => text)
  }

  /** `TextProcessor.repeating_text`: a negative count is an error message,
      otherwise `times` copies joined by the separator. */
  function RepeatingText(text: string, times: int, separator: string): (r: string)
    ensures times < 0 ==> r == TimesError
    ensures times == 0 ==> r == ""
  {
    if times < 0 then TimesError else Text.Join(Copies(text, times), separator)
  }

  /** The output holds `times` copies and `times - 1` separators. */
  lemma {:induction false} RepeatingTextLength(text: string, times: nat, separator: string)
    requires times > 0
    ensures |RepeatingText(text, times, separator)| == times * |text| + (times - 1) * |separator|
    decreases times
  {
    if times > 1 {
      RepeatingTextLength(text, times - 1, separator);
      assert Copies(text, times)[1..] == Copies(text, times - 1);
    }
  }

  /** Splitting the output at a one-character separator that does not occur
      in the text gives the copies back. */
  lemma RepeatingTextSplits(text: string, times: nat, sep: char)
    requires times > 0 && sep !in text
    ensures Text.Split(RepeatingText(text, times, [sep]), sep) == Copies(text, times)
  {
    Text.SplitJoin(Copies(text, times), sep);
  }

  // ---------------------------------------------------------------------
  // alphabetical_sorter
  // ---------------------------------------------------------------------

  /** The order of `sort(key=str.lower)`. */
  predicate CaseInsensitiveLe(a: string, b: string) {
    Sorting.LexLe(Text.Lower(a), Text.Lower(b))
  }

  /** The order of `sort(key=str.lower, reverse=True)`. */
  predicate CaseInsensitiveGe(a: string, b: string) {
    CaseInsensitiveLe(b, a)
  }

  lemma CaseInsensitiveOrders()
    ensures Sorting.TotalPreorder(CaseInsensitiveLe)
    ensures Sorting.TotalPreorder(CaseInsensitiveGe)
  {
    forall a, b
      ensures CaseInsensitiveLe(a, b) || CaseInsensitiveLe(b, a)
    {
      Sorting.LexLeTotal(Text.Lower(a), Text.Lower(b));
    }
    forall a, b, c | CaseInsensitiveLe(a, b) && CaseInsensitiveLe(b, c)
      ensures CaseInsensitiveLe(a, c)
    {
      Sorting.LexLeTransitive(Text.Lower(a), Text.Lower(b), Text.Lower(c));
    }
    forall a, b, c | CaseInsensitiveGe(a, b) && CaseInsensitiveGe(b, c)
      ensures CaseInsensitiveGe(a, c)
    {
      Sorting.LexLeTransitive(Text.Lower(c), Text.Lower(b), Text.Lower(a));
    }
  }

  /** `list(dict.fromkeys(xs))`: the first occurrence of every element, in order. */
  function Dedupe(xs: seq<string>): (r: seq<string>)
    ensures forall x :: x in r <==> x in xs
    ensures Sorting.Distinct(r)
    decreases |xs|
  {
    if |xs| == 0 then []
    else
      var init, last := xs[..|xs| - 1], xs[|xs| - 1];
      assert xs == init + [last];
      var d := Dedupe(init);
      if last in d then d else d + [last]
  }

  /** The lines `alphabetical_sorter` sorts: `splitlines()`, each stripped
      when `trim` is set. */
  function InputLines(text: string, trim: bool): seq<string> {
    var lines := Text.SplitLines(text);
    if trim then Sorting.Map(lines, Text.Strip) else lines
  }

  /** The sorted line list of `alphabetical_sorter`: a rearrangement of
      the input lines (of their first occurrences under `unique_only`),
      ordered case-insensitively, descending exactly for `"descending"`. */
  function SortedLines(text: string, order: string, uniqueOnly: bool, trim: bool): (r: seq<string>)
    ensures !uniqueOnly ==> multiset(r) == multiset(InputLines(text, trim))
    ensures uniqueOnly ==> multiset(r) == multiset(Dedupe(InputLines(text, trim)))
    ensures uniqueOnly ==> Sorting.Distinct(r) && forall x :: x in r <==> x in InputLines(text, trim)
    ensures order != "descending" ==> Sorting.SortedBy(r, CaseInsensitiveLe)
    ensures order == "descending" ==> Sorting.SortedBy(r, CaseInsensitiveGe)
  {
    var lines := InputLines(text, trim);
    var kept := if uniqueOnly then Dedupe(lines) else lines;
    CaseInsensitiveOrders();
    var r := Sorting.Sort(kept, if order == "descending" then CaseInsensitiveGe else CaseInsensitiveLe);
    SameElements(kept, r);
    r
  }

  /** A rearrangement has the same elements, and no duplicates when the
      original has none. */
  lemma SameElements(a: seq<string>, b: seq<string>)
    requires multiset(a) == multiset(b)
    ensures forall x :: x in a <==> x in b
    ensures Sorting.Distinct(a) ==> Sorting.Distinct(b)
  {
    assert forall x :: x in a <==> x in multiset(a);
    assert forall x :: x in b <==> x in multiset(b);
    if Sorting.Distinct(a) {
      Sorting.DistinctPermutation(a, b);
    }
  }

  /** `TextProcessor.alphabetical_sorter`: the sorted lines joined by newlines. */
  function AlphabeticalSorter(text: string, order: string, uniqueOnly: bool, trim: bool): string {
    Text.Join(SortedLines(text, order, uniqueOnly, trim), "\n")
  }

  // ---------------------------------------------------------------------
  // strong_password
  // ---------------------------------------------------------------------

  /** `string.ascii_letters + string.digits + string.punctuation`. */
  const PasswordAlphabet: string :=
    "abcdefghijklmnopqrstuvwxyzABCDEFGHIJKLMNOPQRSTUVWXYZ0123456789"
    + "!\"#$%&'()*+,-./:;<=>?@[\\]^_`{|}~"

  const PasswordError: string := "Error: Password length must be a positive number."

  /** The `length` random picks from the alphabet; `pick(i)` stands for the
      `i`-th call of `random.choice`. */
  function Draw(length: nat, pick: nat -> nat): (r: string)
    ensures |r| == length
    ensures forall i :: 0 <= i < length ==> r[i] in PasswordAlphabet
  {
    seq(length, i requires 0 <= i < length => PasswordAlphabet[pick(i) % |PasswordAlphabet|])
  }

  /** The required characters written over the first positions, as far as
      the password reaches. */
  function Overwrite(password: string, must: string): (r: string)
    ensures |r| == |password|
    ensures |must| <= |password| ==> r == must + password[|must|..]
    ensures forall i :: 0 <= i < |r| ==> r[i] == if i < |must| then must[i] else password[i]
  {
    if |must| <= |password| then must + password[|must|..]
    else must[..|password|]
  }

  /** `random.shuffle`: for `i` from the last index down to 1, swap position
      `i` with position `swap(i) % (i + 1)`. */
  method Shuffle(xs: string, swap: nat -> nat) returns (r: string)
    ensures |r| == |xs|
    ensures multiset(r) == multiset(xs)
  {
    r := xs;
    var i := |xs| - 1;
    while i >= 1
      invariant |r| == |xs|
      invariant i < |xs|
      invariant multiset(r) == multiset(xs)
      decreases i
    {
      var j := swap(i) % (i + 1);
      var ri, rj := r[i], r[j];
      r := r[i := rj][j := ri];
      i := i - 1;
    }
  }

  /** `TextProcessor.strong_password`, with the random choices as parameters:
      exactly `length` characters from the alphabet or the required ones, and
      every required character present when they all fit. */
  method StrongPassword(length: int, numbers: string, symbols: string, pick: nat -> nat, swap: nat -> nat)
    returns (r: string)
    ensures length <= 0 ==> r == PasswordError
    ensures length > 0 ==> |r| == length
    ensures length > 0 ==> forall i :: 0 <= i < |r| ==> r[i] in PasswordAlphabet || r[i] in numbers + symbols
    ensures length > 0 && |numbers + symbols| <= length ==> multiset(numbers + symbols) <= multiset(r)
  {
    if length <= 0 {
      return PasswordError;
    }
    var password := Draw(length, pick);
    var must := numbers + symbols;
    if |must| > 0 {
      var placed := Overwrite(password, must);
      r := Shuffle(placed, swap);
      forall i | 0 <= i < |r|
        ensures r[i] in PasswordAlphabet || r[i] in must
      {
        assert r[i] in multiset(placed);
        var k :| 0 <= k < |placed| && placed[k] == r[i];
      }
    } else {
      r := password;
    }
  }

  // ---------------------------------------------------------------------
  // _preprocess_for_diff
  // ---------------------------------------------------------------------

  datatype DiffLine = DiffLine(raw: string, cmp: string)

  /** The comparison key of one line under a diff option. */
  function CompareKey(line: string, option: string): (r: string)
    ensures option == "ignore_whitespace" ==> r == Text.Join(Text.Words(line), " ")
  {
    Text.NormalizedSpace(line);
    if option == "ignore_case" then Text.Lower(line)
    else if option == "ignore_whitespace" then Text.Strip(Text.CollapseSpace(line))
    else line
  }

  /** `PromeraAIApp._preprocess_for_diff`: one entry per line of the text,
      the raw line next to its comparison key. */
  function PreprocessForDiff(text: string, option: string): (r: seq<DiffLine>)
    ensures |r| == |Text.SplitLines(text)|
    ensures forall k :: 0 <= k < |r| ==> r[k].raw == Text.SplitLines(text)[k]
    ensures option == "ignore_case" ==> forall k :: 0 <= k < |r| ==> r[k].cmp == Text.Lower(r[k].raw)
    ensures option == "ignore_whitespace" ==> forall k :: 0 <= k < |r| ==> r[k].cmp == Text.Join(Text.Words(r[k].raw), " ")
    ensures option != "ignore_case" && option != "ignore_whitespace" ==> forall k :: 0 <= k < |r| ==> r[k].cmp == r[k].raw
  {
    var lines := Text.SplitLines(text);
    seq(|lines|, k requires 0 <= k < |lines| => DiffLine(lines[k], CompareKey(lines[k], option)))
  }
}

=== FILE: wrappers.dfy ===
/** Failure-compatible wrappers shared by every module of the model. */
module Wrappers {

  /** A value that may be absent (Python `None`). */
  datatype Option<+T> = None | Some(value: T) {
    function GetOr(default: T): T {
      match this
      case Some(v) => v
      case None => default
    }
  }

  /** The outcome of a Python call that either returns a value or raises
      an exception, of which only the message `str(e)` is kept. */
  datatype Result<+T> = Ok(value: T) | Raised(message: string)
}
